=== FILE: README.md ===
# carms-mini-data-platform: the reconciliation-and-load pipeline in Dafny

This project models the core of the CaRMS mini data platform. The core reads
three exports: the discipline sheet, the program master sheet and the wide
table of program-description sections. It reconciles the two program tables
on a stable program-stream id, shapes the rows of five tables and replaces
those tables in one database transaction.

The repository implements this pipeline three times, and the model covers all three:

- the Dagster asset graph (`etl_assets.py`);
- the single Dagster op (`etl.py`), which inlines the same steps;
- the stand-alone script (`load_to_postgres.py`), which joins on the program URL instead of the extracted id.

| file | module | what it holds |
|---|---|---|
| `wrappers.dfy` | `Wrappers`, `Errors` | `Option`, `Result`, one error constructor per exception the program raises |
| `strings.dfy` | `Strings` | Python's `isspace`, `strip`, the NBSP/BOM cleaning of `_clean_text_series`, decimal printing and parsing |
| `order.dfy` | `Order` | the positions a filter keeps, in increasing order, and the pairs a nested loop visits, in row-major order; the order of every filter and of the join is stated through them |
| `frames.dfy` | `Frames` | a positional data frame of cells (`Missing`, `Int`, `Text`), and the pandas operations the pipeline uses: column selection, `drop`, `dropna`, `drop_duplicates`, column assignment, `rename`, `itertuples` and the inner `merge` with suffixes |
| `key_extractor.dfy` | `KeyExtractor` | the three hand-coded regular expressions, each with a declarative match predicate, the 95 % threshold and the strategy choice |
| `join_validator.dfy` | `JoinValidator` | `x_section_with_id`, `joined_master_xsection`, and what their count checks do and do not guarantee |
| `shaper.dfy` | `Shaper` | `prepared_payload`: dimensions, program streams, description headers and the flattened sections |
| `loader.dfy` | `Loader` | the transaction as a state machine over four keyed tables and the section list, with commit, rollback and an event trace |
| `pipeline.dfy` | `Pipeline` | the asset graph end to end, the inline op (proved equal to the graph), and the script variant |

Conventions of the model:

- A frame is a list of distinct column names and rows of cells.
- A cell is `Missing` (NaN, `<NA>`, `None`), `Int(i)` or `Text(s)`.
- The five SQL tables become four maps from primary key to row, plus the appended list of section rows.
- Database errors the model cannot see are a parameter of the load: the set of statements that fault. These include foreign-key violations, column-type errors and server failures.
- A row that does not fit its `INSERT` also fails its statement. That is a row of the wrong width, one whose key is NULL, or one with NaN in an integer column.
- The asset graph and the op hand `itertuples()` straight to the driver, so a missing cell reaches the database as the float NaN. Only the script's `df_rows` turns missing cells into None, that is NULL.
- The existence of the input files is a boolean parameter of the script.

What the code's checks do and do not enforce:

- The threshold counts non-null ids only. It does not require them to be unique.
- The error messages report counts. They do not name the duplicated ids.
- When the merged table has more than one program-name column, the code picks one (`program_name_x`, then `program_name_m`, then `program_name`). It never stops with an ambiguity error.
- A duplicated extracted id is refused by the distinct-count check only when the description table has exactly as many rows as the master (`JoinValidator.DuplicateIdRefused`). Otherwise the duplicate may be absorbed: `JoinValidator.CountChecksAdmitMismatch` gives ids that pass both checks although they do not match up.

## Model

| member | source | states |
|---|---|---|
| `Strings.Strip` | dagster_app/dagster_app/assets/etl_assets.py:29 | the result has no whitespace at either end and is no longer than the input |
| `Strings.StripIsSlice` | dagster_app/dagster_app/assets/etl_assets.py:29 | `strip` removes only whitespace, and only from the ends: the result is a slice `s[i..j]` with nothing but whitespace outside it |
| `Strings.StripIdempotent` | dagster_app/dagster_app/assets/etl_assets.py:29 | stripping twice is stripping once |
| `Strings.ReplaceNbsp` | dagster_app/dagster_app/assets/etl_assets.py:27 | same length, every NBSP becomes a space, every other character is unchanged, no NBSP is left |
| `Strings.ReplaceNbspAppend` | dagster_app/dagster_app/assets/etl_assets.py:27 | the replacement works character by character: it distributes over concatenation |
| `Strings.RemoveBom` | dagster_app/dagster_app/assets/etl_assets.py:28 | no BOM is left, nothing is added, every character kept comes from the input |
| `Strings.RemoveBomKeeps` | dagster_app/dagster_app/assets/etl_assets.py:28 | every character of the input other than the BOM survives the removal |
| `Strings.RemoveBomAppend` | dagster_app/dagster_app/assets/etl_assets.py:28 | BOM removal distributes over concatenation |
| `Strings.RemoveBomNoop` | dagster_app/dagster_app/assets/etl_assets.py:28 | text without a BOM is left as it is |
| `Strings.Clean` | dagster_app/dagster_app/assets/etl_assets.py:24-30 | the cleaned text is stripped and free of NBSP and BOM; it is made only of characters of the input or spaces; it keeps every character that is not whitespace, NBSP or BOM; and it is empty exactly when the input is nothing but such padding |
| `Strings.CleanOfClean` | dagster_app/dagster_app/assets/etl_assets.py:24-30 | cleaning is the identity on text that is already clean, so cleaning twice is cleaning once |
| `Strings.CleanPadded` | dagster_app/dagster_app/assets/etl_assets.py:24-30 | text that is stripped and free of NBSP and BOM, surrounded by any padding of whitespace, NBSP and BOM, cleans to exactly that text |
| `Strings.CleanKeepsTail` | dagster_app/dagster_app/assets/etl_assets.py:24-30 | a stripped tail without NBSP or BOM, followed only by padding, survives cleaning at the end of the result |
| `Strings.ShowNatRoundTrip` | dagster_app/dagster_app/assets/etl_assets.py:44 | the decimal digits printed for a natural number parse back to that number |
| `Strings.ParseSigned` | dagster_app/dagster_app/assets/etl_assets.py:219 | `int("+" + d)` is `int(d)` and `int("-" + d)` is its negation, for any digits `d`, leading zeros included |
| `Strings.ParseShowInt` | dagster_app/dagster_app/assets/etl_assets.py:219 | `int(str(i)) == i` for every integer, negative ones included |
| `Strings.ParseInt` | dagster_app/dagster_app/assets/etl_assets.py:219 | `int(s)` on stripped text, restricted to ASCII digits, succeeds exactly on an optional sign followed by one or more digits; the value is non-negative without a minus sign, non-positive with one, and it is the digits' value for bare digits or after `+`, and their negation after `-` |
| `Strings.ShowDigitsValue` | dagster_app/dagster_app/assets/etl_assets.py:44 | digits without a leading zero are the decimal printing of their own value |
| `Strings.ParseLeadingZero` | dagster_app/dagster_app/assets/etl_assets.py:44 | a leading zero does not change the number text parses to, so `0012` reads as 12 |
| `Frames.Column` | dagster_app/dagster_app/assets/etl_assets.py:119 | `df[c]` is the column's cells when `c` is a column and KeyError(c) exactly when it is not |
| `Frames.Select` | dagster_app/dagster_app/assets/etl_assets.py:153 | `df[cols]` succeeds iff every name is a column, fails with KeyError naming an absent one, and otherwise keeps every row with the cells of `cols` in that order |
| `Frames.Drop` | dagster_app/dagster_app/assets/etl_assets.py:80-81 | dropping a column keeps every row and every other column's cells |
| `Frames.Without` | dagster_app/dagster_app/assets/etl_assets.py:81 | the remaining column names are exactly the others, still distinct |
| `Frames.DropNa` | dagster_app/dagster_app/assets/etl_assets.py:153 | the rows kept are exactly the input rows without a missing cell, in their input order: the rows at the positions where the row is complete |
| `Frames.DropDuplicates` | dagster_app/dagster_app/assets/etl_assets.py:153 | the rows kept are pairwise distinct and are exactly the distinct input rows, each at its first occurrence, in input order |
| `Frames.FirstOccurrences` | dagster_app/dagster_app/assets/etl_assets.py:153 | the rows not yet seen, no row twice, and every such row present |
| `Frames.FirstOccurrencesInOrder` | dagster_app/dagster_app/assets/etl_assets.py:153 | `drop_duplicates` keeps the rows at the positions where a row occurs for the first time, in increasing position |
| `Frames.CompleteRows` | dagster_app/dagster_app/assets/etl_assets.py:153 | keeps exactly the rows with no missing cell, at their positions in increasing order |
| `Frames.FirstOfComplete` | dagster_app/dagster_app/assets/etl_assets.py:153 | `dropna().drop_duplicates()` keeps the rows at the positions of complete rows not seen before, in increasing position |
| `Frames.WithColumn` | dagster_app/dagster_app/assets/etl_assets.py:99 | `df[c] = cells` overwrites column `c` in place or appends it at the right, sets its cells, and leaves every other cell alone |
| `Frames.ReplaceColumn` | scripts/load_to_postgres.py:55 | overwriting an existing column changes only that column |
| `Frames.AppendColumn` | dagster_app/dagster_app/assets/etl_assets.py:170 | a new column goes at the right end and the old cells are kept |
| `Frames.Rename` | dagster_app/dagster_app/assets/etl_assets.py:193 | rows unchanged; each column named in the mapping takes its new name and the others keep theirs |
| `Frames.Tuples` | scripts/load_to_postgres.py:14-17 | `df_rows`: one tuple per row in order, one value per column in column order, and a value is None exactly when its cell is missing |
| `Frames.AsNaN` | dagster_app/dagster_app/assets/etl_assets.py:264-319 | a tuple handed to the driver without conversion: a missing cell becomes the NaN literal, every other value is unchanged, and nothing is sent as NULL |
| `Frames.AsNaNRows` | dagster_app/dagster_app/assets/etl.py:206-261 | every tuple of the table is sent that way, in order |
| `Frames.AsNaNOnlyAtMissing` | dagster_app/dagster_app/assets/etl_assets.py:264-319 | a tuple is sent unchanged exactly when it has no missing cell |
| `Frames.Suffixed` | dagster_app/dagster_app/assets/etl_assets.py:128 | a column shared with the other side gets the suffix, any other keeps its name |
| `Frames.Matches` | dagster_app/dagster_app/assets/etl_assets.py:123-129 | one left row is joined with exactly the right rows whose key equals its key, and there are as many joined rows as such right rows |
| `Frames.MatchesInOrder` | dagster_app/dagster_app/assets/etl_assets.py:123-129 | those joined rows follow the order of the right rows |
| `Frames.JoinRows` | dagster_app/dagster_app/assets/etl_assets.py:123-129 | the inner join has one row per pair of equal keys, and a row is in it iff it is such a left row followed by such a right row |
| `Frames.JoinRowsInOrder` | dagster_app/dagster_app/assets/etl_assets.py:123-129 | the joined rows list the pairs of equal keys in row-major order: by left row, then by right row |
| `Frames.Merge` | dagster_app/dagster_app/assets/etl_assets.py:123-129 | KeyError for a missing key column; MergeError exactly when the suffixed names repeat within one side; DuplicateColumns when they collide across the sides; otherwise the inner join, with its columns, its row count, exactly its rows, and those rows in row-major order of the pairs of equal keys |
| `Frames.JoinedRows` | dagster_app/dagster_app/assets/etl_assets.py:123-129 | each joined row is as wide as both sides together, there are as many as pairs of equal keys, and they are exactly the left row followed by the right row of such a pair |
| `Frames.MergeInOrder` | dagster_app/dagster_app/assets/etl_assets.py:123-129 | the merged rows, by key name, come in row-major order of the pairs of equal keys |
| `Frames.CrossSideCollision` | dagster_app/dagster_app/assets/etl_assets.py:128 | a left `a` suffixed to `a_m` that meets a right column already named `a_m` is refused, with DuplicateColumns |
| `Frames.MergedRightCell` | dagster_app/dagster_app/assets/etl_assets.py:128 | a merged row's cell under the suffixed name of a right column is the right row's cell |
| `Frames.MergedLeftCell` | dagster_app/dagster_app/assets/etl_assets.py:128 | likewise for a left column |
| `KeyExtractor.DigitSuffix` | dagster_app/dagster_app/assets/etl_assets.py:42 | the longest digit run ending the text: all digits, a suffix, and not preceded by a digit |
| `KeyExtractor.DigitSuffixOf` | dagster_app/dagster_app/assets/etl_assets.py:42 | any all-digit tail preceded by a non-digit is that run |
| `KeyExtractor.TrailingMatchShape` | dagster_app/dagster_app/assets/etl_assets.py:42 | every match of `(\d+)\s*$` ends its group where the trailing whitespace starts and starts no earlier than the longest digit run |
| `KeyExtractor.TrailingDigitsIsLeftmostMatch` | dagster_app/dagster_app/assets/etl_assets.py:42 | the trailing-digit group is the group of the leftmost match of `(\d+)\s*$`, and None exactly when the pattern matches nowhere |
| `KeyExtractor.LastIndexOf` | dagster_app/dagster_app/assets/etl_assets.py:43 | the position of the last hyphen, or None when there is none |
| `KeyExtractor.HyphenMatchShape` | dagster_app/dagster_app/assets/etl_assets.py:43 | every match of `.*-\s*(\d+)\s*$` uses the last hyphen and its group is the stripped text after it |
| `KeyExtractor.HyphenDigitsWitness` | dagster_app/dagster_app/assets/etl_assets.py:43 | when the code finds a hyphen group, the pattern matches with exactly that group |
| `KeyExtractor.HyphenGroupAt` | dagster_app/dagster_app/assets/etl_assets.py:43 | digits after a hyphen, padded only by whitespace, form a match at that hyphen |
| `KeyExtractor.HyphenDigitsMatchesRegex` | dagster_app/dagster_app/assets/etl_assets.py:43 | the code's hyphen group is the group of a match of `.*-\s*(\d+)\s*$`, and every match yields it |
| `KeyExtractor.HyphenMatchIsTrailing` | dagster_app/dagster_app/assets/etl_assets.py:42-43 | the group of a hyphen match is also the trailing-digit group |
| `KeyExtractor.HyphenAgreesWithTrailing` | dagster_app/dagster_app/assets/etl_assets.py:42-44 | whenever the hyphen pattern matches, the trailing-digit pattern captures the same digits |
| `KeyExtractor.DocumentIdIsTrailingRun` | dagster_app/dagster_app/assets/etl_assets.py:42-44 | `m2.fillna(m1)` is simply the trailing digit run |
| `KeyExtractor.DocumentIdValue` | dagster_app/dagster_app/assets/etl_assets.py:41-44 | a `document_id` cell yields the number of the leftmost match of `(\d+)\s*$` in its cleaned text, and none exactly when the pattern matches nowhere |
| `KeyExtractor.UrlMatchAtSpec` | dagster_app/dagster_app/assets/etl_assets.py:51 | at a given start, the code's group is the group of the only match of `/\d+/(\d+)\b` there, and every match there yields it |
| `KeyExtractor.UrlMatchFrom` | dagster_app/dagster_app/assets/etl_assets.py:51 | the first position from which the URL pattern matches, with no match before it, or None when there is none |
| `KeyExtractor.UrlDigitsIsLeftmostMatch` | dagster_app/dagster_app/assets/etl_assets.py:51 | the URL group is the group of the leftmost match of `/\d+/(\d+)\b`, and None exactly when the pattern matches nowhere |
| `KeyExtractor.IterationUrl` | dagster_app/dagster_app/assets/etl_assets.py:51 | a URL `<base>/<iteration>/<id><rest>` with no digit in the base yields `<id>` |
| `KeyExtractor.SourceUrlValue` | dagster_app/dagster_app/assets/etl_assets.py:50-52 | a `source` cell yields the number of the leftmost match of `/\d+/(\d+)\b` in its cleaned text, and none exactly when the pattern matches nowhere |
| `KeyExtractor.HyphenatedDocumentId` | dagster_app/dagster_app/assets/etl_assets.py:41-44 | a document id `<prefix>-<digits>`, whatever the prefix and followed by any padding of whitespace, NBSP or BOM, yields the value of `<digits>` |
| `KeyExtractor.HyphenatedDigits` | dagster_app/dagster_app/assets/etl_assets.py:43 | the hyphen pattern captures `<digits>` from `<prefix>-<digits>` |
| `KeyExtractor.DigitsDocumentId` | dagster_app/dagster_app/assets/etl_assets.py:41-44 | a document id of bare digits yields their value |
| `KeyExtractor.DigitsAreClean` | dagster_app/dagster_app/assets/etl_assets.py:41 | bare digits are left unchanged by cleaning |
| `KeyExtractor.DigitsAreTrailingRun` | dagster_app/dagster_app/assets/etl_assets.py:42 | bare digits are their own trailing digit run |
| `KeyExtractor.NumericDocumentId` | dagster_app/dagster_app/assets/etl_assets.py:41-44 | an integer document id yields its absolute value, since `str(-5)` ends in `-5` |
| `KeyExtractor.NegativeDocumentId` | dagster_app/dagster_app/assets/etl_assets.py:41-44 | a negative integer document id yields its negation |
| `KeyExtractor.TextualValue` | dagster_app/dagster_app/assets/etl_assets.py:41 | both strategies see a cell only through its `astype(str)` text |
| `KeyExtractor.Threshold` | dagster_app/dagster_app/assets/etl_assets.py:45 | `max(1, int(0.95 * n))`: at least 1, at most n for n ≥ 1, and either 1 or the largest t with 100 t ≤ 95 n |
| `KeyExtractor.CountSome` | dagster_app/dagster_app/assets/etl_assets.py:45 | the non-null count is at most n, and equals n exactly when every id is present |
| `KeyExtractor.ExtractProgramStreamId` | dagster_app/dagster_app/assets/etl_assets.py:33-56 | the document-id strategy is chosen iff it is accepted; otherwise the URL strategy iff it is accepted; otherwise ValueError. The ids are the chosen strategy's column, with one id per row, and they reach the threshold |
| `JoinValidator.WithIds` | dagster_app/dagster_app/assets/etl_assets.py:98-99 | the rows keep every other cell and gain the extracted id in the helper column, which has no missing cell |
| `JoinValidator.IdsFrom` | dagster_app/dagster_app/assets/etl_assets.py:99-107 | ValueError passes through; the result is refused with the strategy tag and the bad and total counts exactly when some id is missing; otherwise the ids are stored |
| `JoinValidator.XSectionWithId` | dagster_app/dagster_app/assets/etl_assets.py:94-107 | on success the input rows are unchanged but for the one added helper column, which has no missing id; on failure the error is ValueError or an incomplete extraction with 0 < bad ≤ total |
| `JoinValidator.XSectionWithIdUsesExtraction` | dagster_app/dagster_app/assets/etl_assets.py:94-107 | success iff every row got an id, and then row i's helper cell is the i-th extracted id |
| `JoinValidator.ValuesCard` | dagster_app/dagster_app/assets/etl_assets.py:119 | `nunique(dropna=True)` is at most the row count, and equal to it iff the ids are pairwise distinct and none is missing |
| `JoinValidator.DistinctCons` | dagster_app/dagster_app/assets/etl_assets.py:119 | a column is duplicate-free iff its head does not recur and its tail is duplicate-free |
| `JoinValidator.JoinedMasterXSection` | dagster_app/dagster_app/assets/etl_assets.py:110-134 | refuses with the unique and expected counts when the distinct-id count is off; succeeds iff both count checks pass; a join failure reports the join count; on success as many merged rows as master rows, namely the joined pairs |
| `JoinValidator.CountChecksAdmitMismatch` | dagster_app/dagster_app/assets/etl_assets.py:118-132 | master ids {1, 2} against extracted ids {1, 1, 3} pass both checks although neither side's ids are all matched |
| `JoinValidator.CountDistinct` | dagster_app/dagster_app/assets/etl_assets.py:123-129 | in a duplicate-free key column a key matches at most once |
| `JoinValidator.JoinCountDistinct` | dagster_app/dagster_app/assets/etl_assets.py:123-132 | with duplicate-free extracted ids the join has at most one row per master row, and exactly one each iff every master id occurs among them |
| `JoinValidator.ChecksMeanBijection` | dagster_app/dagster_app/assets/etl_assets.py:118-132 | with duplicate-free ids on both sides, the checks pass iff the two id sets are equal and no master id is missing |
| `JoinValidator.PassingChecksMatchIds` | dagster_app/dagster_app/assets/etl_assets.py:118-132 | the checks-pass direction of that equivalence |
| `JoinValidator.MatchingIdsPassChecks` | dagster_app/dagster_app/assets/etl_assets.py:118-132 | the equal-sets direction of that equivalence |
| `JoinValidator.DuplicateIdRefused` | dagster_app/dagster_app/assets/etl_assets.py:118-121 | when the description table has as many rows as the master, a duplicated id is refused by the uniqueness check |
| `Shaper.Dimension` | dagster_app/dagster_app/assets/etl_assets.py:153-154 | a dimension exists iff its columns do; its rows are distinct, complete, exactly the complete projections of the input rows, and in the order of their first occurrence |
| `Shaper.DimensionRows` | dagster_app/dagster_app/assets/etl_assets.py:153-154 | dimension tuples are distinct, complete and of the dimension's width, or KeyError |
| `Shaper.Dimensions` | dagster_app/dagster_app/assets/etl_assets.py:153-154 | school and discipline tuples are both distinct, complete and two wide, or KeyError |
| `Shaper.StreamColumnsDistinct` | dagster_app/dagster_app/assets/etl_assets.py:156-170 | the ten selected stream columns are distinct and do not include `match_iteration_id` |
| `Shaper.ProgramStreams` | dagster_app/dagster_app/assets/etl_assets.py:156-170 | exists iff the ten columns do; one row per master row, with those cells and `match_iteration_id = 1503` appended |
| `Shaper.StreamRows` | dagster_app/dagster_app/assets/etl_assets.py:156-170 | one eleven-value tuple per master row, the last always 1503 |
| `Shaper.ProgramNameColumn` | dagster_app/dagster_app/assets/etl_assets.py:172-178 | `program_name_x` if present, else `program_name_m` if present, else `program_name` |
| `Shaper.ProgramNameFromDescription` | dagster_app/dagster_app/assets/etl_assets.py:172-178 | when both tables have `program_name`, the chosen `program_name_x` holds the description table's value |
| `Shaper.ProgramDescriptions` | dagster_app/dagster_app/assets/etl_assets.py:180-193 | exists iff the eight source columns do; one row per merged row, with the eight cells in order under the renamed headers |
| `Shaper.DescriptionColumnsDistinct` | dagster_app/dagster_app/assets/etl_assets.py:180-193 | the selected and the renamed description columns are distinct |
| `Shaper.RenamedDescriptionColumns` | dagster_app/dagster_app/assets/etl_assets.py:193 | the rename yields exactly the eight description headers |
| `Shaper.DescriptionRows` | dagster_app/dagster_app/assets/etl_assets.py:180-193 | one eight-value tuple per merged row, or KeyError |
| `Shaper.Facts` | dagster_app/dagster_app/assets/etl_assets.py:156-193 | stream and description tuples with their counts and shapes, or KeyError |
| `Shaper.SectionColumns` | dagster_app/dagster_app/assets/etl_assets.py:206 | the section columns are exactly the non-meta columns, in the table's column order |
| `Shaper.IntOf` | dagster_app/dagster_app/assets/etl_assets.py:219 | `int(pdid)`: an integer as is; text iff it parses once stripped (ASCII digits only), and then the number it writes; otherwise ValueError naming the text |
| `Shaper.CellSections` | dagster_app/dagster_app/assets/etl_assets.py:213-219 | a cell yields at most one row, exactly when it is present and not blank after stripping, and only then is the id converted |
| `Shaper.RowSections` | dagster_app/dagster_app/assets/etl_assets.py:209-219 | a row fails iff it has a kept cell and a non-integer id; otherwise it yields exactly the rows its cells emit |
| `Shaper.RowSectionsPick` | dagster_app/dagster_app/assets/etl_assets.py:209-219 | a row's section rows are its candidate rows at the positions of the kept cells, in column order |
| `Shaper.RowSectionsInOrder` | dagster_app/dagster_app/assets/etl_assets.py:209-219 | the k-th section row of a row comes from its k-th kept cell |
| `Shaper.SectionsFrom` | dagster_app/dagster_app/assets/etl_assets.py:208-219 | flattening fails, with ValueError, iff some row with a present id has a kept cell and a non-integer id |
| `Shaper.SectionsFromMembers` | dagster_app/dagster_app/assets/etl_assets.py:208-219 | the flattened rows are exactly the section rows some row's cells emit |
| `Shaper.SectionsFromInOrder` | dagster_app/dagster_app/assets/etl_assets.py:208-219 | from a given row on, the section rows list the kept cells in row-major order: by row, then by column |
| `Shaper.Sections` | dagster_app/dagster_app/assets/etl_assets.py:195-219 | flattening fails only with ValueError, and every section row names a column of the table outside the meta columns and carries stripped, non-empty text |
| `Shaper.SectionsInOrder` | dagster_app/dagster_app/assets/etl_assets.py:195-219 | the k-th section row comes from the k-th kept cell of the table in row-major order |
| `Shaper.SectionsSound` | dagster_app/dagster_app/assets/etl_assets.py:208-219 | every section row comes from a present, non-blank cell of a non-meta column in a row with a present id |
| `Shaper.SectionsComplete` | dagster_app/dagster_app/assets/etl_assets.py:208-219 | every such cell gives its section row |
| `Shaper.IntegerIdsFlatten` | scripts/load_to_postgres.py:57-59 | with integer (or missing) description ids, flattening never raises |
| `Shaper.Shape` | dagster_app/dagster_app/assets/etl_assets.py:137-227 | the payload fails only with KeyError or, in flattening, ValueError; on success it has one stream per master row and one description per merged row, and every part has the shape its INSERT expects |
| `Shaper.IntegerIdsShape` | scripts/load_to_postgres.py:57-59 | with no textual description id, shaping can fail only with KeyError |
| `Shaper.PreparedPayload` | dagster_app/dagster_app/assets/etl_assets.py:137-227 | no section row names a meta column or the helper column, and there is one description per merged row |
| `Loader.Upsert` | dagster_app/dagster_app/assets/etl_assets.py:264-320 | `INSERT ... ON CONFLICT DO UPDATE` leaves exactly the old keys plus the rows' keys |
| `Loader.LastWithKey` | dagster_app/dagster_app/assets/etl_assets.py:264-320 | the last row with a key, or None when no row has it |
| `Loader.UpsertAt` | dagster_app/dagster_app/assets/etl_assets.py:264-320 | under each key the last row with that key wins, and keys no row mentions keep their rows |
| `Loader.UpsertIntoEmpty` | dagster_app/dagster_app/assets/etl_assets.py:253-320 | after the truncate, the upsert builds exactly the fresh table: each key once, with its last row |
| `Loader.FreshSize` | dagster_app/dagster_app/assets/etl_assets.py:264-320 | a fresh table has the rows' keys and no more entries than rows |
| `Loader.FirstFailing` | dagster_app/dagster_app/assets/etl_assets.py:251-334 | the first statement that raises, every earlier one succeeding, or None when none raises |
| `Loader.RunStages` | dagster_app/dagster_app/assets/etl_assets.py:251-328 | the statements run in order up to and including the first that raises, whose error is reported; otherwise all of them run |
| `Loader.Runs` | dagster_app/dagster_app/assets/etl_assets.py:251-328 | one run event per statement, in order |
| `Loader.Load` | dagster_app/dagster_app/assets/etl_assets.py:249-336 | commits iff every row fits and no statement faults; on failure the store is unchanged, the first failing statement's error is re-raised after the rollback; on success the store is the fresh replacement; the connection is closed last on every path |
| `Loader.LoadableMeansNoFailingStage` | dagster_app/dagster_app/assets/etl_assets.py:251-334 | no statement raises iff every row fits and nothing faults |
| `Loader.WalkStages` | dagster_app/dagster_app/assets/etl_assets.py:251-329 | a run in which nothing raises ends in the store the seven statements build in order |
| `Loader.WalkFirstStages` | dagster_app/dagster_app/assets/etl_assets.py:253-276 | the truncate and the two parent upserts, in order |
| `Loader.WalkLastStages` | dagster_app/dagster_app/assets/etl_assets.py:278-329 | the child upserts, the section insert and the commit, in order |
| `Loader.AppliedIsReplaced` | dagster_app/dagster_app/assets/etl_assets.py:253-327 | the statements build exactly the fresh tables and the payload's sections, whatever the store held before |
| `Loader.LoadIdempotent` | dagster_app/dagster_app/assets/etl_assets.py:233 | rerunning a successful load changes nothing, and the loaded store does not depend on the prior store |
| `Loader.SectionFailureRollsBack` | dagster_app/dagster_app/assets/etl_assets.py:322-334 | a failing section insert leaves the store exactly as before, after six statements, a rollback and the close |
| `Loader.Unconverted` | dagster_app/dagster_app/assets/etl_assets.py:264-319 | the payload the assets hand to the driver: the same sections, and four tables of the same shape in which every missing cell is the NaN literal and every other cell is kept |
| `Loader.UnconvertedComplete` | dagster_app/dagster_app/assets/etl_assets.py:264-319 | a payload without missing cells is sent unchanged |
| `Loader.MissingIdSentAsNaNFails` | dagster_app/dagster_app/assets/etl_assets.py:264-319 | a missing value in an integer column, sent as NaN, makes its row unfit, so the load fails with a database error and leaves the store as it was; converted to NULL, a missing non-key value would not have stopped the row |
| `Pipeline.DropIndex` | dagster_app/dagster_app/assets/etl_assets.py:80-81 | the pandas index column `Unnamed: 0` is gone and every other cell is kept |
| `Pipeline.AssetTail` | dagster_app/dagster_app/assets/etl_assets.py:110-227 | from the join on: as many streams and descriptions as master rows, no helper-column section, and no load or exit error |
| `Pipeline.AssetPayload` | dagster_app/dagster_app/assets/etl_assets.py:94-227 | the same, from the description table through id extraction |
| `Pipeline.AssetJob` | dagster_app/dagster_app/assets/etl_assets.py:71-336 | a failure leaves the store unchanged; a failure before the load touches no connection; the connection is touched only for a valid payload and is closed last; success means the payload, its missing cells sent as NaN, fits, and stores its fresh replacement |
| `Pipeline.AssetJobRerunnable` | dagster_app/dagster_app/assets/etl_assets.py:233 | a successful job rerun on its own result changes nothing, and its result does not depend on the prior store |
| `Pipeline.AssetJobRefusesMissingIds` | dagster_app/dagster_app/assets/etl_assets.py:264-319 | a payload with a missing value in an integer column fails the job with a database error and leaves the store unchanged |
| `Pipeline.EtlOp` | dagster_app/dagster_app/assets/etl.py:62-278 | a failing op leaves the store unchanged |
| `Pipeline.EtlPayload` | dagster_app/dagster_app/assets/etl.py:80-181 | ValueError when no strategy is accepted; an incomplete-extraction error with the strategy tag and counts when some row has no id; on success as many streams and descriptions as master rows and no meta-column section |
| `Pipeline.EtlIdentified` | dagster_app/dagster_app/assets/etl.py:82-87 | once a strategy is chosen, a row without an id stops the op with the strategy tag, the count of such rows and the row count |
| `Pipeline.EtlTail` | dagster_app/dagster_app/assets/etl.py:89-181 | refuses with the unique and expected counts when the distinct-id count is off; a join failure reports the expected count and a different row count; on success as many streams and descriptions as master rows and no meta-column section |
| `Pipeline.EtlTailIsAssetTail` | dagster_app/dagster_app/assets/etl.py:89-181 | the op's checks, merge and shaping after extraction are those of the asset graph |
| `Pipeline.ExtractionRefusedAlike` | dagster_app/dagster_app/assets/etl.py:81 | both variants raise the same ValueError when no strategy is accepted |
| `Pipeline.ExtractionIncompleteAlike` | dagster_app/dagster_app/assets/etl.py:83-87 | when some row has no id, both variants raise the same incomplete-extraction error, with the strategy tag, the count of rows without an id and the row count |
| `Pipeline.EtlPayloadIsAssetPayload` | dagster_app/dagster_app/assets/etl.py:80-181 | the op computes the same payload, or the same error, as the asset graph |
| `Pipeline.EtlOpIsAssetJob` | dagster_app/dagster_app/assets/etl.py:62-278 | the single op and the asset graph have identical outcomes: store, error and connection events |
| `Pipeline.ToNumeric` | scripts/load_to_postgres.py:55 | `to_numeric(errors="coerce")` never leaves text: integers and missing cells stay, and text becomes an integer iff it parses, and then the number it writes |
| `Pipeline.ToNumericIdempotent` | scripts/load_to_postgres.py:53-59 | coercing twice is coercing once, and printed integers coerce back to themselves |
| `Pipeline.Coerce` | scripts/load_to_postgres.py:53-59 | only the named columns are coerced, every other cell is kept, and the shape is unchanged |
| `Pipeline.ScriptMaster` | scripts/load_to_postgres.py:47-55 | the index column is gone, the three id columns hold their coerced cells, every other cell is kept, and so is the row count |
| `Pipeline.ScriptDescriptions` | scripts/load_to_postgres.py:49-59 | the index column is gone, the three id columns hold their coerced cells, every other cell is kept, and so no description id is text |
| `Pipeline.ScriptMerge` | scripts/load_to_postgres.py:63-69 | KeyError for a missing `program_url` or `source` column; on success as many rows as pairs of equal URLs |
| `Pipeline.ScriptPayload` | scripts/load_to_postgres.py:61-136 | SystemExit(1) iff the URL join succeeds with other than 815 rows; otherwise KeyError, MergeError or DuplicateColumns, or a payload with 815 descriptions and no meta-column section |
| `Pipeline.Script` | scripts/load_to_postgres.py:33-242 | FileNotFoundError when a file is missing; a failure leaves the store unchanged and, before the load, touches no connection; success stores the fresh replacement of the payload |
| `Pipeline.ScriptStopsUnless815` | scripts/load_to_postgres.py:71-74 | the script stops with status 1, before connecting, exactly when the URL join has other than 815 rows |
| `Pipeline.ScriptLoadsAtMost815Descriptions` | scripts/load_to_postgres.py:71-74 | a successful run stores at most 815 program descriptions |

## Left out

- Reading the Excel and CSV files, `get_conn`, `load_dotenv`, logging and `print`, the Dagster decorators and job wiring, and the `MaterializeResult` metadata. These are I/O and orchestration; the script's file-existence test is a boolean parameter.
- `api/`, `scripts/data_audit.py` and the exploratory scripts are not part of this model.
- Float cells are not modelled. A pandas cell is missing, an integer or text, so `float` ids such as `12.0` are not modelled, nor is the float product in `int(0.95 * n)`, which `KeyExtractor.Threshold` computes as `95 * n / 100`.
- Pandas dtypes are not modelled: there is no `Int64` overflow, ids are unbounded integers, and no operation depends on a column's dtype.
- `str(NaN)` is the text `nan`, which no pattern matches.
- The patterns are hand-coded over ASCII digits, Python's whitespace set and ASCII word characters. Unicode digits for `\d` and Unicode letters for `\b` are not modelled.
- `Strings.ParseInt` / `Shaper.IntOf`: `int()` also accepts underscores between digits and any Unicode decimal digit, such as Arabic-Indic digits; neither is modelled. The model reads only ASCII digits, so such text makes `IntOf` raise ValueError where `int()` would return a number.
- `Pipeline.ToNumeric`: the model parses only plain integer text; decimal and exponent text becomes missing. In the script `to_numeric` turns such text into a float, and `astype("Int64")` then keeps `12.0` as 12 but raises TypeError on `12.5`. Whitespace-padded text, which `to_numeric` also reads, becomes missing too.
- `df_rows` maps both NaN and `<NA>` to None, and the model's one `Missing` cell stands for both. The asset graph and the op skip that conversion; `Loader.Unconverted` is what they send instead.
- The five tables' SQL schema is not part of this model. `Loader.IntegerColumns` takes the integer columns to be the ids the `INSERT` statements list: `discipline_id`, `school_id`, `program_stream_id`, `program_description_id`, `match_iteration_id` and `n_program_description_sections`.
- `Frames.Merge`: pandas refuses only names repeated within one side after suffixing, and merges a cross-side collision into a frame with two equal column names. The model has no such frame, so it refuses that case with DuplicateColumns (`Frames.CrossSideCollision`). Pandas also raises ValueError when a key column of text meets a numeric key column, for instance a textual master `program_stream_id` against the `Int64` helper column, or an all-NaN `source` against text `program_url`. The model compares cells instead and finds no match, so the asset graph and the op report JoinFailed and the script exits with status 1 where the program raises ValueError. The store is left untouched either way.
- Postgres internals:
  - `RESTART IDENTITY` and `CASCADE`;
  - `execute_values` paging;
  - the error raised when one statement hits the same conflict key twice. The upsert is sequential insert-or-overwrite by key instead.
- Foreign-key checks, type errors other than NaN in an integer column, and server failures are not modelled individually. They are the `faults` parameter of `Loader.Load`: the set of statements that raise.
- A failure of `get_conn` itself happens before the `try` block. It is not modelled.
- The sample of offending rows in the error messages is not modelled. The model reports the counts only.

=== FILE: frames.dfy ===
/** A small model of the pandas DataFrame operations the pipeline uses:
    positional rows under named columns, selection by name, `dropna`,
    `drop_duplicates`, column assignment, `itertuples` and the suffixing
    inner `merge`. */
module Frames {
  import opened Wrappers
  import opened Errors
  import opened Strings
  import opened Order

  /** One cell of a table: pandas' NaN, an integer, or text. */
  datatype Cell = Missing | Int(i: int) | Text(s: string)

  /** `str(v)` and `astype(str)`: NaN prints as "nan", integers in decimal. */
  function AsText(c: Cell): string {
    match c
    case Missing => "nan"
    case Int(i) => ShowInt(i)
    case Text(s) => s
  }

  /** One row, its cells in column order (a tuple of `itertuples`). */
  type Row = seq<Cell>

  datatype Frame = Frame(columns: seq<string>, rows: seq<Row>)

  predicate Distinct<T(==)>(xs: seq<T>) {
    forall i, j | 0 <= i < j < |xs| :: xs[i] != xs[j]
  }

  /** What pandas guarantees of every frame the pipeline reads: distinct
      column names and one cell per column in every row. */
  predicate WellFormed(f: Frame) {
    && Distinct(f.columns)
    && forall i | 0 <= i < |f.rows| :: |f.rows[i]| == |f.columns|
  }

  function IndexOf<T(==)>(xs: seq<T>, x: T): (k: nat)
    requires x in xs
    ensures k < |xs| && xs[k] == x && x !in xs[..k]
  {
    if xs[0] == x then 0
    else
      var k := 1 + IndexOf(xs[1..], x);
      assert xs[..k] == [xs[0]] + xs[1..][..k - 1];
      k
  }

  lemma IndexOfDistinct<T>(xs: seq<T>, j: nat)
    requires Distinct(xs) && j < |xs|
    ensures IndexOf(xs, xs[j]) == j
  {
    var k := IndexOf(xs, xs[j]);
    assert forall t | 0 <= t < |xs| && t < k :: xs[..k][t] == xs[t];
  }

  lemma IndexOfAppendRight<T>(a: seq<T>, b: seq<T>, x: T)
    requires x !in a && x in b
    ensures x in a + b && IndexOf(a + b, x) == |a| + IndexOf(b, x)
  {
    var k := IndexOf(a + b, x);
    var m := IndexOf(b, x);
    assert (a + b)[|a| + m] == x;
    assert forall t | 0 <= t < |a| :: (a + b)[t] == a[t];
    assert forall t | |a| <= t < |a| + m :: (a + b)[t] == b[..m][t - |a|];
    assert forall t | 0 <= t < |a + b| && t < k :: (a + b)[..k][t] == (a + b)[t];
  }

  lemma IndexOfAppendLeft<T>(a: seq<T>, b: seq<T>, x: T)
    requires x in a
    ensures x in a + b && IndexOf(a + b, x) == IndexOf(a, x)
  {
    var k := IndexOf(a + b, x);
    var m := IndexOf(a, x);
    assert (a + b)[m] == x;
    assert forall t | 0 <= t < m :: (a + b)[t] == a[..m][t];
    assert forall t | 0 <= t < |a + b| && t < k :: (a + b)[..k][t] == (a + b)[t];
  }

  /** `df.at[i, c]`: the cell of row `i` under column `c`. */
  function Get(f: Frame, i: nat, c: string): Cell
    requires WellFormed(f) && i < |f.rows| && c in f.columns
  {
    f.rows[i][IndexOf(f.columns, c)]
  }

  /** In a well-formed frame the `j`-th column's cell is the `j`-th cell. */
  lemma GetAt(f: Frame, i: nat, j: nat)
    requires WellFormed(f) && i < |f.rows| && j < |f.columns|
    ensures Get(f, i, f.columns[j]) == f.rows[i][j]
  {
    IndexOfDistinct(f.columns, j);
  }

  /** The cells of column `c`, top to bottom. */
  function ColumnCells(f: Frame, c: string): (r: seq<Cell>)
    requires WellFormed(f) && c in f.columns
    ensures |r| == |f.rows|
    ensures forall i | 0 <= i < |f.rows| :: r[i] == Get(f, i, c)
  {
    seq(|f.rows|, i requires 0 <= i < |f.rows| => Get(f, i, c))
  }

  /** `df[c]`: the column, or KeyError when the frame has no such column. */
  function Column(f: Frame, c: string): (r: Result<seq<Cell>, Error>)
    requires WellFormed(f)
    ensures r.Success? <==> c in f.columns
    ensures r.Success? ==> r.value == ColumnCells(f, c)
    ensures r.Failure? ==> r.error == KeyError(c)
  {
    if c in f.columns then Success(ColumnCells(f, c)) else Failure(KeyError(c))
  }

  // ---------------------------------------------------------------- selection

  /** The first name of `cols` that `have` lacks. */
  function FirstAbsent(cols: seq<string>, have: seq<string>): (r: Option<string>)
    ensures r.None? <==> forall c | c in cols :: c in have
    ensures r.Some? ==> r.value in cols && r.value !in have
  {
    if |cols| == 0 then None
    else if cols[0] !in have then Some(cols[0])
    else FirstAbsent(cols[1..], have)
  }

  /** `df[cols]`: the named columns in the order given, or KeyError naming
      a column the frame lacks. */
  function Select(f: Frame, cols: seq<string>): (r: Result<Frame, Error>)
    requires WellFormed(f)
    ensures r.Success? <==> forall c | c in cols :: c in f.columns
    ensures r.Failure? ==> r.error.KeyError? && r.error.column in cols && r.error.column !in f.columns
    ensures r.Success? ==> r.value.columns == cols && |r.value.rows| == |f.rows|
    ensures r.Success? ==> forall i | 0 <= i < |f.rows| :: |r.value.rows[i]| == |cols|
    ensures r.Success? ==> forall i, j | 0 <= i < |f.rows| && 0 <= j < |cols| :: r.value.rows[i][j] == Get(f, i, cols[j])
    ensures r.Success? && Distinct(cols) ==> WellFormed(r.value)
  {
    match FirstAbsent(cols, f.columns)
    case Some(c) => Failure(KeyError(c))
    case None =>
      Success(Frame(cols, seq(|f.rows|, i requires 0 <= i < |f.rows| =>
        seq(|cols|, j requires 0 <= j < |cols| => Get(f, i, cols[j])))))
  }

  /** `df.rename(columns=renames)`: every column named in `renames` takes
      its new name; the cells do not move. */
  function Rename(f: Frame, renames: map<string, string>): (r: Frame)
    ensures r.rows == f.rows && |r.columns| == |f.columns|
    ensures forall j | 0 <= j < |f.columns| :: f.columns[j] in renames ==> r.columns[j] == renames[f.columns[j]]
    ensures forall j | 0 <= j < |f.columns| :: f.columns[j] !in renames ==> r.columns[j] == f.columns[j]
  {
    Frame(seq(|f.columns|, j requires 0 <= j < |f.columns| =>
      if f.columns[j] in renames then renames[f.columns[j]] else f.columns[j]), f.rows)
  }

  /** The names other than `c`, in order. */
  function Without(cols: seq<string>, c: string): (r: seq<string>)
    ensures forall k :: k in r <==> k in cols && k != c
    ensures Distinct(cols) ==> Distinct(r)
  {
    if |cols| == 0 then []
    else
      var rest := Without(cols[1..], c);
      assert Distinct(cols) ==> Distinct(cols[1..]) && cols[0] !in rest;
      (if cols[0] == c then [] else [cols[0]]) + rest
  }

  /** `df.drop(columns=[c])` of a frame: every other column, its cells
      unchanged. */
  function Drop(f: Frame, c: string): (r: Frame)
    requires WellFormed(f)
    ensures WellFormed(r) && |r.rows| == |f.rows|
    ensures forall k :: k in r.columns <==> k in f.columns && k != c
    ensures forall i, k | 0 <= i < |f.rows| && k in r.columns :: Get(r, i, k) == Get(f, i, k)
  {
    var cols := Without(f.columns, c);
    var r := Select(f, cols);
    assert r.Success?;
    var g := r.value;
    assert forall i, k | 0 <= i < |f.rows| && k in cols :: Get(g, i, k) == Get(f, i, k) by {
      forall i, k | 0 <= i < |f.rows| && k in cols ensures Get(g, i, k) == Get(f, i, k) {
        var j := IndexOf(cols, k);
        assert g.rows[i][j] == Get(f, i, cols[j]);
      }
    }
    g
  }

  // ---------------------------------------------------------------- dropna / drop_duplicates

  /** Which rows have no NaN cell. */
  function CompleteMask(rows: seq<Row>): (keep: seq<bool>)
    ensures |keep| == |rows| && forall i | 0 <= i < |rows| :: keep[i] == (Missing !in rows[i])
  {
    seq(|rows|, i requires 0 <= i < |rows| => Missing !in rows[i])
  }

  /** The rows without a NaN cell, in their original order. */
  function CompleteRows(rows: seq<Row>): (r: seq<Row>)
    ensures |r| <= |rows|
    ensures forall row :: row in r <==> row in rows && Missing !in row
    ensures r == Pick(rows, Positions(CompleteMask(rows)))
  {
    if |rows| == 0 then []
    else
      var rest := CompleteRows(rows[1..]);
      assert CompleteMask(rows)[1..] == CompleteMask(rows[1..]);
      PickCons(rows, CompleteMask(rows));
      (if Missing in rows[0] then [] else [rows[0]]) + rest
  }

  /** `df.dropna()`: the rows without a NaN cell, in their original order. */
  function DropNa(f: Frame): (r: Frame)
    requires WellFormed(f)
    ensures WellFormed(r) && r.columns == f.columns
    ensures forall row :: row in r.rows <==> row in f.rows && Missing !in row
    ensures r.rows == Pick(f.rows, Positions(CompleteMask(f.rows)))
  {
    var rows := CompleteRows(f.rows);
    assert forall i | 0 <= i < |rows| :: rows[i] in f.rows;
    Frame(f.columns, rows)
  }

  /** Which rows are neither in `seen` nor equal to an earlier row. */
  function FirstMask(rows: seq<Row>, seen: set<Row>): (keep: seq<bool>)
    ensures |keep| == |rows|
    ensures forall i | 0 <= i < |rows| :: keep[i] == (rows[i] !in seen && rows[i] !in rows[..i])
  {
    seq(|rows|, i requires 0 <= i < |rows| => rows[i] !in seen && rows[i] !in rows[..i])
  }

  /** Dropping the head of the rows moves it into `seen` when it was kept. */
  lemma FirstMaskTail(rows: seq<Row>, seen: set<Row>)
    requires |rows| > 0
    ensures FirstMask(rows, seen)[1..] ==
      FirstMask(rows[1..], if rows[0] in seen then seen else seen + {rows[0]})
  {
    var seen' := if rows[0] in seen then seen else seen + {rows[0]};
    forall i | 1 <= i < |rows|
      ensures FirstMask(rows, seen)[i] == FirstMask(rows[1..], seen')[i - 1]
    {
      assert rows[..i] == [rows[0]] + rows[1..][..i - 1];
    }
  }

  /** The first occurrence of every row not in `seen`, in order. */
  function FirstOccurrences(rows: seq<Row>, seen: set<Row>): (r: seq<Row>)
    ensures Distinct(r)
    ensures forall row :: row in r <==> row in rows && row !in seen
    decreases |rows|
  {
    if |rows| == 0 then []
    else if rows[0] in seen then FirstOccurrences(rows[1..], seen)
    else
      var rest := FirstOccurrences(rows[1..], seen + {rows[0]});
      assert forall row :: row in rows ==> row == rows[0] || row in rows[1..];
      [rows[0]] + rest
  }

  /** The rows `FirstOccurrences` keeps are those at the positions whose
      row is not in `seen` and does not occur earlier, in increasing order. */
  lemma {:induction false} FirstOccurrencesInOrder(rows: seq<Row>, seen: set<Row>)
    ensures FirstOccurrences(rows, seen) == Pick(rows, Positions(FirstMask(rows, seen)))
    decreases |rows|
  {
    if |rows| > 0 {
      var seen' := if rows[0] in seen then seen else seen + {rows[0]};
      FirstOccurrencesInOrder(rows[1..], seen');
      FirstOccurrencesStep(rows, seen, FirstOccurrences(rows[1..], seen'));
    }
  }

  /** One step of the order of `FirstOccurrences`. */
  lemma FirstOccurrencesStep(rows: seq<Row>, seen: set<Row>, rest: seq<Row>)
    requires |rows| > 0
    requires var seen' := if rows[0] in seen then seen else seen + {rows[0]};
      rest == Pick(rows[1..], Positions(FirstMask(rows[1..], seen')))
    ensures (if rows[0] in seen then rest else [rows[0]] + rest) == Pick(rows, Positions(FirstMask(rows, seen)))
  {
    FirstMaskTail(rows, seen);
    PickCons(rows, FirstMask(rows, seen));
  }

  /** Which rows have no NaN cell, are not in `seen`, and do not occur
      earlier. */
  function FirstCompleteMask(rows: seq<Row>, seen: set<Row>): (keep: seq<bool>)
    ensures |keep| == |rows|
    ensures forall i | 0 <= i < |rows| ::
      keep[i] == (Missing !in rows[i] && rows[i] !in seen && rows[i] !in rows[..i])
  {
    seq(|rows|, i requires 0 <= i < |rows| => Missing !in rows[i] && rows[i] !in seen && rows[i] !in rows[..i])
  }

  lemma FirstCompleteMaskTail(rows: seq<Row>, seen: set<Row>)
    requires |rows| > 0
    ensures FirstCompleteMask(rows, seen)[1..] ==
      FirstCompleteMask(rows[1..], if Missing !in rows[0] && rows[0] !in seen then seen + {rows[0]} else seen)
  {
    var seen' := if Missing !in rows[0] && rows[0] !in seen then seen + {rows[0]} else seen;
    forall i | 1 <= i < |rows|
      ensures FirstCompleteMask(rows, seen)[i] == FirstCompleteMask(rows[1..], seen')[i - 1]
    {
      assert rows[..i] == [rows[0]] + rows[1..][..i - 1];
    }
  }

  /** `dropna()` then `drop_duplicates()` keeps, in order, the rows without
      a NaN cell that do not occur earlier. */
  lemma {:induction false} FirstOfComplete(rows: seq<Row>, seen: set<Row>)
    ensures FirstOccurrences(CompleteRows(rows), seen) == Pick(rows, Positions(FirstCompleteMask(rows, seen)))
    decreases |rows|
  {
    if |rows| > 0 {
      var seen' := if Missing !in rows[0] && rows[0] !in seen then seen + {rows[0]} else seen;
      FirstOfComplete(rows[1..], seen');
      FirstOfCompleteCons(rows, seen);
      FirstCompleteMaskTail(rows, seen);
      PickCons(rows, FirstCompleteMask(rows, seen));
    }
  }

  /** One step of `FirstOfComplete` on the operations' side. */
  lemma FirstOfCompleteCons(rows: seq<Row>, seen: set<Row>)
    requires |rows| > 0
    ensures var keep := Missing !in rows[0] && rows[0] !in seen;
      FirstOccurrences(CompleteRows(rows), seen) ==
      (if keep then [rows[0]] else []) +
      FirstOccurrences(CompleteRows(rows[1..]), if keep then seen + {rows[0]} else seen)
  {
    var rest := CompleteRows(rows[1..]);
    var c := CompleteRows(rows);
    if Missing in rows[0] {
      assert c == rest;
    } else {
      assert c == [rows[0]] + rest;
      assert c[0] == rows[0] && c[1..] == rest;
      if rows[0] in seen {
        assert FirstOccurrences(c, seen) == FirstOccurrences(rest, seen);
      } else {
        assert FirstOccurrences(c, seen) == [rows[0]] + FirstOccurrences(rest, seen + {rows[0]});
      }
    }
  }

  /** `df.drop_duplicates()`: keeps the first of every group of equal
      rows, in the original order. */
  function DropDuplicates(f: Frame): (r: Frame)
    requires WellFormed(f)
    ensures WellFormed(r) && r.columns == f.columns
    ensures Distinct(r.rows)
    ensures forall row :: row in r.rows <==> row in f.rows
    ensures r.rows == Pick(f.rows, Positions(FirstMask(f.rows, {})))
  {
    var rows := FirstOccurrences(f.rows, {});
    FirstOccurrencesInOrder(f.rows, {});
    assert forall i | 0 <= i < |rows| :: rows[i] in f.rows;
    Frame(f.columns, rows)
  }

  // ---------------------------------------------------------------- column assignment

  /** `df[c] = cells`: overwrites column `c` in place when the frame has it,
      appends it as the last column otherwise. */
  function WithColumn(f: Frame, c: string, cells: seq<Cell>): (r: Frame)
    requires WellFormed(f) && |cells| == |f.rows|
    ensures WellFormed(r) && |r.rows| == |f.rows|
    ensures c !in f.columns ==> r.columns == f.columns + [c]
    ensures c in f.columns ==> r.columns == f.columns
    ensures c in r.columns && forall i | 0 <= i < |f.rows| :: Get(r, i, c) == cells[i]
    ensures forall i, k | 0 <= i < |f.rows| && k in f.columns && k != c :: k in r.columns && Get(r, i, k) == Get(f, i, k)
  {
    if c in f.columns then ReplaceColumn(f, c, cells) else AppendColumn(f, c, cells)
  }

  /** Overwriting the cells of an existing column. */
  function ReplaceColumn(f: Frame, c: string, cells: seq<Cell>): (r: Frame)
    requires WellFormed(f) && |cells| == |f.rows| && c in f.columns
    ensures WellFormed(r) && |r.rows| == |f.rows| && r.columns == f.columns
    ensures forall i | 0 <= i < |f.rows| :: Get(r, i, c) == cells[i]
    ensures forall i, k | 0 <= i < |f.rows| && k in f.columns && k != c :: Get(r, i, k) == Get(f, i, k)
  {
    var j := IndexOf(f.columns, c);
    Frame(f.columns, seq(|f.rows|, i requires 0 <= i < |f.rows| => f.rows[i][j := cells[i]]))
  }

  /** Adding a new column at the right. */
  function AppendColumn(f: Frame, c: string, cells: seq<Cell>): (r: Frame)
    requires WellFormed(f) && |cells| == |f.rows| && c !in f.columns
    ensures WellFormed(r) && |r.rows| == |f.rows| && r.columns == f.columns + [c]
    ensures forall i | 0 <= i < |f.rows| :: Get(r, i, c) == cells[i]
    ensures forall i, k | 0 <= i < |f.rows| && k in f.columns :: Get(r, i, k) == Get(f, i, k)
  {
    var r := Frame(f.columns + [c], seq(|f.rows|, i requires 0 <= i < |f.rows| => f.rows[i] + [cells[i]]));
    assert Distinct(r.columns) by {
      assert forall j | 0 <= j < |f.columns| :: r.columns[j] == f.columns[j];
    }
    assert forall i | 0 <= i < |r.rows| :: |r.rows[i]| == |r.columns|;
    assert forall k | k in f.columns :: IndexOf(r.columns, k) == IndexOf(f.columns, k) by {
      forall k | k in f.columns ensures IndexOf(r.columns, k) == IndexOf(f.columns, k) {
        IndexOfAppendLeft(f.columns, [c], k);
      }
    }
    assert IndexOf(r.columns, c) == |f.columns| by {
      IndexOfAppendRight(f.columns, [c], c);
    }
    r
  }

  /** A column of one constant value: `df[c] = v`. */
  function Constant(f: Frame, v: Cell): (r: seq<Cell>)
    ensures |r| == |f.rows| && forall i | 0 <= i < |r| :: r[i] == v
  {
    seq(|f.rows|, _ => v)
  }

  // ---------------------------------------------------------------- itertuples

  /** The script's `df_rows`: one tuple per row, in row order, each
      holding the row's cells in column order, with every NaN turned into
      None. The model has a single missing marker, which the driver sends
      as NULL, so the tuples are the rows themselves. */
  function Tuples(f: Frame): (r: seq<Row>)
    requires WellFormed(f)
    ensures |r| == |f.rows|
    ensures forall i | 0 <= i < |r| :: |r[i]| == |f.columns|
    ensures forall i, j | 0 <= i < |r| && 0 <= j < |f.columns| :: r[i][j] == Get(f, i, f.columns[j])
    ensures forall i, j | 0 <= i < |r| && 0 <= j < |f.columns| :: r[i][j] == Missing <==> Get(f, i, f.columns[j]) == Missing
  {
    assert forall j | 0 <= j < |f.columns| :: IndexOf(f.columns, f.columns[j]) == j by {
      forall j | 0 <= j < |f.columns| ensures IndexOf(f.columns, f.columns[j]) == j {
        IndexOfDistinct(f.columns, j);
      }
    }
    f.rows
  }

  /** How the driver sends the float NaN of a missing cell that reaches it
      unconverted: the literal `'NaN'::float`, which a text column stores
      as the text NaN and an integer column refuses. */
  const NaNLiteral: Cell := Text("NaN")

  /** A tuple as the driver sees it when its missing cells were not first
      converted to None. */
  function AsNaN(row: Row): (r: Row)
    ensures |r| == |row| && Missing !in r
    ensures forall j | 0 <= j < |row| :: r[j] == if row[j] == Missing then NaNLiteral else row[j]
  {
    seq(|row|, j requires 0 <= j < |row| => if row[j] == Missing then NaNLiteral else row[j])
  }

  /** `list(df.itertuples(index=False, name=None))` handed straight to the
      driver: the tuples, each with its missing cells sent as NaN. */
  function AsNaNRows(rows: seq<Row>): (r: seq<Row>)
    ensures |r| == |rows| && forall i | 0 <= i < |rows| :: r[i] == AsNaN(rows[i])
  {
    seq(|rows|, i requires 0 <= i < |rows| => AsNaN(rows[i]))
  }

  /** Sending NaN and sending None differ exactly at the missing cells: a
      tuple without one goes out the same either way, and one with a
      missing cell does not. */
  lemma AsNaNOnlyAtMissing(row: Row)
    ensures AsNaN(row) == row <==> Missing !in row
  {
    if Missing in row {
      var j :| 0 <= j < |row| && row[j] == Missing;
      assert AsNaN(row)[j] != row[j];
    }
  }

  // ---------------------------------------------------------------- merge

  /** The column names of one side after `merge(..., suffixes=...)`: a name
      the other side also has takes the suffix. */
  function Suffixed(cols: seq<string>, other: seq<string>, suffix: string): (r: seq<string>)
    ensures |r| == |cols|
    ensures forall j | 0 <= j < |cols| :: cols[j] !in other ==> r[j] == cols[j]
    ensures forall j | 0 <= j < |cols| :: cols[j] in other ==> r[j] == cols[j] + suffix
  {
    seq(|cols|, j requires 0 <= j < |cols| => if cols[j] in other then cols[j] + suffix else cols[j])
  }

  /** Left columns (overlaps suffixed `_m`) then right columns (overlaps
      suffixed `_x`); both key columns are kept. */
  function MergedColumns(lc: seq<string>, rc: seq<string>): seq<string> {
    Suffixed(lc, rc, "_m") + Suffixed(rc, lc, "_x")
  }

  /** The name column `c` of the right frame has after the merge. */
  function RightName(lc: seq<string>, c: string): string {
    if c in lc then c + "_x" else c
  }

  /** The name column `c` of the left frame has after the merge. */
  function LeftName(rc: seq<string>, c: string): string {
    if c in rc then c + "_m" else c
  }

  /** How many cells of `xs` equal `v`. */
  function Count(xs: seq<Cell>, v: Cell): (n: nat)
    ensures n <= |xs|
    ensures n == 0 <==> v !in xs
  {
    if |xs| == 0 then 0 else (if xs[0] == v then 1 else 0) + Count(xs[1..], v)
  }

  /** The number of rows an inner join on these key columns produces:
      every left key meets every equal right key once. */
  function JoinCount(lkeys: seq<Cell>, rkeys: seq<Cell>): nat {
    if |lkeys| == 0 then 0 else Count(rkeys, lkeys[0]) + JoinCount(lkeys[1..], rkeys)
  }

  function KeyColumn(rows: seq<Row>, k: nat): (r: seq<Cell>)
    requires forall i | 0 <= i < |rows| :: k < |rows[i]|
    ensures |r| == |rows| && forall i | 0 <= i < |rows| :: r[i] == rows[i][k]
  {
    seq(|rows|, i requires 0 <= i < |rows| => rows[i][k])
  }

  /** The rows one left row contributes: itself joined with every right row
      of an equal key, in right-row order. Equal keys include two NaNs,
      which pandas matches with each other. */
  function Matches(l: Row, li: nat, rs: seq<Row>, ri: nat): (r: seq<Row>)
    requires li < |l| && forall j | 0 <= j < |rs| :: ri < |rs[j]|
    ensures |r| == Count(KeyColumn(rs, ri), l[li])
    ensures forall row :: row in r <==> exists j :: 0 <= j < |rs| && rs[j][ri] == l[li] && row == l + rs[j]
    decreases |rs|
  {
    if |rs| == 0 then []
    else
      var rest := Matches(l, li, rs[1..], ri);
      assert KeyColumn(rs, ri)[1..] == KeyColumn(rs[1..], ri);
      assert forall j | 1 <= j < |rs| :: rs[j] == rs[1..][j - 1];
      (if rs[0][ri] == l[li] then [l + rs[0]] else []) + rest
  }

  /** The inner join's rows: for each left row in order, its matches. */
  function JoinRows(ls: seq<Row>, li: nat, rs: seq<Row>, ri: nat): (r: seq<Row>)
    requires forall i | 0 <= i < |ls| :: li < |ls[i]|
    requires forall j | 0 <= j < |rs| :: ri < |rs[j]|
    ensures |r| == JoinCount(KeyColumn(ls, li), KeyColumn(rs, ri))
    ensures forall row :: row in r <==>
      exists i, j :: 0 <= i < |ls| && 0 <= j < |rs| && ls[i][li] == rs[j][ri] && row == ls[i] + rs[j]
    decreases |ls|
  {
    if |ls| == 0 then []
    else
      var rest := JoinRows(ls[1..], li, rs, ri);
      assert KeyColumn(ls, li)[1..] == KeyColumn(ls[1..], li);
      assert forall i | 1 <= i < |ls| :: ls[i] == ls[1..][i - 1];
      Matches(ls[0], li, rs, ri) + rest
  }

  /** Which right rows have the key of the left row `l`. */
  function MatchMask(l: Row, li: nat, rs: seq<Row>, ri: nat): (keep: seq<bool>)
    requires li < |l| && forall j | 0 <= j < |rs| :: ri < |rs[j]|
    ensures |keep| == |rs| && forall j | 0 <= j < |rs| :: keep[j] == (rs[j][ri] == l[li])
  {
    seq(|rs|, j requires 0 <= j < |rs| => rs[j][ri] == l[li])
  }

  /** The key-equality matrix: row `i`, column `j` holds when left row `i`
      and right row `j` have equal keys. */
  function KeyMatch(ls: seq<Row>, li: nat, rs: seq<Row>, ri: nat): (m: seq<seq<bool>>)
    requires forall i | 0 <= i < |ls| :: li < |ls[i]|
    requires forall j | 0 <= j < |rs| :: ri < |rs[j]|
    ensures |m| == |ls| && forall i | 0 <= i < |ls| :: m[i] == MatchMask(ls[i], li, rs, ri)
  {
    seq(|ls|, i requires 0 <= i < |ls| => MatchMask(ls[i], li, rs, ri))
  }

  /** The left row `l` joined with every right row. */
  function Prefixed(l: Row, rs: seq<Row>): (r: seq<Row>)
    ensures |r| == |rs| && forall j | 0 <= j < |rs| :: r[j] == l + rs[j]
  {
    seq(|rs|, j requires 0 <= j < |rs| => l + rs[j])
  }

  /** A left row's matches come in right-row order: the left row joined
      with each right row of an equal key. */
  lemma {:induction false} MatchesInOrder(l: Row, li: nat, rs: seq<Row>, ri: nat)
    requires li < |l| && forall j | 0 <= j < |rs| :: ri < |rs[j]|
    ensures Matches(l, li, rs, ri) == Pick(Prefixed(l, rs), Positions(MatchMask(l, li, rs, ri)))
    decreases |rs|
  {
    if |rs| > 0 {
      MatchesInOrder(l, li, rs[1..], ri);
      var keep := MatchMask(l, li, rs, ri);
      assert keep[1..] == MatchMask(l, li, rs[1..], ri);
      assert Prefixed(l, rs)[1..] == Prefixed(l, rs[1..]);
      PickCons(Prefixed(l, rs), keep);
    }
  }

  /** The inner join's rows come in row-major order of the pairs of equal
      keys: by left row, then by right row. */
  lemma {:induction false} JoinRowsInOrder(ls: seq<Row>, li: nat, rs: seq<Row>, ri: nat)
    requires forall i | 0 <= i < |ls| :: li < |ls[i]|
    requires forall j | 0 <= j < |rs| :: ri < |rs[j]|
    ensures var g := Grid(KeyMatch(ls, li, rs, ri));
      |JoinRows(ls, li, rs, ri)| == |g| &&
      forall k | 0 <= k < |g| :: JoinRows(ls, li, rs, ri)[k] == ls[g[k].0] + rs[g[k].1]
    decreases |ls|
  {
    if |ls| > 0 {
      var m := KeyMatch(ls, li, rs, ri);
      assert m[1..] == KeyMatch(ls[1..], li, rs, ri);
      JoinRowsInOrder(ls[1..], li, rs, ri);
      MatchesInOrder(ls[0], li, rs, ri);
      JoinStep(ls, rs, Positions(m[0]), Grid(m[1..]), Matches(ls[0], li, rs, ri), JoinRows(ls[1..], li, rs, ri));
    }
  }

  /** One step of `JoinRowsInOrder`: the first left row's matches, then the
      rest of the join one row down. */
  lemma JoinStep(ls: seq<Row>, rs: seq<Row>, p: seq<nat>, gt: seq<(nat, nat)>, first: seq<Row>, rest: seq<Row>)
    requires |ls| > 0
    requires |first| == |p| && forall k | 0 <= k < |p| :: p[k] < |rs| && first[k] == ls[0] + rs[p[k]]
    requires |rest| == |gt|
    requires forall k | 0 <= k < |gt| :: gt[k].0 < |ls| - 1 && gt[k].1 < |rs| && rest[k] == ls[1..][gt[k].0] + rs[gt[k].1]
    ensures var g := Tag(p) + Lift(gt);
      |first + rest| == |g| &&
      forall k | 0 <= k < |g| :: g[k].0 < |ls| && g[k].1 < |rs| && (first + rest)[k] == ls[g[k].0] + rs[g[k].1]
  {
    var g := Tag(p) + Lift(gt);
    forall k | 0 <= k < |g| ensures g[k].0 < |ls| && g[k].1 < |rs| && (first + rest)[k] == ls[g[k].0] + rs[g[k].1] {
      if k >= |p| {
        assert ls[1..][gt[k - |p|].0] == ls[g[k].0];
      }
    }
  }

  /** The key-equality matrix of a merge, by column name. */
  function MergeMask(left: Frame, right: Frame, lk: string, rk: string): (m: seq<seq<bool>>)
    requires WellFormed(left) && WellFormed(right) && lk in left.columns && rk in right.columns
    ensures |m| == |left.rows|
    ensures forall i | 0 <= i < |left.rows| :: |m[i]| == |right.rows|
    ensures forall i, j | 0 <= i < |left.rows| && 0 <= j < |right.rows| :: m[i][j] == (Get(left, i, lk) == Get(right, j, rk))
  {
    seq(|left.rows|, i requires 0 <= i < |left.rows| =>
      seq(|right.rows|, j requires 0 <= j < |right.rows| => Get(left, i, lk) == Get(right, j, rk)))
  }

  /** A sequence whose elements are all different has parts that are. */
  lemma DistinctParts<T>(a: seq<T>, b: seq<T>)
    requires Distinct(a + b)
    ensures Distinct(a) && Distinct(b)
  {
    assert forall i | 0 <= i < |a| :: (a + b)[i] == a[i];
    assert forall i | 0 <= i < |b| :: (a + b)[|a| + i] == b[i];
  }

  /** `left.merge(right, left_on=lk, right_on=rk, how="inner",
      suffixes=("_m", "_x"))`. */
  function Merge(left: Frame, right: Frame, lk: string, rk: string): (r: Result<Frame, Error>)
    requires WellFormed(left) && WellFormed(right)
    ensures lk !in left.columns ==> r == Failure(KeyError(lk))
    ensures lk in left.columns && rk !in right.columns ==> r == Failure(KeyError(rk))
    ensures r == Failure(MergeError) <==> (lk in left.columns && rk in right.columns &&
      (!Distinct(Suffixed(left.columns, right.columns, "_m")) || !Distinct(Suffixed(right.columns, left.columns, "_x"))))
    ensures r.Success? <==>
      lk in left.columns && rk in right.columns && Distinct(MergedColumns(left.columns, right.columns))
    ensures r.Success? ==> WellFormed(r.value) && r.value.columns == MergedColumns(left.columns, right.columns)
    ensures r.Success? ==> |r.value.rows| == JoinCount(ColumnCells(left, lk), ColumnCells(right, rk))
    ensures r.Success? ==> forall row :: row in r.value.rows <==>
      exists i, j :: 0 <= i < |left.rows| && 0 <= j < |right.rows|
        && Get(left, i, lk) == Get(right, j, rk) && row == left.rows[i] + right.rows[j]
    ensures r.Success? ==> var g := Grid(MergeMask(left, right, lk, rk));
      |r.value.rows| == |g| &&
      forall k | 0 <= k < |g| :: r.value.rows[k] == left.rows[g[k].0] + right.rows[g[k].1]
  {
    if lk !in left.columns then Failure(KeyError(lk))
    else if rk !in right.columns then Failure(KeyError(rk))
    else
      var lcols, rcols := Suffixed(left.columns, right.columns, "_m"), Suffixed(right.columns, left.columns, "_x");
      if !Distinct(lcols) || !Distinct(rcols) then
        assert !Distinct(lcols + rcols) by {
          if Distinct(lcols + rcols) {
            DistinctParts(lcols, rcols);
          }
        }
        Failure(MergeError)
      else if !Distinct(lcols + rcols) then Failure(DuplicateColumns)
      else Success(Joined(left, right, lk, rk))
  }

  /** The frame of an inner merge whose columns are all different. */
  function Joined(left: Frame, right: Frame, lk: string, rk: string): (r: Frame)
    requires WellFormed(left) && WellFormed(right) && lk in left.columns && rk in right.columns
    requires Distinct(MergedColumns(left.columns, right.columns))
    ensures WellFormed(r) && r.columns == MergedColumns(left.columns, right.columns)
    ensures |r.rows| == JoinCount(ColumnCells(left, lk), ColumnCells(right, rk))
    ensures forall row :: row in r.rows <==>
      exists i, j :: 0 <= i < |left.rows| && 0 <= j < |right.rows|
        && Get(left, i, lk) == Get(right, j, rk) && row == left.rows[i] + right.rows[j]
    ensures var g := Grid(MergeMask(left, right, lk, rk));
      |r.rows| == |g| && forall k | 0 <= k < |g| :: r.rows[k] == left.rows[g[k].0] + right.rows[g[k].1]
  {
    JoinedRows(left, right, lk, rk);
    MergeInOrder(left, right, lk, rk);
    Frame(MergedColumns(left.columns, right.columns),
      JoinRows(left.rows, IndexOf(left.columns, lk), right.rows, IndexOf(right.columns, rk)))
  }

  /** The joined rows, stated by column name: each as wide as both sides
      together, as many as the pairs of equal keys, and exactly the
      concatenations of a left and a right row whose keys are equal. */
  lemma JoinedRows(left: Frame, right: Frame, lk: string, rk: string)
    requires WellFormed(left) && WellFormed(right) && lk in left.columns && rk in right.columns
    ensures var rows := JoinRows(left.rows, IndexOf(left.columns, lk), right.rows, IndexOf(right.columns, rk));
      && (forall k | 0 <= k < |rows| :: |rows[k]| == |left.columns| + |right.columns|)
      && |rows| == JoinCount(ColumnCells(left, lk), ColumnCells(right, rk))
      && (forall row :: row in rows <==>
            exists i, j :: 0 <= i < |left.rows| && 0 <= j < |right.rows|
              && Get(left, i, lk) == Get(right, j, rk) && row == left.rows[i] + right.rows[j])
  {
    var li, ri := IndexOf(left.columns, lk), IndexOf(right.columns, rk);
    assert KeyColumn(left.rows, li) == ColumnCells(left, lk);
    assert KeyColumn(right.rows, ri) == ColumnCells(right, rk);
    var rows := JoinRows(left.rows, li, right.rows, ri);
    forall k | 0 <= k < |rows| ensures |rows[k]| == |left.columns| + |right.columns| {
      assert rows[k] in rows;
    }
  }

  /** The merge's rows, by key position, in row-major order of the pairs
      of equal keys. */
  lemma MergeInOrder(left: Frame, right: Frame, lk: string, rk: string)
    requires WellFormed(left) && WellFormed(right) && lk in left.columns && rk in right.columns
    ensures var rows := JoinRows(left.rows, IndexOf(left.columns, lk), right.rows, IndexOf(right.columns, rk));
      var g := Grid(MergeMask(left, right, lk, rk));
      |rows| == |g| && forall k | 0 <= k < |g| :: rows[k] == left.rows[g[k].0] + right.rows[g[k].1]
  {
    var li, ri := IndexOf(left.columns, lk), IndexOf(right.columns, rk);
    var m, m' := KeyMatch(left.rows, li, right.rows, ri), MergeMask(left, right, lk, rk);
    forall i | 0 <= i < |left.rows| ensures m[i] == m'[i] {
      assert forall j | 0 <= j < |right.rows| :: m[i][j] == m'[i][j];
    }
    assert m == m';
    JoinRowsInOrder(left.rows, li, right.rows, ri);
  }

  /** Two frames whose suffixed names collide across the sides only: pandas
      merges them into a frame with two `a_m` columns, which this model
      cannot represent. */
  lemma CrossSideCollision()
    ensures Merge(Frame(["k", "a"], []), Frame(["j", "a", "a_m"], []), "k", "j") == Failure(DuplicateColumns)
  {
    var lc, rc := ["k", "a"], ["j", "a", "a_m"];
    assert "k" !in rc && "a" in rc && "j" !in lc && "a_m" !in lc by {
      assert "a" == rc[1];
      assert forall c | c in rc :: c == "j" || c == "a" || c == "a_m";
      assert forall c | c in lc :: c == "k" || c == "a";
    }
    var lcols, rcols := Suffixed(lc, rc, "_m"), Suffixed(rc, lc, "_x");
    assert "a" + "_m" == "a_m" && "a" + "_x" == "a_x";
    assert lcols == ["k", "a_m"] by {
      assert lcols[0] == "k" && lcols[1] == "a" + "_m";
    }
    assert rcols == ["j", "a_x", "a_m"] by {
      assert rcols[0] == "j" && rcols[1] == "a" + "_x" && rcols[2] == "a_m";
    }
    assert Distinct(lcols) && Distinct(rcols) by {
      assert "a_x"[2] != "a_m"[2];
    }
    assert (lcols + rcols)[1] == (lcols + rcols)[4];
  }

  /** A merged row's cell under the merged name of a right-hand column is
      the right row's cell. */
  lemma MergedRightCell(left: Frame, right: Frame, c: string, l: Row, r: Row)
    requires WellFormed(left) && WellFormed(right) && c in right.columns
    requires Distinct(MergedColumns(left.columns, right.columns))
    requires |l| == |left.columns| && |r| == |right.columns|
    ensures RightName(left.columns, c) in MergedColumns(left.columns, right.columns)
    ensures var cols := MergedColumns(left.columns, right.columns);
      (l + r)[IndexOf(cols, RightName(left.columns, c))] == r[IndexOf(right.columns, c)]
  {
    var cols := MergedColumns(left.columns, right.columns);
    var j := IndexOf(right.columns, c);
    var k := |left.columns| + j;
    assert cols[k] == RightName(left.columns, c);
    IndexOfDistinct(cols, k);
  }

  /** A merged row's cell under the merged name of a left-hand column is
      the left row's cell. */
  lemma MergedLeftCell(left: Frame, right: Frame, c: string, l: Row, r: Row)
    requires WellFormed(left) && WellFormed(right) && c in left.columns
    requires Distinct(MergedColumns(left.columns, right.columns))
    requires |l| == |left.columns| && |r| == |right.columns|
    ensures LeftName(right.columns, c) in MergedColumns(left.columns, right.columns)
    ensures var cols := MergedColumns(left.columns, right.columns);
      (l + r)[IndexOf(cols, LeftName(right.columns, c))] == l[IndexOf(left.columns, c)]
  {
    var cols := MergedColumns(left.columns, right.columns);
    var j := IndexOf(left.columns, c);
    assert cols[j] == LeftName(right.columns, c);
    IndexOfDistinct(cols, j);
  }
}

=== FILE: join_validator.dfy ===
/** The join validator: stores the extracted ids in a helper column,
    refuses a run that left any row without an id, then joins the master
    table to the description table on the id after two count checks.

    The count checks compare numbers, not sets. They pass exactly when the
    ids form a bijection only if both id columns are free of duplicates;
    `CountChecksAdmitMismatch` shows ids that pass although neither side's
    ids are all matched. */
module JoinValidator {
  import opened Wrappers
  import opened Errors
  import opened Frames
  import opened KeyExtractor

  /** The column `x_section_with_id` adds. */
  const HelperColumn: string := "program_stream_id_extracted"
  /** The master table's id column, the left key of the join. */
  const MasterKey: string := "program_stream_id"

  // ---------------------------------------------------------------- x_section_with_id

  /** One cell of the `Int64` id series: the id, or `<NA>`. */
  function IdCell(id: Option<nat>): Cell {
    match id
    case Some(n) => Int(n)
    case None => Missing
  }

  function IdCells(ids: seq<Option<nat>>): (r: seq<Cell>)
    ensures |r| == |ids| && forall i | 0 <= i < |ids| :: r[i] == IdCell(ids[i])
  {
    seq(|ids|, i requires 0 <= i < |ids| => IdCell(ids[i]))
  }

  /** `x[HelperColumn] = ids` for ids that are all present: the rows keep
      every other cell and gain the id in the helper column. */
  function WithIds(x: Frame, ids: seq<Option<nat>>): (r: Frame)
    requires WellFormed(x) && |ids| == |x.rows| && CountSome(ids) == |ids|
    ensures WellFormed(r) && |r.rows| == |x.rows|
    ensures r.columns == if HelperColumn in x.columns then x.columns else x.columns + [HelperColumn]
    ensures forall i, c | 0 <= i < |x.rows| && c in x.columns && c != HelperColumn ::
      c in r.columns && Get(r, i, c) == Get(x, i, c)
    ensures forall i | 0 <= i < |x.rows| :: ids[i].Some? && Get(r, i, HelperColumn) == Int(ids[i].value)
    ensures Missing !in ColumnCells(r, HelperColumn)
  {
    var r := WithColumn(x, HelperColumn, IdCells(ids));
    assert forall i | 0 <= i < |x.rows| :: ColumnCells(r, HelperColumn)[i] == Int(ids[i].value);
    r
  }

  /** `x_section_with_id`: the description table with the extracted id of
      every row in the helper column; ValueError when no strategy is
      accepted, and an error naming the strategy and the number of rows
      without an id when the accepted strategy missed any. */
  function XSectionWithId(x: Frame): (r: Result<Frame, Error>)
    requires WellFormed(x)
    ensures r.Success? ==> WellFormed(r.value) && |r.value.rows| == |x.rows|
    ensures r.Success? ==>
      r.value.columns == if HelperColumn in x.columns then x.columns else x.columns + [HelperColumn]
    ensures r.Success? ==> forall i, c | 0 <= i < |x.rows| && c in x.columns && c != HelperColumn ::
      c in r.value.columns && Get(r.value, i, c) == Get(x, i, c)
    ensures r.Success? ==> Missing !in ColumnCells(r.value, HelperColumn)
    ensures r.Failure? ==>
      || r.error == ExtractionFailed
      || (r.error.ExtractionIncomplete? && 0 < r.error.bad <= r.error.total == |x.rows|)
  {
    IdsFrom(x, ExtractProgramStreamId(x))
  }

  /** The extractor's answer `ex` is sound for `x`. */
  predicate ExtractionOf(x: Frame, ex: Result<Extraction, Error>) {
    && (ex.Success? ==> |ex.value.ids| == |x.rows|)
    && (ex.Failure? ==> ex.error == ExtractionFailed)
  }

  /** What `x_section_with_id` does with the extractor's answer: passes on
      its ValueError, refuses an extraction with rows left without an id,
      and otherwise stores exactly the extracted ids. */
  function IdsFrom(x: Frame, ex: Result<Extraction, Error>): (r: Result<Frame, Error>)
    requires WellFormed(x) && ExtractionOf(x, ex)
    ensures ex.Failure? ==> r == Failure(ExtractionFailed)
    ensures ex.Success? ==> (r.Success? <==> CountSome(ex.value.ids) == |x.rows|)
    ensures ex.Success? && r.Failure? ==>
      r.error == ExtractionIncomplete(ex.value.strategy.Tag(), |x.rows| - CountSome(ex.value.ids), |x.rows|)
    ensures r.Success? ==> r.value == WithIds(x, ex.value.ids)
  {
    if ex.Failure? then Failure(ex.error)
    else
      var ids := ex.value.ids;
      var bad := |x.rows| - CountSome(ids);
      if bad > 0 then Failure(ExtractionIncomplete(ex.value.strategy.Tag(), bad, |x.rows|))
      else Success(WithIds(x, ids))
  }

  /** The same, for the extractor's actual answer. */
  lemma XSectionWithIdUsesExtraction(x: Frame)
    requires WellFormed(x)
    ensures ExtractProgramStreamId(x).Failure? ==> XSectionWithId(x) == Failure(ExtractionFailed)
    ensures ExtractProgramStreamId(x).Success? ==>
      var e := ExtractProgramStreamId(x).value;
      var r := XSectionWithId(x);
      && (r.Success? <==> CountSome(e.ids) == |x.rows|)
      && (r.Failure? ==> r.error == ExtractionIncomplete(e.strategy.Tag(), |x.rows| - CountSome(e.ids), |x.rows|))
      && (r.Success? ==> forall i | 0 <= i < |x.rows| :: e.ids[i].Some? && Get(r.value, i, HelperColumn) == Int(e.ids[i].value))
  {
    var ex := ExtractProgramStreamId(x);
    assert XSectionWithId(x) == IdsFrom(x, ex);
  }

  // ---------------------------------------------------------------- nunique

  /** The distinct non-missing values of a column; `nunique(dropna=True)`
      is its size. */
  function Values(cells: seq<Cell>): set<Cell> {
    set c | c in cells && c != Missing
  }

  /** A column has as many distinct values as cells exactly when its cells
      are pairwise different and none is missing. */
  lemma {:induction false} ValuesCard(xs: seq<Cell>)
    ensures |Values(xs)| <= |xs|
    ensures |Values(xs)| == |xs| <==> Distinct(xs) && Missing !in xs
    decreases |xs|
  {
    if |xs| == 0 {
      assert Values(xs) == {};
    } else {
      var t := xs[1..];
      ValuesCard(t);
      ValuesCons(xs);
      DistinctCons(xs);
      assert Missing in xs <==> xs[0] == Missing || Missing in t;
      if xs[0] != Missing && xs[0] !in t {
        assert xs[0] !in Values(t);
      }
    }
  }

  /** The values of a column are those of its tail plus its first cell
      when present. */
  lemma ValuesCons(xs: seq<Cell>)
    requires |xs| > 0
    ensures Values(xs) == (if xs[0] == Missing then {} else {xs[0]}) + Values(xs[1..])
  {
    assert forall c :: c in xs <==> c == xs[0] || c in xs[1..];
  }

  /** A column is pairwise distinct when its tail is and its first cell
      does not recur. */
  lemma DistinctCons<T>(xs: seq<T>)
    requires |xs| > 0
    ensures Distinct(xs) <==> xs[0] !in xs[1..] && Distinct(xs[1..])
  {
    var t := xs[1..];
    assert forall i | 1 <= i < |xs| :: xs[i] == t[i - 1];
    if xs[0] in t {
      var k :| 0 <= k < |t| && t[k] == xs[0];
      assert xs[k + 1] == xs[0];
    }
  }

  // ---------------------------------------------------------------- joined_master_xsection

  /** The two count checks of `joined_master_xsection` over the master ids
      `mk` and the extracted ids `xk`: as many distinct extracted ids as
      master rows, and an inner join with exactly one row per master row. */
  predicate CountChecksPass(mk: seq<Cell>, xk: seq<Cell>) {
    |Values(xk)| == |mk| && JoinCount(mk, xk) == |mk|
  }

  /** `joined_master_xsection`: the inner merge of the master table with
      the description table on the extracted id, refused when the distinct
      id count or the merged row count differs from the master row count. */
  function JoinedMasterXSection(m: Frame, x: Frame): (r: Result<Frame, Error>)
    requires WellFormed(m) && WellFormed(x)
    ensures HelperColumn !in x.columns ==> r == Failure(KeyError(HelperColumn))
    ensures HelperColumn in x.columns && |Values(ColumnCells(x, HelperColumn))| != |m.rows| ==>
      r == Failure(NotUniqueOrComplete(|Values(ColumnCells(x, HelperColumn))|, |m.rows|))
    ensures r.Success? <==>
      && HelperColumn in x.columns && MasterKey in m.columns
      && Distinct(MergedColumns(m.columns, x.columns))
      && CountChecksPass(ColumnCells(m, MasterKey), ColumnCells(x, HelperColumn))
    ensures r.Failure? && r.error.JoinFailed? ==>
      && HelperColumn in x.columns && MasterKey in m.columns
      && r.error.expected == |m.rows| && r.error.got != |m.rows|
      && r.error.got == JoinCount(ColumnCells(m, MasterKey), ColumnCells(x, HelperColumn))
    ensures r.Success? ==> WellFormed(r.value) && |r.value.rows| == |m.rows|
    ensures r.Success? ==> r.value.columns == MergedColumns(m.columns, x.columns)
    ensures r.Success? ==> forall row :: row in r.value.rows <==>
      exists i, j :: 0 <= i < |m.rows| && 0 <= j < |x.rows|
        && Get(m, i, MasterKey) == Get(x, j, HelperColumn) && row == m.rows[i] + x.rows[j]
  {
    var expected := |m.rows|;
    var ids :- Column(x, HelperColumn);
    var uniq := |Values(ids)|;
    if uniq != expected then Failure(NotUniqueOrComplete(uniq, expected))
    else
      var merged :- Merge(m, x, MasterKey, HelperColumn);
      if |merged.rows| != expected then Failure(JoinFailed(expected, |merged.rows|))
      else Success(merged)
  }

  /** The checks do not prove the ids match up: master ids {1, 2} against
      extracted ids {1, 1, 3} pass both, although master id 2 finds no
      description and description id 3 finds no master row. */
  lemma CountChecksAdmitMismatch()
    ensures var m := Frame([MasterKey], [[Int(1)], [Int(2)]]);
      var x := Frame([HelperColumn], [[Int(1)], [Int(1)], [Int(3)]]);
      && WellFormed(m) && WellFormed(x)
      && JoinedMasterXSection(m, x).Success?
      && Int(2) !in ColumnCells(x, HelperColumn) && Int(3) !in ColumnCells(m, MasterKey)
  {
    var m := Frame([MasterKey], [[Int(1)], [Int(2)]]);
    var x := Frame([HelperColumn], [[Int(1)], [Int(1)], [Int(3)]]);
    var mk, xk := [Int(1), Int(2)], [Int(1), Int(1), Int(3)];
    assert ColumnCells(m, MasterKey) == mk;
    assert ColumnCells(x, HelperColumn) == xk;
    assert Values(xk) == {Int(1), Int(3)};
    assert MergedColumns(m.columns, x.columns) == [MasterKey, HelperColumn];
    assert JoinCount(mk, xk) == 2 by {
      assert Count(xk, Int(1)) == 2;
      assert Count(xk, Int(2)) == 0;
      assert mk[1..][1..] == [];
    }
  }

  /** In a column of pairwise different cells a value occurs at most once. */
  lemma {:induction false} CountDistinct(xs: seq<Cell>, v: Cell)
    requires Distinct(xs)
    ensures Count(xs, v) == if v in xs then 1 else 0
    decreases |xs|
  {
    if |xs| > 0 {
      assert forall i, j | 0 <= i < j < |xs[1..]| :: xs[1..][i] == xs[i + 1] && xs[1..][j] == xs[j + 1];
      CountDistinct(xs[1..], v);
      assert xs == [xs[0]] + xs[1..];
      if xs[0] == v {
        assert v !in xs[1..] by {
          assert forall k | 0 <= k < |xs[1..]| :: xs[1..][k] == xs[k + 1];
        }
      }
    }
  }

  /** Against pairwise different right keys, the inner join has one row per
      left key that occurs on the right, so one row per left row exactly
      when every left key occurs on the right. */
  lemma {:induction false} JoinCountDistinct(mk: seq<Cell>, xk: seq<Cell>)
    requires Distinct(xk)
    ensures JoinCount(mk, xk) <= |mk|
    ensures JoinCount(mk, xk) == |mk| <==> forall i | 0 <= i < |mk| :: mk[i] in xk
    decreases |mk|
  {
    if |mk| > 0 {
      JoinCountDistinct(mk[1..], xk);
      CountDistinct(xk, mk[0]);
      assert forall i | 1 <= i < |mk| :: mk[i] == mk[1..][i - 1];
    }
  }

  /** The elements of a sequence. */
  function Elements(xs: seq<Cell>): set<Cell> {
    set c | c in xs
  }

  /** When neither id column has a duplicate, the count checks pass exactly
      when the master ids and the extracted ids are the same set: every
      master row finds one description and every description one master
      row. */
  lemma ChecksMeanBijection(mk: seq<Cell>, xk: seq<Cell>)
    requires Distinct(mk) && Distinct(xk) && Missing !in xk
    ensures CountChecksPass(mk, xk) <==> Missing !in mk && Elements(mk) == Elements(xk)
  {
    if CountChecksPass(mk, xk) {
      PassingChecksMatchIds(mk, xk);
    }
    if Missing !in mk && Elements(mk) == Elements(xk) {
      MatchingIdsPassChecks(mk, xk);
    }
  }

  lemma PassingChecksMatchIds(mk: seq<Cell>, xk: seq<Cell>)
    requires Distinct(mk) && Distinct(xk) && Missing !in xk
    requires CountChecksPass(mk, xk)
    ensures Missing !in mk && Elements(mk) == Elements(xk)
  {
    ValuesCard(xk);
    JoinCountDistinct(mk, xk);
    assert forall c | c in mk :: c in xk;
    ValuesCard(mk);
    var a, b := Elements(mk), Elements(xk);
    assert Values(xk) == b;
    assert Values(mk) == a;
    assert a <= b;
    assert b == a + (b - a);
    assert |b - a| == 0;
  }

  lemma MatchingIdsPassChecks(mk: seq<Cell>, xk: seq<Cell>)
    requires Distinct(mk) && Distinct(xk) && Missing !in xk
    requires Missing !in mk && Elements(mk) == Elements(xk)
    ensures CountChecksPass(mk, xk)
  {
    ValuesCard(xk);
    ValuesCard(mk);
    assert Values(xk) == Elements(xk);
    assert Values(mk) == Elements(mk);
    JoinCountDistinct(mk, xk);
    assert forall i | 0 <= i < |mk| :: mk[i] in Elements(xk);
  }

  /** A duplicated extracted id is refused when there are as many
      descriptions as master rows: the distinct count then falls short. */
  lemma DuplicateIdRefused(m: Frame, x: Frame)
    requires WellFormed(m) && WellFormed(x) && HelperColumn in x.columns
    requires |x.rows| == |m.rows| && Missing !in ColumnCells(x, HelperColumn)
    requires !Distinct(ColumnCells(x, HelperColumn))
    ensures JoinedMasterXSection(m, x).Failure?
    ensures JoinedMasterXSection(m, x).error.NotUniqueOrComplete?
  {
    ValuesCard(ColumnCells(x, HelperColumn));
  }
}

=== FILE: key_extractor.dfy ===
/** The key extractor: derives the canonical program-stream id of every
    description row from its `document_id` text, or failing that from its
    `source` URL, and accepts a strategy only when at least
    max(1, floor(0.95 n)) of the n rows yield an id.

    The two regular expressions are hand-coded. Each comes with a ghost
    predicate saying what a match of the pattern is, and a lemma that the
    code returns the group of the leftmost match, as `re.search` does. */
module KeyExtractor {
  import opened Wrappers
  import opened Errors
  import opened Strings
  import opened Frames

  // ================================================================ (\d+)\s*$

  /** The longest run of ASCII digits that ends `s`. */
  function DigitSuffix(s: string): (d: string)
    ensures |d| <= |s| && d == s[|s| - |d|..] && AllDigits(d)
    ensures |d| == |s| || !IsDigit(s[|s| - |d| - 1])
    decreases |s|
  {
    if |s| > 0 && IsDigit(s[|s| - 1]) then DigitSuffix(s[..|s| - 1]) + [s[|s| - 1]] else []
  }

  /** Any all-digit tail that is preceded by a non-digit is the longest
      digit run ending the string. */
  lemma {:induction false} DigitSuffixOf(s: string, p: nat)
    requires p <= |s| && AllDigits(s[p..])
    requires p == 0 || !IsDigit(s[p - 1])
    ensures DigitSuffix(s) == s[p..]
    decreases |s|
  {
    if p < |s| {
      var s' := s[..|s| - 1];
      assert IsDigit(s[|s| - 1]) by {
        assert s[|s| - 1] == s[p..][|s| - 1 - p];
      }
      assert s'[p..] == s[p..][..|s| - 1 - p];
      assert p > 0 ==> s'[p - 1] == s[p - 1];
      DigitSuffixOf(s', p);
      assert s[p..] == s'[p..] + [s[|s| - 1]];
    }
  }

  /** The group `str.extract(r"(\d+)\s*$")` captures, or None when the
      pattern does not match. */
  function TrailingDigits(s: string): Option<string> {
    var d := DigitSuffix(TrimEnd(s));
    if |d| == 0 then None else Some(d)
  }

  /** A match of `(\d+)\s*$` that starts at `p` and whose group ends at `q`. */
  ghost predicate TrailingMatch(s: string, p: int, q: int) {
    0 <= p < q <= |s| && AllDigits(s[p..q]) && AllSpace(s[q..])
  }

  /** A digit tail never reaches further left than the longest one. */
  lemma {:induction false} DigitSuffixCovers(t: string, p: nat)
    requires p <= |t| && AllDigits(t[p..])
    ensures |t| - |DigitSuffix(t)| <= p
    decreases |t|
  {
    if p < |t| {
      var t' := t[..|t| - 1];
      assert t[|t| - 1] == t[p..][|t| - 1 - p];
      assert t'[p..] == t[p..][..|t| - 1 - p];
      DigitSuffixCovers(t', p);
    }
  }

  /** Every match of `(\d+)\s*$` ends its group where the trailing
      whitespace begins, and starts no earlier than the longest digit run
      before it. */
  lemma TrailingMatchShape(s: string, p: int, q: int)
    requires TrailingMatch(s, p, q)
    ensures var t := TrimEnd(s); var d := DigitSuffix(t);
      q == |t| && |t| - |d| <= p && |d| > 0
  {
    var a := s[..q];
    assert a[q - 1] == s[p..q][q - 1 - p];
    assert s == a + s[q..];
    TrimEndPadded(a, s[q..]);
    assert a[p..] == s[p..q];
    DigitSuffixCovers(a, p);
  }

  /** `(\d+)\s*$` as `re.search` runs it: when the code finds a group it is
      the group of the leftmost match (and the only possible end), and when
      it finds none the pattern matches nowhere. */
  lemma TrailingDigitsIsLeftmostMatch(s: string)
    ensures TrailingDigits(s).None? ==> forall p, q :: !TrailingMatch(s, p, q)
    ensures TrailingDigits(s).Some? ==>
      exists p, q :: TrailingMatch(s, p, q) && TrailingDigits(s).value == s[p..q]
        && forall p', q' :: TrailingMatch(s, p', q') ==> p <= p' && q' == q
  {
    var t := TrimEnd(s);
    var d := DigitSuffix(t);
    forall p, q | TrailingMatch(s, p, q) ensures q == |t| && |t| - |d| <= p && |d| > 0 {
      TrailingMatchShape(s, p, q);
    }
    if |d| > 0 {
      var p, q := |t| - |d|, |t|;
      assert s[p..q] == d;
      assert TrailingMatch(s, p, q);
    }
  }

  // ================================================================ .*-\s*(\d+)\s*$

  /** The position of the last `c` in `s`. */
  function LastIndexOf(s: string, c: char): (r: Option<nat>)
    ensures r.Some? ==> r.value < |s| && s[r.value] == c
    ensures r.Some? ==> forall k | r.value < k < |s| :: s[k] != c
    ensures r.None? ==> forall k | 0 <= k < |s| :: s[k] != c
    decreases |s|
  {
    if |s| == 0 then None
    else if s[|s| - 1] == c then Some(|s| - 1)
    else
      var r := LastIndexOf(s[..|s| - 1], c);
      assert forall k | 0 <= k < |s| - 1 :: s[..|s| - 1][k] == s[k];
      r
  }

  /** The group `str.extract(r".*-\s*(\d+)\s*$")` captures: the digits that,
      padded only by whitespace, make up everything after the last hyphen. */
  function HyphenDigits(s: string): Option<string> {
    match LastIndexOf(s, '-')
    case None => None
    case Some(h) =>
      var t := Strip(s[h + 1..]);
      if |t| > 0 && AllDigits(t) then Some(t) else None
  }

  /** A match of `.*-\s*(\d+)\s*$` whose hyphen is at `h` and whose group is
      `s[p..q]`. (The greedy `.*` can start right at the hyphen, so the
      pattern's refusal to cross a newline never matters.) */
  ghost predicate HyphenMatch(s: string, h: int, p: int, q: int) {
    && 0 <= h < p < q <= |s|
    && s[h] == '-'
    && AllSpace(s[h + 1..p])
    && AllDigits(s[p..q])
    && AllSpace(s[q..])
  }

  lemma {:induction false} LastIndexOfAt(s: string, c: char, h: nat)
    requires h < |s| && s[h] == c
    requires forall k | h < k < |s| :: s[k] != c
    ensures LastIndexOf(s, c) == Some(h)
    decreases |s|
  {
    if h < |s| - 1 {
      var s' := s[..|s| - 1];
      assert forall k | h < k < |s'| :: s'[k] == s[k];
      LastIndexOfAt(s', c, h);
    }
  }

  lemma HyphenMatchShape(s: string, h: int, p: int, q: int)
    requires HyphenMatch(s, h, p, q)
    ensures LastIndexOf(s, '-') == Some(h)
    ensures Strip(s[h + 1..]) == s[p..q]
  {
    var a, b, c := s[h + 1..p], s[p..q], s[q..];
    assert s[h + 1..] == a + b + c;
    assert forall k | 0 <= k < |a + b + c| :: IsSpace((a + b + c)[k]) || IsDigit((a + b + c)[k]);
    assert forall k | h < k < |s| :: s[k] == (a + b + c)[k - h - 1];
    LastIndexOfAt(s, '-', h);
    assert b[0] == s[p] && b[|b| - 1] == s[q - 1];
    StripPadded(a, b, c);
  }

  /** When the code finds a group, the pattern matches there. */
  lemma HyphenDigitsWitness(s: string) returns (h: int, p: int, q: int)
    requires HyphenDigits(s).Some?
    ensures HyphenMatch(s, h, p, q) && HyphenDigits(s).value == s[p..q]
  {
    h := LastIndexOf(s, '-').value;
    p, q := HyphenGroupAt(s, h);
  }

  /** Digits after the hyphen at `h`, padded only by whitespace, are the
      group of a match whose hyphen is at `h`. */
  lemma HyphenGroupAt(s: string, h: nat) returns (p: int, q: int)
    requires h < |s| && s[h] == '-'
    requires var t := Strip(s[h + 1..]); |t| > 0 && AllDigits(t)
    ensures HyphenMatch(s, h, p, q) && Strip(s[h + 1..]) == s[p..q]
  {
    var rest := s[h + 1..];
    var i, j := StripIsSlice(rest);
    p, q := h + 1 + i, h + 1 + j;
    assert AllSpace(s[h + 1..p]) by {
      SliceOfSuffix(s, h + 1, 0, i);
      assert rest[..i] == rest[0..i];
    }
    assert s[p..q] == rest[i..j] by {
      SliceOfSuffix(s, h + 1, i, j);
    }
    assert AllSpace(s[q..]) by {
      SliceOfSuffix(s, h + 1, j, |rest|);
      assert rest[j..] == rest[j..|rest|];
      assert s[q..] == s[q..|s|];
    }
  }

  /** A slice of a suffix is a slice of the whole. */
  lemma SliceOfSuffix(s: string, a: nat, i: nat, j: nat)
    requires a <= |s| && i <= j <= |s| - a
    ensures s[a..][i..j] == s[a + i..a + j]
  {
    assert forall k | 0 <= k < j - i :: s[a..][i..j][k] == s[a + i + k];
  }

  /** `.*-\s*(\d+)\s*$` as `re.search` runs it: the code's group is the
      group of a match, and every match yields the code's group. */
  lemma HyphenDigitsMatchesRegex(s: string)
    ensures HyphenDigits(s).Some? ==>
      exists h, p, q :: HyphenMatch(s, h, p, q) && HyphenDigits(s).value == s[p..q]
    ensures forall h, p, q :: HyphenMatch(s, h, p, q) ==> HyphenDigits(s) == Some(s[p..q])
  {
    forall h, p, q | HyphenMatch(s, h, p, q) ensures HyphenDigits(s) == Some(s[p..q]) {
      HyphenMatchShape(s, h, p, q);
    }
    if HyphenDigits(s).Some? {
      var h, p, q := HyphenDigitsWitness(s);
    }
  }

  /** Whenever the hyphen pattern matches, the bare trailing-digit pattern
      captures the very same digits: the digits after the last hyphen are
      the trailing digit run. */
  lemma HyphenAgreesWithTrailing(s: string)
    ensures HyphenDigits(s).Some? ==> TrailingDigits(s) == HyphenDigits(s)
  {
    if HyphenDigits(s).Some? {
      var h, p, q := HyphenDigitsWitness(s);
      HyphenMatchIsTrailing(s, h, p, q);
    }
  }

  /** The group of a hyphen match is the longest digit run before the
      trailing whitespace. */
  lemma HyphenMatchIsTrailing(s: string, h: int, p: int, q: int)
    requires HyphenMatch(s, h, p, q)
    ensures TrailingDigits(s) == Some(s[p..q])
  {
    TrailingMatchShape(s, p, q);
    var t := TrimEnd(s);
    assert t == s[..q];
    assert !IsDigit(t[p - 1]) by {
      assert t[p - 1] == s[p - 1];
      if p - 1 > h {
        assert s[p - 1] == s[h + 1..p][p - 2 - h];
      }
    }
    assert t[p..] == s[p..q];
    DigitSuffixOf(t, p);
  }

  /** `m2.fillna(m1)`: the hyphen group when there is one, else the bare
      trailing-digit group. */
  function DocumentIdDigits(s: string): Option<string> {
    var m2 := HyphenDigits(s);
    if m2.Some? then m2 else TrailingDigits(s)
  }

  /** The combined document-id rule is simply the trailing ASCII digit run
      (the leftmost match of `(\d+)\s*$`). */
  lemma DocumentIdIsTrailingRun(s: string)
    ensures DocumentIdDigits(s) == TrailingDigits(s)
  {
    HyphenAgreesWithTrailing(s);
  }

  // ================================================================ /\d+/(\d+)\b

  /** The end of the digit run that starts at `k`. */
  function DigitRunEnd(s: string, k: nat): (e: nat)
    requires k <= |s|
    ensures k <= e <= |s| && AllDigits(s[k..e]) && (e == |s| || !IsDigit(s[e]))
    decreases |s| - k
  {
    if k < |s| && IsDigit(s[k]) then
      var e := DigitRunEnd(s, k + 1);
      assert s[k..e] == [s[k]] + s[k + 1..e];
      e
    else k
  }

  lemma DigitRunEndAt(s: string, k: nat, e: nat)
    requires k <= e <= |s| && AllDigits(s[k..e]) && (e == |s| || !IsDigit(s[e]))
    ensures DigitRunEnd(s, k) == e
  {
    var e' := DigitRunEnd(s, k);
    assert forall t | k <= t < e :: IsDigit(s[t]) by {
      forall t | k <= t < e ensures IsDigit(s[t]) {
        assert s[t] == s[k..e][t - k];
      }
    }
    assert forall t | k <= t < e' :: IsDigit(s[t]) by {
      forall t | k <= t < e' ensures IsDigit(s[t]) {
        assert s[t] == s[k..e'][t - k];
      }
    }
  }

  /** The group of `/\d+/(\d+)\b` when a match starts at `p`: greedy digit
      runs, and a word boundary right after the second one. */
  function UrlMatchAt(s: string, p: nat): Option<string>
    requires p < |s|
  {
    if s[p] != '/' then None
    else
      var q := DigitRunEnd(s, p + 1);
      if q == p + 1 || q == |s| || s[q] != '/' then None
      else
        var r := DigitRunEnd(s, q + 1);
        if r == q + 1 || (r < |s| && IsWordChar(s[r])) then None
        else Some(s[q + 1..r])
  }

  /** A match of `/\d+/(\d+)\b` starting at `p`, its group `s[q + 1..r]`. */
  ghost predicate UrlMatch(s: string, p: int, q: int, r: int) {
    && 0 <= p && p + 1 < q && q + 1 < r <= |s|
    && s[p] == '/' && AllDigits(s[p + 1..q])
    && s[q] == '/' && AllDigits(s[q + 1..r])
    && (r == |s| || !IsWordChar(s[r]))
  }

  lemma UrlMatchAtSpec(s: string, p: nat)
    requires p < |s|
    ensures UrlMatchAt(s, p).Some? ==>
      exists q, r :: UrlMatch(s, p, q, r) && UrlMatchAt(s, p).value == s[q + 1..r]
    ensures forall q, r :: UrlMatch(s, p, q, r) ==> UrlMatchAt(s, p) == Some(s[q + 1..r])
  {
    forall q, r | UrlMatch(s, p, q, r) ensures UrlMatchAt(s, p) == Some(s[q + 1..r]) {
      DigitRunEndAt(s, p + 1, q);
      DigitRunEndAt(s, q + 1, r);
    }
    if UrlMatchAt(s, p).Some? {
      var q := DigitRunEnd(s, p + 1);
      var r := DigitRunEnd(s, q + 1);
      assert UrlMatch(s, p, q, r);
    }
  }

  /** Where the leftmost match at or after `i` starts, scanning left to
      right. */
  function UrlMatchFrom(s: string, i: nat): (r: Option<nat>)
    requires i <= |s|
    ensures r.Some? ==> i <= r.value < |s| && UrlMatchAt(s, r.value).Some?
    ensures r.Some? ==> forall p | i <= p < r.value :: UrlMatchAt(s, p).None?
    ensures r.None? ==> forall p | i <= p < |s| :: UrlMatchAt(s, p).None?
    decreases |s| - i
  {
    if i == |s| then None
    else if UrlMatchAt(s, i).Some? then Some(i)
    else UrlMatchFrom(s, i + 1)
  }

  /** The group `str.extract(r"/\d+/(\d+)\b")` captures. */
  function UrlDigits(s: string): Option<string> {
    match UrlMatchFrom(s, 0)
    case None => None
    case Some(p) => UrlMatchAt(s, p)
  }

  /** `/\d+/(\d+)\b` as `re.search` runs it: the group of the leftmost
      match, or None when the pattern matches nowhere. */
  lemma UrlDigitsIsLeftmostMatch(s: string)
    ensures UrlDigits(s).None? ==> forall p, q, r :: !UrlMatch(s, p, q, r)
    ensures UrlDigits(s).Some? ==>
      exists p, q, r :: UrlMatch(s, p, q, r) && UrlDigits(s).value == s[q + 1..r]
        && forall p', q', r' :: UrlMatch(s, p', q', r') ==> p <= p'
  {
    forall p, q, r | UrlMatch(s, p, q, r) ensures UrlMatchAt(s, p) == Some(s[q + 1..r]) {
      UrlMatchAtSpec(s, p);
    }
    if UrlDigits(s).Some? {
      var p := UrlMatchFrom(s, 0).value;
      UrlMatchAtSpec(s, p);
      var q, r :| UrlMatch(s, p, q, r) && UrlMatchAt(s, p).value == s[q + 1..r];
      assert UrlDigits(s).value == s[q + 1..r];
    }
  }

  /** An iteration URL: in `<base>/<iteration>/<id><rest>` where `<base>`
      has no digit and `<rest>` does not continue the id with a word
      character, the group is `<id>`. */
  lemma IterationUrl(base: string, iteration: string, id: string, rest: string)
    requires forall k | 0 <= k < |base| :: !IsDigit(base[k])
    requires |iteration| > 0 && AllDigits(iteration) && |id| > 0 && AllDigits(id)
    requires |rest| == 0 || !IsWordChar(rest[0])
    ensures UrlDigits(base + "/" + iteration + "/" + id + rest) == Some(id)
  {
    var s := base + "/" + iteration + "/" + id + rest;
    var p, q, r := |base|, |base| + 1 + |iteration|, |base| + 2 + |iteration| + |id|;
    assert forall k | 0 < k <= p :: !IsDigit(s[k]) by {
      assert forall k | 0 <= k < p :: s[k] == base[k];
      assert s[p] == '/';
    }
    assert UrlMatch(s, p, q, r) && s[q + 1..r] == id by {
      assert s[p + 1..q] == iteration;
      assert s[q + 1..r] == id;
      assert s[p] == '/' && s[q] == '/';
      assert r < |s| ==> s[r] == rest[0];
    }
    UrlMatchAtSpec(s, p);
    NoDigitNoMatch(s, p);
    UrlMatchFromIs(s, 0, p);
  }

  /** No match starts before `p` when no digit does. */
  lemma NoDigitNoMatch(s: string, p: nat)
    requires p < |s| && forall k | 0 < k <= p :: !IsDigit(s[k])
    ensures forall p' | 0 <= p' < p :: UrlMatchAt(s, p').None?
  {
    forall p' | 0 <= p' < p ensures UrlMatchAt(s, p').None? {
      assert DigitRunEnd(s, p' + 1) == p' + 1;
    }
  }

  /** The scan stops at the first start where the pattern matches. */
  lemma UrlMatchFromIs(s: string, i: nat, p: nat)
    requires i <= p < |s| && UrlMatchAt(s, p).Some?
    requires forall p' | i <= p' < p :: UrlMatchAt(s, p').None?
    ensures UrlMatchFrom(s, i) == Some(p)
  {
  }

  // ================================================================ per-row ids

  /** `r` is the number written by the group of the leftmost match of
      `(\d+)\s*$` in `t`, and is none when the pattern matches nowhere. */
  ghost predicate TrailingReading(t: string, r: Option<nat>) {
    && (r.None? <==> forall p, q :: !TrailingMatch(t, p, q))
    && (r.Some? ==> exists p, q :: TrailingMatch(t, p, q) && LeftmostTrailing(t, p)
                                   && r.value == DigitsValue(t[p..q]))
  }

  /** No match of `(\d+)\s*$` in `t` starts left of `p`. */
  ghost predicate LeftmostTrailing(t: string, p: int) {
    forall p', q' :: TrailingMatch(t, p', q') ==> p <= p'
  }

  /** `r` is the number written by the group of the leftmost match of
      `/\d+/(\d+)\b` in `t`, and is none when the pattern matches nowhere. */
  ghost predicate UrlReading(t: string, r: Option<nat>) {
    && (r.None? <==> forall p, q, k :: !UrlMatch(t, p, q, k))
    && (r.Some? ==> exists p, q, k :: UrlMatch(t, p, q, k) && LeftmostUrl(t, p)
                                      && r.value == DigitsValue(t[q + 1..k]))
  }

  /** No match of `/\d+/(\d+)\b` in `t` starts left of `p`. */
  ghost predicate LeftmostUrl(t: string, p: int) {
    forall p', q', k' :: UrlMatch(t, p', q', k') ==> p <= p'
  }

  /** The group `TrailingDigits` returns comes from a leftmost match. */
  lemma TrailingWitness(t: string)
    ensures TrailingDigits(t).None? ==> forall p, q :: !TrailingMatch(t, p, q)
    ensures TrailingDigits(t).Some? ==>
      exists p, q :: TrailingMatch(t, p, q) && LeftmostTrailing(t, p) && TrailingDigits(t).value == t[p..q]
  {
    TrailingDigitsIsLeftmostMatch(t);
    if TrailingDigits(t).Some? {
      var p, q :| TrailingMatch(t, p, q) && TrailingDigits(t).value == t[p..q]
        && forall p', q' :: TrailingMatch(t, p', q') ==> p <= p' && q' == q;
      assert LeftmostTrailing(t, p);
    }
  }

  /** The group `UrlDigits` returns comes from a leftmost match. */
  lemma UrlWitness(t: string)
    ensures UrlDigits(t).None? ==> forall p, q, k :: !UrlMatch(t, p, q, k)
    ensures UrlDigits(t).Some? ==>
      exists p, q, k :: UrlMatch(t, p, q, k) && LeftmostUrl(t, p) && UrlDigits(t).value == t[q + 1..k]
  {
    UrlDigitsIsLeftmostMatch(t);
    if UrlDigits(t).Some? {
      var p, q, k :| UrlMatch(t, p, q, k) && UrlDigits(t).value == t[q + 1..k]
        && forall p', q', k' :: UrlMatch(t, p', q', k') ==> p <= p';
      assert LeftmostUrl(t, p);
    }
  }

  /** The id the document-id strategy derives from one `document_id` cell:
      `astype(str)`, cleaning, the two patterns, `pd.to_numeric`. Both
      patterns together read the trailing digit run of the cleaned text. */
  function DocumentIdValue(c: Cell): (r: Option<nat>)
    ensures TrailingReading(Clean(AsText(c)), r)
  {
    DocumentIdOfText(AsText(c))
  }

  function DocumentIdOfText(s: string): (r: Option<nat>)
    ensures TrailingReading(Clean(s), r)
  {
    var t := Clean(s);
    DocumentIdIsTrailingRun(t);
    TrailingWitness(t);
    match DocumentIdDigits(t)
    case None => None
    case Some(d) => Some(DigitsValue(d))
  }

  /** The id the URL strategy derives from one `source` cell. */
  function SourceUrlValue(c: Cell): (r: Option<nat>)
    ensures UrlReading(Clean(AsText(c)), r)
  {
    SourceUrlOfText(AsText(c))
  }

  function SourceUrlOfText(s: string): (r: Option<nat>)
    ensures UrlReading(Clean(s), r)
  {
    var t := Clean(s);
    UrlWitness(t);
    match UrlDigits(t)
    case None => None
    case Some(d) => Some(DigitsValue(d))
  }

  /** A hyphenated document id such as "1503-27447" yields the number
      after the hyphen, whatever precedes the hyphen and however much
      whitespace, NBSP or BOM follows the digits. */
  lemma HyphenatedDocumentId(prefix: string, digits: string, pad: string)
    requires |digits| > 0 && AllDigits(digits)
    requires forall i | 0 <= i < |pad| :: IsPadding(pad[i])
    ensures DocumentIdValue(Text(prefix + "-" + digits + pad)) == Some(DigitsValue(digits))
  {
    var x := prefix + "-" + digits + pad;
    var q := HyphenatedClean(prefix, digits, pad);
    HyphenatedDigits(q, digits);
    assert DocumentIdDigits(Clean(x)) == Some(digits);
    assert DocumentIdValue(Text(x)) == DocumentIdOfText(x);
  }

  /** Cleaning such an id keeps the hyphen and the digits at its end. */
  lemma HyphenatedClean(prefix: string, digits: string, pad: string) returns (q: string)
    requires |digits| > 0 && AllDigits(digits)
    requires forall i | 0 <= i < |pad| :: IsPadding(pad[i])
    ensures Clean(prefix + "-" + digits + pad) == q + "-" + digits
  {
    var tail := "-" + digits;
    assert tail[|tail| - 1] == digits[|digits| - 1];
    assert forall k | 1 <= k < |tail| :: tail[k] == digits[k - 1];
    assert IsStripped(tail);
    assert Nbsp !in tail && Bom !in tail by {
      forall k | 0 <= k < |tail| ensures tail[k] != Nbsp && tail[k] != Bom {
        if k > 0 {
          assert IsDigit(digits[k - 1]);
        }
      }
    }
    q := CleanKeepsTail(prefix, tail, pad);
    JoinAround(prefix, "-", digits, pad);
    JoinAround(q, "-", digits, []);
  }

  lemma JoinAround(a: string, b: string, c: string, d: string)
    ensures a + b + c + d == a + (b + c) + d
  {
  }

  lemma HyphenatedDigits(prefix: string, digits: string)
    requires |digits| > 0 && AllDigits(digits)
    ensures HyphenDigits(prefix + "-" + digits) == Some(digits)
  {
    var s := prefix + "-" + digits;
    var h := |prefix|;
    assert s[h + 1..|s|] == digits;
    assert HyphenMatch(s, h, h + 1, |s|);
    HyphenDigitsMatchesRegex(s);
  }

  /** A numeric document id reads back as its magnitude: "27447" gives
      27447, and the minus sign of "-27447" counts as the hyphen. */
  lemma NumericDocumentId(i: int)
    ensures DocumentIdValue(Int(i)) == Some(if i < 0 then -i else i)
  {
    if i < 0 {
      NegativeDocumentId(i);
    } else {
      var d := ShowNat(i);
      assert AsText(Int(i)) == d;
      ShowNatRoundTrip(i);
      DigitsDocumentId(d);
    }
  }

  lemma NegativeDocumentId(i: int)
    requires i < 0
    ensures DocumentIdValue(Int(i)) == Some(-i)
  {
    var d := ShowNat(-i);
    ShowNatRoundTrip(-i);
    var x := NegativeText(i);
    HyphenatedDocumentId([], d, []);
    assert DocumentIdValue(Text(x)) == DocumentIdOfText(x) == DocumentIdValue(Int(i));
    assert DocumentIdValue(Int(i)) == Some(DigitsValue(d));
    assert DigitsValue(d) == -i;
  }

  lemma NegativeText(i: int) returns (x: string)
    requires i < 0
    ensures x == [] + "-" + ShowNat(-i) + [] && x == AsText(Int(i))
  {
    x := [] + "-" + ShowNat(-i) + [];
  }

  /** Both strategies read a cell only through its `str` form. */
  lemma TextualValue(c: Cell)
    ensures DocumentIdValue(c) == DocumentIdValue(Text(AsText(c)))
    ensures SourceUrlValue(c) == SourceUrlValue(Text(AsText(c)))
  {
  }

  lemma DigitsDocumentId(d: string)
    requires |d| > 0 && AllDigits(d)
    ensures DocumentIdValue(Text(d)) == Some(DigitsValue(d))
  {
    DigitsAreClean(d);
    DigitsAreTrailingRun(d);
    DocumentIdIsTrailingRun(d);
  }

  lemma DigitsAreClean(d: string)
    requires |d| > 0 && AllDigits(d)
    ensures Clean(d) == d
  {
    assert forall k | 0 <= k < |d| :: IsDigit(d[k]);
    assert !IsSpace(d[0]) && !IsSpace(d[|d| - 1]);
    CleanOfClean(d);
  }

  lemma DigitsAreTrailingRun(d: string)
    requires |d| > 0 && AllDigits(d)
    ensures TrailingDigits(d) == Some(d)
  {
    assert d[0..|d|] == d;
    assert TrailingMatch(d, 0, |d|);
    TrailingDigitsIsLeftmostMatch(d);
  }

  // ================================================================ strategies

  /** `max(1, int(0.95 * n))`, the fewest ids a strategy must yield. */
  function Threshold(n: nat): (t: nat)
    ensures t >= 1 && (n >= 1 ==> t <= n)
    ensures t == 1 || 100 * t <= 95 * n
    ensures 95 * n < 100 * (t + 1)
  {
    var t := 95 * n / 100;
    if t < 1 then 1 else t
  }

  /** How many rows yielded an id (`out.notna().sum()`). */
  function CountSome(ids: seq<Option<nat>>): (k: nat)
    ensures k <= |ids|
    ensures k == |ids| <==> forall i | 0 <= i < |ids| :: ids[i].Some?
  {
    if |ids| == 0 then 0
    else
      var k := (if ids[0].Some? then 1 else 0) + CountSome(ids[1..]);
      assert forall i | 1 <= i < |ids| :: ids[i] == ids[1..][i - 1];
      k
  }

  /** A strategy over `n` rows is accepted when its ids reach the threshold. */
  predicate Accepted(ids: seq<Option<nat>>, n: nat) {
    CountSome(ids) >= Threshold(n)
  }

  datatype Strategy = DocumentId | SourceUrl {
    /** The method name the extractor reports. */
    function Tag(): string {
      match this
      case DocumentId => "document_id"
      case SourceUrl => "source_url"
    }
  }

  datatype Extraction = Extraction(ids: seq<Option<nat>>, strategy: Strategy)

  function DocumentIdColumn(x: Frame): (ids: seq<Option<nat>>)
    requires WellFormed(x) && "document_id" in x.columns
    ensures |ids| == |x.rows|
  {
    seq(|x.rows|, i requires 0 <= i < |x.rows| => DocumentIdValue(Get(x, i, "document_id")))
  }

  function SourceUrlColumn(x: Frame): (ids: seq<Option<nat>>)
    requires WellFormed(x) && "source" in x.columns
    ensures |ids| == |x.rows|
  {
    seq(|x.rows|, i requires 0 <= i < |x.rows| => SourceUrlValue(Get(x, i, "source")))
  }

  predicate DocumentIdAccepted(x: Frame)
    requires WellFormed(x)
  {
    "document_id" in x.columns && Accepted(DocumentIdColumn(x), |x.rows|)
  }

  predicate SourceUrlAccepted(x: Frame)
    requires WellFormed(x)
  {
    "source" in x.columns && Accepted(SourceUrlColumn(x), |x.rows|)
  }

  /** `extract_program_stream_id`: the first strategy, in the order
      document id then source URL, whose column is present and whose ids
      reach the threshold; ValueError when neither does. */
  function ExtractProgramStreamId(x: Frame): (r: Result<Extraction, Error>)
    requires WellFormed(x)
    ensures r.Success? ==> |r.value.ids| == |x.rows| && CountSome(r.value.ids) >= Threshold(|x.rows|)
    ensures r.Success? ==> (r.value.strategy == DocumentId <==> DocumentIdAccepted(x))
    ensures r.Success? && r.value.strategy == DocumentId ==> r.value.ids == DocumentIdColumn(x)
    ensures r.Success? && r.value.strategy == SourceUrl ==> SourceUrlAccepted(x) && r.value.ids == SourceUrlColumn(x)
    ensures r.Failure? <==> !DocumentIdAccepted(x) && !SourceUrlAccepted(x)
    ensures r.Failure? ==> r.error == ExtractionFailed
    ensures |x.rows| == 0 ==> r == Failure(ExtractionFailed)
  {
    if DocumentIdAccepted(x) then Success(Extraction(DocumentIdColumn(x), DocumentId))
    else if SourceUrlAccepted(x) then Success(Extraction(SourceUrlColumn(x), SourceUrl))
    else Failure(ExtractionFailed)
  }
}

=== FILE: loader.dfy ===
/** The transactional loader: one transaction that empties the five
    tables, upserts disciplines, schools, program streams and program
    descriptions (parents before children), appends the sections and
    commits; any failing statement rolls the whole transaction back and
    the error is raised again, and the connection is closed on every path.

    The store is modelled as four keyed tables and an append-only section
    list. Whether a statement fails for reasons the model does not see
    (foreign keys, column types, the server) is a parameter: the set of
    stages that fault. */
module Loader {
  import opened Wrappers
  import opened Errors
  import opened Frames
  import opened Shaper

  /** A keyed table: the row stored under each primary key. */
  type Table = map<Cell, Row>

  datatype Store = Store(
    disciplines: Table,
    schools: Table,
    streams: Table,
    descriptions: Table,
    sections: seq<SectionRow>)

  const EmptyStore: Store := Store(map[], map[], map[], map[], [])

  /** The statements of the transaction, in order. */
  const Stages: seq<Stage> :=
    [Truncate, UpsertDisciplines, UpsertSchools, UpsertStreams, UpsertDescriptions, AppendSections, Commit]

  /** What the connection saw, in order. */
  datatype Event = Run(stage: Stage) | RolledBack | Closed

  /** The store after the load, what the load raised, and the events. */
  datatype Outcome = Outcome(store: Store, result: Result<(), Error>, events: seq<Event>)

  // ---------------------------------------------------------------- upsert

  /** The columns of each insert statement. */
  function Arity(st: Stage): nat {
    match st
    case UpsertDisciplines => 2
    case UpsertSchools => 2
    case UpsertStreams => 11
    case UpsertDescriptions => 8
    case _ => 0
  }

  /** The positions of each insert's integer columns: the keys, the
      foreign keys, the match iteration and the declared section count. */
  function IntegerColumns(st: Stage): set<nat> {
    match st
    case UpsertDisciplines => {0}
    case UpsertSchools => {0}
    case UpsertStreams => {0, 1, 2, 10}
    case UpsertDescriptions => {0, 1, 4, 7}
    case _ => {}
  }

  /** A row the insert of stage `st` accepts: the right width, a primary
      key (its first value) that is not NULL, and no NaN in an integer
      column. Other type mismatches are among the faults. */
  predicate Insertable(row: Row, st: Stage) {
    && |row| == Arity(st) > 0
    && row[0] != Missing
    && forall j | 0 <= j < |row| && j in IntegerColumns(st) :: row[j] != NaNLiteral
  }

  predicate AllInsertable(rows: seq<Row>, st: Stage) {
    forall k | 0 <= k < |rows| :: Insertable(rows[k], st)
  }

  /** Every row has a first value, the primary key. */
  predicate Keyed(rows: seq<Row>) {
    forall k | 0 <= k < |rows| :: |rows[k]| > 0
  }

  /** The keys of the rows. */
  function KeysOf(rows: seq<Row>): set<Cell>
    requires Keyed(rows)
  {
    set k | 0 <= k < |rows| :: rows[k][0]
  }

  /** `INSERT ... ON CONFLICT (key) DO UPDATE`: the rows in order, each
      inserted under its key or overwriting the row stored there. */
  function Upsert(t: Table, rows: seq<Row>): (r: Table)
    requires Keyed(rows)
    ensures r.Keys == t.Keys + KeysOf(rows)
    decreases |rows|
  {
    if |rows| == 0 then t
    else
      var front, last := rows[..|rows| - 1], rows[|rows| - 1];
      assert forall k | 0 <= k < |front| :: front[k] == rows[k];
      assert KeysOf(rows) == KeysOf(front) + {last[0]} by {
        assert forall k | 0 <= k < |rows| - 1 :: rows[k] == front[k];
      }
      Upsert(t, front)[last[0] := last]
  }

  /** The position of the last row with key `key`. */
  function LastWithKey(rows: seq<Row>, key: Cell): (r: Option<nat>)
    requires Keyed(rows)
    ensures r.Some? ==> r.value < |rows| && rows[r.value][0] == key
    ensures r.Some? ==> forall k | r.value < k < |rows| :: rows[k][0] != key
    ensures r.None? ==> forall k | 0 <= k < |rows| :: rows[k][0] != key
    decreases |rows|
  {
    if |rows| == 0 then None
    else if rows[|rows| - 1][0] == key then Some(|rows| - 1)
    else
      var front := rows[..|rows| - 1];
      assert forall k | 0 <= k < |front| :: front[k] == rows[k];
      LastWithKey(front, key)
  }

  /** The table a fresh load of `rows` builds: every key once, holding the
      last row with that key. */
  function Fresh(rows: seq<Row>): (t: Table)
    requires Keyed(rows)
  {
    map key | key in KeysOf(rows) :: rows[LastWithKey(rows, key).value]
  }

  /** A fresh table holds one row per distinct key: no more rows than it
      was given. */
  lemma {:induction false} FreshSize(rows: seq<Row>)
    requires Keyed(rows)
    ensures Fresh(rows).Keys == KeysOf(rows)
    ensures |Fresh(rows)| <= |rows|
    decreases |rows|
  {
    if |rows| > 0 {
      var front := rows[..|rows| - 1];
      assert forall k | 0 <= k < |front| :: front[k] == rows[k];
      assert KeysOf(rows) == KeysOf(front) + {rows[|rows| - 1][0]} by {
        assert forall k | 0 <= k < |rows| - 1 :: rows[k] == front[k];
      }
      FreshSize(front);
    }
  }

  /** Upserting rows one at a time keeps, under each key, the last row
      with that key, and leaves the other keys' rows as they were. */
  lemma {:induction false} UpsertAt(t: Table, rows: seq<Row>, key: Cell)
    requires Keyed(rows)
    ensures LastWithKey(rows, key).Some? ==>
      key in Upsert(t, rows) && Upsert(t, rows)[key] == rows[LastWithKey(rows, key).value]
    ensures LastWithKey(rows, key).None? && key in t ==> Upsert(t, rows)[key] == t[key]
    decreases |rows|
  {
    if |rows| > 0 {
      var front, last := rows[..|rows| - 1], rows[|rows| - 1];
      LastWithKeyStep(rows, key);
      assert Upsert(t, rows) == Upsert(t, front)[last[0] := last];
      if last[0] != key {
        UpsertAt(t, front, key);
        var l := LastWithKey(front, key);
        assert l.Some? ==> rows[l.value] == front[l.value];
      }
    }
  }

  /** The last row with a key is the final row, or the last such row
      before it. */
  lemma LastWithKeyStep(rows: seq<Row>, key: Cell)
    requires Keyed(rows) && |rows| > 0
    ensures Keyed(rows[..|rows| - 1])
    ensures LastWithKey(rows, key) ==
      if rows[|rows| - 1][0] == key then Some(|rows| - 1) else LastWithKey(rows[..|rows| - 1], key)
  {
    var front := rows[..|rows| - 1];
    assert forall k | 0 <= k < |front| :: front[k] == rows[k];
  }

  /** Into an empty table, the upsert builds exactly `Fresh(rows)`. */
  lemma UpsertIntoEmpty(rows: seq<Row>)
    requires Keyed(rows)
    ensures Upsert(map[], rows) == Fresh(rows)
  {
    var u, e := Upsert(map[], rows), Fresh(rows);
    forall key | key in u ensures u[key] == e[key] {
      UpsertAt(map[], rows, key);
    }
  }

  // ---------------------------------------------------------------- stages

  /** The rows a stage writes. */
  function StageRows(p: Payload, st: Stage): seq<Row> {
    match st
    case UpsertDisciplines => p.disciplines
    case UpsertSchools => p.schools
    case UpsertStreams => p.streams
    case UpsertDescriptions => p.descriptions
    case _ => []
  }

  /** The rows of every insert statement fit its columns and have a key. */
  predicate Loadable(p: Payload) {
    && AllInsertable(p.disciplines, UpsertDisciplines)
    && AllInsertable(p.schools, UpsertSchools)
    && AllInsertable(p.streams, UpsertStreams)
    && AllInsertable(p.descriptions, UpsertDescriptions)
  }

  /** None of the transaction's statements faults. */
  predicate NoFaults(faults: set<Stage>) {
    forall k | 0 <= k < |Stages| :: Stages[k] !in faults
  }

  /** A stage raises when it faults or when one of its rows does not fit
      the statement. */
  predicate StageFails(p: Payload, st: Stage, faults: set<Stage>) {
    st in faults || (Arity(st) > 0 && !AllInsertable(StageRows(p, st), st))
  }

  /** What a statement that succeeds does to the transaction's view of the
      store. */
  function Apply(s: Store, p: Payload, st: Stage): Store
    requires Arity(st) > 0 ==> AllInsertable(StageRows(p, st), st)
  {
    match st
    case Truncate => EmptyStore
    case UpsertDisciplines => s.(disciplines := Upsert(s.disciplines, p.disciplines))
    case UpsertSchools => s.(schools := Upsert(s.schools, p.schools))
    case UpsertStreams => s.(streams := Upsert(s.streams, p.streams))
    case UpsertDescriptions => s.(descriptions := Upsert(s.descriptions, p.descriptions))
    case AppendSections => s.(sections := s.sections + p.sections)
    case Commit => s
  }

  /** The first stage of `stages` that raises, if any. */
  function FirstFailing(p: Payload, stages: seq<Stage>, faults: set<Stage>): (r: Option<nat>)
    ensures r.Some? ==> r.value < |stages| && StageFails(p, stages[r.value], faults)
    ensures r.Some? ==> forall k | 0 <= k < r.value :: !StageFails(p, stages[k], faults)
    ensures r.None? ==> forall k | 0 <= k < |stages| :: !StageFails(p, stages[k], faults)
  {
    if |stages| == 0 then None
    else if StageFails(p, stages[0], faults) then Some(0)
    else
      match FirstFailing(p, stages[1..], faults)
      case None => None
      case Some(k) => Some(k + 1)
  }

  /** The stages in order, stopping at the first that raises: the store
      the transaction built, or the error, and the statements run. */
  function RunStages(s: Store, p: Payload, stages: seq<Stage>, faults: set<Stage>)
    : (r: (Result<Store, Error>, seq<Event>))
    decreases |stages|
    ensures r.0.Failure? <==> FirstFailing(p, stages, faults).Some?
    ensures r.0.Failure? ==> var k := FirstFailing(p, stages, faults).value;
      r.0.error == DatabaseError(stages[k]) && r.1 == Runs(stages[..k + 1])
    ensures r.0.Success? ==> r.1 == Runs(stages)
  {
    if |stages| == 0 then (Success(s), [])
    else if StageFails(p, stages[0], faults) then
      assert stages[..1] == [stages[0]];
      (Failure(DatabaseError(stages[0])), [Run(stages[0])])
    else
      var rest := RunStages(Apply(s, p, stages[0]), p, stages[1..], faults);
      assert rest.0.Failure? ==>
        var k := FirstFailing(p, stages[1..], faults).value;
        stages[..k + 2] == [stages[0]] + stages[1..][..k + 1];
      (rest.0, [Run(stages[0])] + rest.1)
  }

  /** The events of running these statements. */
  function Runs(stages: seq<Stage>): (r: seq<Event>)
    ensures |r| == |stages| && forall k | 0 <= k < |stages| :: r[k] == Run(stages[k])
  {
    seq(|stages|, k requires 0 <= k < |stages| => Run(stages[k]))
  }

  // ---------------------------------------------------------------- load

  /** `load_postgres`: runs the transaction; on success the store is the
      committed one, on failure the transaction is rolled back, so the
      store is as before, and the error is raised again; the connection is
      closed either way. */
  function Load(db: Store, p: Payload, faults: set<Stage>): (r: Outcome)
    ensures r.result.Success? <==> Loadable(p) && NoFaults(faults)
    ensures r.result.Failure? ==> r.store == db && FirstFailing(p, Stages, faults).Some?
    ensures r.result.Failure? ==>
      var k := FirstFailing(p, Stages, faults).value;
      && r.result.error == DatabaseError(Stages[k])
      && r.events == Runs(Stages[..k + 1]) + [RolledBack, Closed]
    ensures r.result.Success? ==> r.events == Runs(Stages) + [Closed]
    ensures r.result.Success? ==> r.store == Replaced(p)
    ensures |r.events| > 0 && r.events[|r.events| - 1] == Closed
  {
    var (t, events) := RunStages(db, p, Stages, faults);
    LoadableMeansNoFailingStage(p, faults);
    match t
    case Success(s) =>
      WalkStages(db, p, faults);
      AppliedIsReplaced(p);
      Outcome(s, Success(()), events + [Closed])
    case Failure(e) => Outcome(db, Failure(e), events + [RolledBack, Closed])
  }

  /** The store a successful load leaves: the payload alone, each keyed
      table holding the last row of every key. */
  function Replaced(p: Payload): Store
    requires Loadable(p)
  {
    Store(Fresh(p.disciplines), Fresh(p.schools), Fresh(p.streams), Fresh(p.descriptions), p.sections)
  }

  lemma LoadableMeansNoFailingStage(p: Payload, faults: set<Stage>)
    ensures FirstFailing(p, Stages, faults).None? <==> Loadable(p) && NoFaults(faults)
  {
    var f := FirstFailing(p, Stages, faults);
    if f.None? {
      assert !StageFails(p, Stages[1], faults);
      assert !StageFails(p, Stages[2], faults);
      assert !StageFails(p, Stages[3], faults);
      assert !StageFails(p, Stages[4], faults);
    } else {
      var k := f.value;
      assert StageFails(p, Stages[k], faults);
    }
  }

  /** The statements together build `Replaced(p)`. */
  lemma AppliedIsReplaced(p: Payload)
    requires Loadable(p)
    ensures Applied(p) == Replaced(p)
  {
    AppliedTables(p);
    UpsertIntoEmpty(p.disciplines);
    UpsertIntoEmpty(p.schools);
    UpsertIntoEmpty(p.streams);
    UpsertIntoEmpty(p.descriptions);
  }

  /** Each upsert fills its own table of the emptied store. */
  lemma AppliedTables(p: Payload)
    requires Loadable(p)
    ensures Applied(p) == Store(Upsert(map[], p.disciplines), Upsert(map[], p.schools),
      Upsert(map[], p.streams), Upsert(map[], p.descriptions), p.sections)
  {
  }

  /** The statements applied one after the other to an emptied store. */
  function Applied(p: Payload): Store
    requires Loadable(p)
  {
    var s1 := Apply(EmptyStore, p, UpsertDisciplines);
    var s2 := Apply(s1, p, UpsertSchools);
    var s3 := Apply(s2, p, UpsertStreams);
    var s4 := Apply(s3, p, UpsertDescriptions);
    Apply(s4, p, AppendSections)
  }

  lemma WalkStages(db: Store, p: Payload, faults: set<Stage>)
    requires Loadable(p) && NoFaults(faults)
    ensures RunStages(db, p, Stages, faults).0 == Success(Applied(p))
  {
    var s2 := WalkFirstStages(db, p, faults);
    WalkLastStages(s2, p, faults);
  }

  /** Truncating and upserting the two parent tables. */
  lemma WalkFirstStages(db: Store, p: Payload, faults: set<Stage>) returns (s2: Store)
    requires Loadable(p) && NoFaults(faults)
    ensures s2 == Apply(Apply(EmptyStore, p, UpsertDisciplines), p, UpsertSchools)
    ensures RunStages(db, p, Stages, faults).0 == RunStages(s2, p, Stages[3..], faults).0
  {
    assert !StageFails(p, Stages[0], faults) && !StageFails(p, Stages[1], faults);
    assert !StageFails(p, Stages[2], faults);
    var s1 := Apply(EmptyStore, p, UpsertDisciplines);
    s2 := Apply(s1, p, UpsertSchools);
    RunStep(db, p, Stages, faults);
    RunStep(EmptyStore, p, Stages[1..], faults);
    assert Stages[1..][1..] == Stages[2..];
    RunStep(s1, p, Stages[2..], faults);
    assert Stages[2..][1..] == Stages[3..];
  }

  /** The child tables, the sections and the commit. */
  lemma WalkLastStages(s2: Store, p: Payload, faults: set<Stage>)
    requires Loadable(p) && NoFaults(faults)
    ensures RunStages(s2, p, Stages[3..], faults).0 ==
      Success(Apply(Apply(Apply(s2, p, UpsertStreams), p, UpsertDescriptions), p, AppendSections))
  {
    assert !StageFails(p, Stages[3], faults) && !StageFails(p, Stages[4], faults);
    assert !StageFails(p, Stages[5], faults) && !StageFails(p, Stages[6], faults);
    var s3 := Apply(s2, p, UpsertStreams);
    var s4 := Apply(s3, p, UpsertDescriptions);
    var s5 := Apply(s4, p, AppendSections);
    RunStep(s2, p, Stages[3..], faults);
    assert Stages[3..][1..] == Stages[4..];
    RunStep(s3, p, Stages[4..], faults);
    assert Stages[4..][1..] == Stages[5..];
    RunStep(s4, p, Stages[5..], faults);
    assert Stages[5..][1..] == Stages[6..];
    RunStep(s5, p, Stages[6..], faults);
  }

  /** A statement that succeeds hands its store to the rest. */
  lemma RunStep(s: Store, p: Payload, stages: seq<Stage>, faults: set<Stage>)
    requires |stages| > 0 && !StageFails(p, stages[0], faults)
    ensures RunStages(s, p, stages, faults).0 == RunStages(Apply(s, p, stages[0]), p, stages[1..], faults).0
  {
  }

  // ---------------------------------------------------------------- unconverted tuples

  /** The payload as the asset graph and the inline op hand it to the
      driver: each table's `itertuples` unconverted, so a missing cell
      goes out as NaN where the script's `df_rows` sends NULL. The section
      rows are built with missing values already skipped. */
  function Unconverted(p: Payload): (r: Payload)
    ensures r.sections == p.sections
    ensures forall st | Arity(st) > 0 :: |StageRows(r, st)| == |StageRows(p, st)|
    ensures forall st, i | Arity(st) > 0 && 0 <= i < |StageRows(r, st)| ::
      |StageRows(r, st)[i]| == |StageRows(p, st)[i]| && Missing !in StageRows(r, st)[i]
    ensures forall st, i, j | Arity(st) > 0 && 0 <= i < |StageRows(r, st)| && 0 <= j < |StageRows(p, st)[i]| ::
      StageRows(r, st)[i][j] == if StageRows(p, st)[i][j] == Missing then NaNLiteral else StageRows(p, st)[i][j]
  {
    Payload(AsNaNRows(p.disciplines), AsNaNRows(p.schools), AsNaNRows(p.streams), AsNaNRows(p.descriptions), p.sections)
  }

  /** A payload without a missing value goes out the same either way. */
  lemma UnconvertedComplete(p: Payload)
    requires forall st, i | Arity(st) > 0 && 0 <= i < |StageRows(p, st)| :: Missing !in StageRows(p, st)[i]
    ensures Unconverted(p) == p
  {
    forall st | Arity(st) > 0 ensures StageRows(Unconverted(p), st) == StageRows(p, st) {
      forall i | 0 <= i < |StageRows(p, st)| ensures AsNaN(StageRows(p, st)[i]) == StageRows(p, st)[i] {
        AsNaNOnlyAtMissing(StageRows(p, st)[i]);
      }
    }
    assert StageRows(Unconverted(p), UpsertDisciplines) == StageRows(p, UpsertDisciplines);
    assert StageRows(Unconverted(p), UpsertSchools) == StageRows(p, UpsertSchools);
    assert StageRows(Unconverted(p), UpsertStreams) == StageRows(p, UpsertStreams);
    assert StageRows(Unconverted(p), UpsertDescriptions) == StageRows(p, UpsertDescriptions);
  }

  /** A missing value in an integer column, sent as NaN, makes its insert
      fail: the load raises the error of that statement or an earlier one,
      rolls back and leaves the store as it was, however the rest of the
      payload looks. Sent as NULL, the same value fits any integer column
      but the key. */
  lemma MissingIdSentAsNaNFails(db: Store, p: Payload, faults: set<Stage>, st: Stage, i: nat, j: nat)
    requires Arity(st) > 0 && i < |StageRows(p, st)| && j < |StageRows(p, st)[i]|
    requires j in IntegerColumns(st) && StageRows(p, st)[i][j] == Missing
    ensures !Insertable(StageRows(Unconverted(p), st)[i], st)
    ensures var r := Load(db, Unconverted(p), faults);
      r.result.Failure? && r.result.error.DatabaseError? && r.store == db
    ensures 0 < j && Insertable(StageRows(p, st)[i][j := Int(0)], st) ==> Insertable(StageRows(p, st)[i], st)
  {
    var u := Unconverted(p);
    var row := StageRows(u, st)[i];
    assert row[j] == NaNLiteral;
    assert !AllInsertable(StageRows(u, st), st);
    assert st == UpsertDisciplines || st == UpsertSchools || st == UpsertStreams || st == UpsertDescriptions;
    assert !Loadable(u);
  }

  // ---------------------------------------------------------------- properties

  /** Rerunning a successful load changes nothing, and the loaded state
      does not depend on what the store held before. */
  lemma LoadIdempotent(db: Store, db': Store, p: Payload, faults: set<Stage>)
    requires Loadable(p) && NoFaults(faults)
    ensures Load(Load(db, p, faults).store, p, faults) == Load(db, p, faults)
    ensures Load(db', p, faults).store == Load(db, p, faults).store
  {
  }

  /** When appending the sections fails, none of the run's rows reach any
      of the five tables: the store is exactly as before the run. */
  lemma SectionFailureRollsBack(db: Store, p: Payload)
    requires Loadable(p)
    ensures var r := Load(db, p, {AppendSections});
      && r.store == db
      && r.result == Failure(DatabaseError(AppendSections))
      && r.events == Runs(Stages[..6]) + [RolledBack, Closed]
  {
    var faults := {AppendSections};
    assert !StageFails(p, Stages[0], faults);
    assert !StageFails(p, Stages[1], faults);
    assert !StageFails(p, Stages[2], faults);
    assert !StageFails(p, Stages[3], faults);
    assert !StageFails(p, Stages[4], faults);
    assert StageFails(p, Stages[5], faults);
    assert FirstFailing(p, Stages, faults) == Some(5);
  }
}

=== FILE: order.dfy ===
/** Order-preserving selection: the positions a filter keeps, in
    increasing order, and the pairs a nested loop visits, in row-major
    order. The pandas filters and the inner join are stated through these. */
module Order {

  /** Strictly increasing positions, each below `n`. */
  predicate Ascending(idx: seq<nat>, n: nat) {
    && (forall k | 0 <= k < |idx| :: idx[k] < n)
    && (forall a, b | 0 <= a < b < |idx| :: idx[a] < idx[b])
  }

  /** The elements of `xs` at the positions `idx`, in that order. */
  function Pick<T>(xs: seq<T>, idx: seq<nat>): (r: seq<T>)
    requires forall k | 0 <= k < |idx| :: idx[k] < |xs|
    ensures |r| == |idx| && forall k | 0 <= k < |idx| :: r[k] == xs[idx[k]]
  {
    seq(|idx|, k requires 0 <= k < |idx| => xs[idx[k]])
  }

  function Shift(idx: seq<nat>): (r: seq<nat>)
    ensures |r| == |idx| && forall k | 0 <= k < |idx| :: r[k] == idx[k] + 1
  {
    seq(|idx|, k requires 0 <= k < |idx| => idx[k] + 1)
  }

  /** The positions `i` where `keep[i]` holds. Being ascending and holding
      exactly those positions, the result is the only such sequence. */
  function Positions(keep: seq<bool>): (idx: seq<nat>)
    ensures Ascending(idx, |keep|)
    ensures forall i | 0 <= i < |keep| :: keep[i] <==> i in idx
    decreases |keep|
  {
    if |keep| == 0 then []
    else
      var rest := Positions(keep[1..]);
      var head: seq<nat> := if keep[0] then [0] else [];
      forall i | 1 <= i < |keep| ensures keep[i] <==> i in head + Shift(rest) {
        assert keep[i] == keep[1..][i - 1];
        ShiftMember(head, rest, i);
      }
      ShiftAscending(head, rest, |keep| - 1);
      head + Shift(rest)
  }

  lemma ShiftAscending(head: seq<nat>, rest: seq<nat>, n: nat)
    requires |head| <= 1 && forall k | 0 <= k < |head| :: head[k] == 0
    requires Ascending(rest, n)
    ensures Ascending(head + Shift(rest), n + 1)
  {
    var idx := head + Shift(rest);
    forall a, b | 0 <= a < b < |idx| ensures idx[a] < idx[b] {
      if a >= |head| {
        assert idx[a] == rest[a - |head|] + 1;
      }
    }
  }

  lemma ShiftMember(head: seq<nat>, rest: seq<nat>, i: nat)
    requires i > 0 && forall k | 0 <= k < |head| :: head[k] == 0
    ensures i in head + Shift(rest) <==> i - 1 in rest
  {
    var idx := head + Shift(rest);
    if i - 1 in rest {
      var k :| 0 <= k < |rest| && rest[k] == i - 1;
      assert idx[|head| + k] == i;
    }
    if i in idx {
      var k :| 0 <= k < |idx| && idx[k] == i;
      assert rest[k - |head|] == i - 1;
    }
  }

  /** A mask that keeps nothing has no positions. */
  lemma {:induction false} PositionsNone(keep: seq<bool>)
    requires forall i | 0 <= i < |keep| :: !keep[i]
    ensures Positions(keep) == []
    decreases |keep|
  {
    if |keep| > 0 {
      PositionsNone(keep[1..]);
    }
  }

  /** Picking by a mask takes the head when the mask keeps it, then picks
      from the tail. */
  lemma PickCons<T>(xs: seq<T>, keep: seq<bool>)
    requires |xs| == |keep| > 0
    ensures Pick(xs, Positions(keep)) ==
      (if keep[0] then [xs[0]] else []) + Pick(xs[1..], Positions(keep[1..]))
  {
    var rest := Positions(keep[1..]);
    var h: seq<nat> := if keep[0] then [0] else [];
    PositionsCons(keep);
    PickAppend(xs, h, Shift(rest));
    PickShift(xs, rest);
    assert Pick(xs, h) == if keep[0] then [xs[0]] else [];
  }

  lemma PositionsCons(keep: seq<bool>)
    requires |keep| > 0
    ensures Positions(keep) == (if keep[0] then [0] else []) + Shift(Positions(keep[1..]))
  {
  }

  lemma PickAppend<T>(xs: seq<T>, a: seq<nat>, b: seq<nat>)
    requires forall k | 0 <= k < |a| :: a[k] < |xs|
    requires forall k | 0 <= k < |b| :: b[k] < |xs|
    ensures Pick(xs, a + b) == Pick(xs, a) + Pick(xs, b)
  {
    var l, r := Pick(xs, a + b), Pick(xs, a) + Pick(xs, b);
    forall k | 0 <= k < |l| ensures l[k] == r[k] {
      if k >= |a| {
        assert (a + b)[k] == b[k - |a|];
      }
    }
  }

  lemma PickShift<T>(xs: seq<T>, rest: seq<nat>)
    requires |xs| > 0 && forall i | 0 <= i < |rest| :: rest[i] < |xs| - 1
    ensures Pick(xs, Shift(rest)) == Pick(xs[1..], rest)
  {
    var l, r := Pick(xs, Shift(rest)), Pick(xs[1..], rest);
    forall k | 0 <= k < |l| ensures l[k] == r[k] {
      assert xs[rest[k] + 1] == xs[1..][rest[k]];
    }
  }

  /** `p` comes before `q` in row-major order. */
  predicate LexBefore(p: (nat, nat), q: (nat, nat)) {
    p.0 < q.0 || (p.0 == q.0 && p.1 < q.1)
  }

  predicate LexAscending(ps: seq<(nat, nat)>) {
    forall a, b | 0 <= a < b < |ps| :: LexBefore(ps[a], ps[b])
  }

  /** Row 0's pairs for the columns `idx`. */
  function Tag(idx: seq<nat>): (r: seq<(nat, nat)>)
    ensures |r| == |idx| && forall k | 0 <= k < |idx| :: r[k] == (0, idx[k])
  {
    seq(|idx|, k requires 0 <= k < |idx| => (0, idx[k]))
  }

  /** The pairs moved one row down. */
  function Lift(ps: seq<(nat, nat)>): (r: seq<(nat, nat)>)
    ensures |r| == |ps| && forall k | 0 <= k < |ps| :: r[k] == (ps[k].0 + 1, ps[k].1)
  {
    seq(|ps|, k requires 0 <= k < |ps| => (ps[k].0 + 1, ps[k].1))
  }

  /** The cells `(i, j)` where `m[i][j]` holds, in row-major order: what a
      loop over `i` with an inner loop over `j` visits. Being ascending
      and holding exactly those pairs, the result is the only such
      sequence. */
  function Grid(m: seq<seq<bool>>): (ps: seq<(nat, nat)>)
    ensures LexAscending(ps)
    ensures forall k | 0 <= k < |ps| :: ps[k].0 < |m| && ps[k].1 < |m[ps[k].0]| && m[ps[k].0][ps[k].1]
    ensures forall i, j | 0 <= i < |m| && 0 <= j < |m[i]| :: m[i][j] <==> (i, j) in ps
    decreases |m|
  {
    if |m| == 0 then []
    else
      var rest := Grid(m[1..]);
      GridStepOrder(Positions(m[0]), rest);
      GridStepCells(m, rest);
      GridStepMembers(m, rest);
      Tag(Positions(m[0])) + Lift(rest)
  }

  lemma GridStepOrder(idx: seq<nat>, rest: seq<(nat, nat)>)
    requires forall a, b | 0 <= a < b < |idx| :: idx[a] < idx[b]
    requires LexAscending(rest)
    ensures LexAscending(Tag(idx) + Lift(rest))
  {
    var ps := Tag(idx) + Lift(rest);
    forall a, b | 0 <= a < b < |ps| ensures LexBefore(ps[a], ps[b]) {
      if b < |idx| {
      } else if a >= |idx| {
        assert LexBefore(rest[a - |idx|], rest[b - |idx|]);
      }
    }
  }

  lemma GridStepCells(m: seq<seq<bool>>, rest: seq<(nat, nat)>)
    requires |m| > 0
    requires forall k | 0 <= k < |rest| :: rest[k].0 < |m[1..]| && rest[k].1 < |m[1..][rest[k].0]| && m[1..][rest[k].0][rest[k].1]
    ensures var ps := Tag(Positions(m[0])) + Lift(rest);
      forall k | 0 <= k < |ps| :: ps[k].0 < |m| && ps[k].1 < |m[ps[k].0]| && m[ps[k].0][ps[k].1]
  {
    var idx := Positions(m[0]);
    var ps := Tag(idx) + Lift(rest);
    forall k | 0 <= k < |ps| ensures ps[k].0 < |m| && ps[k].1 < |m[ps[k].0]| && m[ps[k].0][ps[k].1] {
      if k < |idx| {
        assert idx[k] in idx;
      } else {
        assert m[1..][rest[k - |idx|].0] == m[ps[k].0];
      }
    }
  }

  lemma GridStepMembers(m: seq<seq<bool>>, rest: seq<(nat, nat)>)
    requires |m| > 0
    requires forall i, j | 0 <= i < |m[1..]| && 0 <= j < |m[1..][i]| :: m[1..][i][j] <==> (i, j) in rest
    ensures var ps := Tag(Positions(m[0])) + Lift(rest);
      forall i, j | 0 <= i < |m| && 0 <= j < |m[i]| :: m[i][j] <==> (i, j) in ps
  {
    forall i, j | 0 <= i < |m| && 0 <= j < |m[i]|
      ensures m[i][j] <==> (i, j) in Tag(Positions(m[0])) + Lift(rest)
    {
      if i == 0 {
        GridHeadMember(Positions(m[0]), rest, j);
      } else {
        assert m[i] == m[1..][i - 1];
        GridTailMember(Positions(m[0]), rest, i, j);
      }
    }
  }

  lemma GridHeadMember(idx: seq<nat>, rest: seq<(nat, nat)>, j: nat)
    ensures (0, j) in Tag(idx) + Lift(rest) <==> j in idx
  {
    var ps := Tag(idx) + Lift(rest);
    if j in idx {
      var k :| 0 <= k < |idx| && idx[k] == j;
      assert ps[k] == (0, j);
    }
    if (0, j) in ps {
      var k :| 0 <= k < |ps| && ps[k] == (0, j);
      assert k < |idx|;
    }
  }

  lemma GridTailMember(idx: seq<nat>, rest: seq<(nat, nat)>, i: nat, j: nat)
    requires i > 0
    ensures (i, j) in Tag(idx) + Lift(rest) <==> (i - 1, j) in rest
  {
    var ps := Tag(idx) + Lift(rest);
    if (i - 1, j) in rest {
      var k :| 0 <= k < |rest| && rest[k] == (i - 1, j);
      assert ps[|idx| + k] == (i, j);
    }
    if (i, j) in ps {
      var k :| 0 <= k < |ps| && ps[k] == (i, j);
      assert k >= |idx|;
      assert rest[k - |idx|] == (i - 1, j);
    }
  }

  /** A listing of row 0's pairs followed by a listing of the later rows'
      pairs is a listing of all the pairs, the later ones one row down:
      whatever relation `at` ties each pair to its listed item. */
  lemma ListedStep<T>(at: (nat, nat, T) -> bool, p: seq<nat>, gt: seq<(nat, nat)>, first: seq<T>, rest: seq<T>)
    requires |first| == |p| && forall k | 0 <= k < |p| :: at(0, p[k], first[k])
    requires |rest| == |gt| && forall k | 0 <= k < |gt| :: at(gt[k].0 + 1, gt[k].1, rest[k])
    ensures var g := Tag(p) + Lift(gt);
      |first + rest| == |g| && forall k | 0 <= k < |g| :: at(g[k].0, g[k].1, (first + rest)[k])
  {
    var g, r := Tag(p) + Lift(gt), first + rest;
    forall k | 0 <= k < |g| ensures at(g[k].0, g[k].1, r[k]) {
      if k >= |p| {
        assert g[k] == (gt[k - |p|].0 + 1, gt[k - |p|].1) && r[k] == rest[k - |p|];
      }
    }
  }

  /** The grid's first row of pairs, then the rest moved down. */
  lemma GridCons(m: seq<seq<bool>>)
    requires |m| > 0
    ensures Grid(m) == Tag(Positions(m[0])) + Lift(Grid(m[1..]))
  {
  }
}

=== FILE: pipeline.dfy ===
/** The three ways the repository runs the pipeline end to end: the
    Dagster asset graph (`x_section_with_id` → `joined_master_xsection` →
    `prepared_payload` → `load_postgres`), the single Dagster op that does
    the same inline, and the stand-alone script, which joins on the
    program URL instead of the extracted id.

    Reading the three input files is left to the caller: the frames are
    parameters, and so is whether the files exist. */
module Pipeline {
  import opened Wrappers
  import opened Errors
  import opened Strings
  import opened Frames
  import opened KeyExtractor
  import opened JoinValidator
  import opened Shaper
  import opened Loader

  /** The unnamed index column a spreadsheet export leaves behind. */
  const IndexColumn: string := "Unnamed: 0"

  /** Drops the index column when the frame has one. */
  function DropIndex(f: Frame): (r: Frame)
    requires WellFormed(f)
    ensures WellFormed(r) && |r.rows| == |f.rows| && IndexColumn !in r.columns
    ensures forall k :: k in r.columns <==> k in f.columns && k != IndexColumn
    ensures forall i, k | 0 <= i < |f.rows| && k in r.columns :: Get(r, i, k) == Get(f, i, k)
  {
    if IndexColumn in f.columns then Drop(f, IndexColumn) else f
  }

  /** A run that stops before the database is touched. */
  function Stopped(db: Store, e: Error): Outcome {
    Outcome(db, Failure(e), [])
  }

  // ---------------------------------------------------------------- asset graph

  /** The asset graph up to `prepared_payload`. */
  function AssetPayload(d: Frame, m: Frame, x: Frame): (r: Result<Payload, Error>)
    requires WellFormed(d) && WellFormed(m) && WellFormed(x)
    ensures r.Success? ==> |r.value.streams| == |m.rows| && |r.value.descriptions| == |m.rows|
    ensures r.Success? ==> forall sr | sr in r.value.sections :: sr.name != HelperColumn
    ensures r.Failure? ==> !r.error.DatabaseError? && !r.error.SystemExit? && r.error != FileNotFound
  {
    var xi :- XSectionWithId(x);
    AssetTail(d, m, xi)
  }

  /** The assets after `x_section_with_id`. */
  function AssetTail(d: Frame, m: Frame, xi: Frame): (r: Result<Payload, Error>)
    requires WellFormed(d) && WellFormed(m) && WellFormed(xi)
    ensures r.Success? ==> |r.value.streams| == |m.rows| && |r.value.descriptions| == |m.rows|
    ensures r.Success? ==> forall sr | sr in r.value.sections :: sr.name != HelperColumn
    ensures r.Failure? ==> !r.error.DatabaseError? && !r.error.SystemExit? && r.error != FileNotFound
  {
    var merged :- JoinedMasterXSection(m, xi);
    PreparedPayload(d, m, xi, merged)
  }

  /** The asset job: the master and description tables lose their index
      column, the payload is prepared, and the loader runs only once the
      payload is ready, with each table's tuples sent unconverted. A
      failure before the load leaves the store alone and opens no
      connection; a successful run replaces the store with the payload. */
  function AssetJob(d: Frame, m: Frame, x: Frame, db: Store, faults: set<Stage>): (r: Outcome)
    requires WellFormed(d) && WellFormed(m) && WellFormed(x)
    ensures r.result.Failure? ==> r.store == db
    ensures r.result.Failure? && !r.result.error.DatabaseError? ==> r.events == []
    ensures r.events != [] ==> AssetPayload(d, DropIndex(m), DropIndex(x)).Success?
    ensures r.events != [] ==> r.events[|r.events| - 1] == Closed
    ensures r.result.Success? ==>
      var p := AssetPayload(d, DropIndex(m), DropIndex(x));
      p.Success? && Loadable(Unconverted(p.value)) && r.store == Replaced(Unconverted(p.value))
  {
    match AssetPayload(d, DropIndex(m), DropIndex(x))
    case Failure(e) => Stopped(db, e)
    case Success(p) => Load(db, Unconverted(p), faults)
  }

  /** A missing id in a prepared table, whether a key, a foreign key, the
      match iteration or the section count, reaches the database as NaN:
      the job raises the database error and the store is left alone. */
  lemma AssetJobRefusesMissingIds(d: Frame, m: Frame, x: Frame, db: Store, faults: set<Stage>, st: Stage, i: nat, j: nat)
    requires WellFormed(d) && WellFormed(m) && WellFormed(x)
    ensures var p := AssetPayload(d, DropIndex(m), DropIndex(x));
      p.Success? && Arity(st) > 0 && i < |StageRows(p.value, st)| && j < |StageRows(p.value, st)[i]| &&
      j in IntegerColumns(st) && StageRows(p.value, st)[i][j] == Missing ==>
        var r := AssetJob(d, m, x, db, faults);
        r.result.Failure? && r.result.error.DatabaseError? && r.store == db
  {
    var p := AssetPayload(d, DropIndex(m), DropIndex(x));
    if p.Success? && Arity(st) > 0 && i < |StageRows(p.value, st)| && j < |StageRows(p.value, st)[i]| &&
      j in IntegerColumns(st) && StageRows(p.value, st)[i][j] == Missing {
      MissingIdSentAsNaNFails(db, p.value, faults, st, i, j);
    }
  }

  /** Rerunning the job after a successful run changes nothing, and what
      a successful run leaves does not depend on the store it started
      from. */
  lemma AssetJobRerunnable(d: Frame, m: Frame, x: Frame, db: Store, db': Store, faults: set<Stage>)
    requires WellFormed(d) && WellFormed(m) && WellFormed(x)
    ensures AssetJob(d, m, x, db, faults).result.Success? ==>
      AssetJob(d, m, x, AssetJob(d, m, x, db, faults).store, faults) == AssetJob(d, m, x, db, faults)
    ensures AssetJob(d, m, x, db, faults).result.Success? ==>
      AssetJob(d, m, x, db', faults).store == AssetJob(d, m, x, db, faults).store
  {
    if AssetJob(d, m, x, db, faults).result.Success? {
      var p := AssetPayload(d, DropIndex(m), DropIndex(x)).value;
      LoadIdempotent(db, db', Unconverted(p), faults);
    }
  }

  // ---------------------------------------------------------------- inline op

  /** `etl_load_to_postgres` up to its load: the same steps written out
      in one op. It refuses the descriptions when no strategy reaches the
      threshold or when some row yields no id, and otherwise shapes one
      program stream and one description header per master row. */
  function EtlPayload(d: Frame, m: Frame, x: Frame): (r: Result<Payload, Error>)
    requires WellFormed(d) && WellFormed(m) && WellFormed(x)
    ensures ExtractProgramStreamId(x).Failure? ==> r == Failure(ExtractionFailed)
    ensures forall ex | ExtractProgramStreamId(x) == Success(ex) && CountSome(ex.ids) < |x.rows| ::
      r == Failure(ExtractionIncomplete(ex.strategy.Tag(), |x.rows| - CountSome(ex.ids), |x.rows|))
    ensures r.Success? ==> |r.value.streams| == |m.rows| && |r.value.descriptions| == |m.rows|
    ensures r.Success? ==> forall sr | sr in r.value.sections :: sr.name !in MetaColumns
  {
    match ExtractProgramStreamId(x)
    case Failure(e) => Failure(e)
    case Success(ex) => EtlIdentified(d, m, x, ex)
  }

  /** The op once a strategy is chosen: every row must have yielded an id
      before the ids are stored and the tail runs. */
  function EtlIdentified(d: Frame, m: Frame, x: Frame, ex: Extraction): (r: Result<Payload, Error>)
    requires WellFormed(d) && WellFormed(m) && WellFormed(x) && |ex.ids| == |x.rows|
    ensures CountSome(ex.ids) < |x.rows| ==>
      r == Failure(ExtractionIncomplete(ex.strategy.Tag(), |x.rows| - CountSome(ex.ids), |x.rows|))
    ensures r.Success? ==> |r.value.streams| == |m.rows| && |r.value.descriptions| == |m.rows|
    ensures r.Success? ==> forall sr | sr in r.value.sections :: sr.name !in MetaColumns
  {
    var bad := |x.rows| - CountSome(ex.ids);
    if bad > 0 then Failure(ExtractionIncomplete(ex.strategy.Tag(), bad, |x.rows|))
    else EtlTail(d, m, WithIds(x, ex.ids))
  }

  /** The op after the ids are stored: the distinct-count check, the
      merge, the row-count check and the shaping. */
  function EtlTail(d: Frame, m: Frame, xi: Frame): (r: Result<Payload, Error>)
    requires WellFormed(d) && WellFormed(m) && WellFormed(xi) && HelperColumn in xi.columns
    ensures |Values(ColumnCells(xi, HelperColumn))| != |m.rows| ==>
      r == Failure(NotUniqueOrComplete(|Values(ColumnCells(xi, HelperColumn))|, |m.rows|))
    ensures r.Failure? && r.error.JoinFailed? ==> r.error.expected == |m.rows| && r.error.got != |m.rows|
    ensures r.Success? ==> |r.value.streams| == |m.rows| && |r.value.descriptions| == |m.rows|
    ensures r.Success? ==> forall sr | sr in r.value.sections :: sr.name !in MetaColumns
  {
    var expected := |m.rows|;
    var uniq := |Values(ColumnCells(xi, HelperColumn))|;
    if uniq != expected then Failure(NotUniqueOrComplete(uniq, expected))
    else
      var merged :- Merge(m, xi, MasterKey, HelperColumn);
      if |merged.rows| != expected then Failure(JoinFailed(expected, |merged.rows|))
      else Shape(d, m, xi, merged, ProgramNameColumn(merged.columns), MetaColumns)
  }

  /** `etl_load_to_postgres`. */
  function EtlOp(d: Frame, m: Frame, x: Frame, db: Store, faults: set<Stage>): (r: Outcome)
    requires WellFormed(d) && WellFormed(m) && WellFormed(x)
    ensures r.result.Failure? ==> r.store == db
  {
    match EtlPayload(d, DropIndex(m), DropIndex(x))
    case Failure(e) => Stopped(db, e)
    case Success(p) => Load(db, Unconverted(p), faults)
  }

  /** Once the ids are stored, the op and the assets agree. */
  lemma EtlTailIsAssetTail(d: Frame, m: Frame, xi: Frame)
    requires WellFormed(d) && WellFormed(m) && WellFormed(xi) && HelperColumn in xi.columns
    ensures EtlTail(d, m, xi) == AssetTail(d, m, xi)
  {
    assert Column(xi, HelperColumn) == Success(ColumnCells(xi, HelperColumn));
  }

  /** The inline op prepares the same payload as the asset graph, or
      raises the same error. */
  lemma EtlPayloadIsAssetPayload(d: Frame, m: Frame, x: Frame)
    requires WellFormed(d) && WellFormed(m) && WellFormed(x)
    ensures EtlPayload(d, m, x) == AssetPayload(d, m, x)
  {
    var ex := ExtractProgramStreamId(x);
    if ex.Failure? {
      ExtractionRefusedAlike(d, m, x);
    } else if CountSome(ex.value.ids) < |x.rows| {
      ExtractionIncompleteAlike(d, m, x);
    } else {
      var xi := WithIds(x, ex.value.ids);
      assert XSectionWithId(x) == Success(xi);
      assert EtlPayload(d, m, x) == EtlTail(d, m, xi);
      EtlTailIsAssetTail(d, m, xi);
    }
  }

  lemma ExtractionRefusedAlike(d: Frame, m: Frame, x: Frame)
    requires WellFormed(d) && WellFormed(m) && WellFormed(x)
    requires ExtractProgramStreamId(x).Failure?
    ensures EtlPayload(d, m, x) == AssetPayload(d, m, x) == Failure(ExtractionFailed)
  {
  }

  lemma ExtractionIncompleteAlike(d: Frame, m: Frame, x: Frame)
    requires WellFormed(d) && WellFormed(m) && WellFormed(x)
    ensures var ex := ExtractProgramStreamId(x);
      ex.Success? && CountSome(ex.value.ids) < |x.rows| ==>
        var err := ExtractionIncomplete(ex.value.strategy.Tag(), |x.rows| - CountSome(ex.value.ids), |x.rows|);
        EtlPayload(d, m, x) == AssetPayload(d, m, x) == Failure(err)
  {
    var ex := ExtractProgramStreamId(x);
    if ex.Success? && CountSome(ex.value.ids) < |x.rows| {
      var err := ExtractionIncomplete(ex.value.strategy.Tag(), |x.rows| - CountSome(ex.value.ids), |x.rows|);
      assert XSectionWithId(x) == Failure(err);
      assert AssetPayload(d, m, x) == Failure(err);
      assert EtlPayload(d, m, x) == Failure(err);
    }
  }

  /** The inline op and the asset job agree on every input. */
  lemma EtlOpIsAssetJob(d: Frame, m: Frame, x: Frame, db: Store, faults: set<Stage>)
    requires WellFormed(d) && WellFormed(m) && WellFormed(x)
    ensures EtlOp(d, m, x, db, faults) == AssetJob(d, m, x, db, faults)
  {
    EtlPayloadIsAssetPayload(d, DropIndex(m), DropIndex(x));
  }

  // ---------------------------------------------------------------- script

  /** The row count the script insists the URL join returns. */
  const ExpectedRows: nat := 815

  /** The master columns the script coerces to integers. */
  const MasterIdColumns: seq<string> := ["discipline_id", "school_id", "program_stream_id"]

  /** The description columns the script coerces to integers. */
  const DescriptionIdColumns: seq<string> :=
    ["match_iteration_id", "program_description_id", "n_program_description_sections"]

  /** The script's meta columns: it never adds the helper column. */
  const ScriptMetaColumns: set<string> := MetaColumns - {HelperColumn}

  /** `pd.to_numeric(v, errors="coerce")` followed by `astype("Int64")`:
      integers stay, integer literals become integers, anything else NaN. */
  function ToNumeric(c: Cell): (r: Cell)
    ensures !r.Text?
    ensures c.Int? || c.Missing? ==> r == c
    ensures c.Text? ==> (r.Int? <==> ParseInt(c.s).Some?)
    ensures c.Text? && r.Int? ==> ParseInt(c.s) == Some(r.i)
  {
    match c
    case Text(s) => (match ParseInt(s) case Some(i) => Int(i) case None => Missing)
    case _ => c
  }

  /** Coercing twice is coercing once, and the decimal form of an integer
      comes back as that integer. */
  lemma ToNumericIdempotent(c: Cell, i: int)
    ensures ToNumeric(ToNumeric(c)) == ToNumeric(c)
    ensures ToNumeric(Text(ShowInt(i))) == Int(i)
  {
    ParseShowInt(i);
  }

  /** The script's coercion loop: each listed column the frame has holds
      its coerced cells afterwards; every other column is unchanged. */
  function Coerce(f: Frame, cols: seq<string>): (r: Frame)
    requires WellFormed(f)
    ensures WellFormed(r) && r.columns == f.columns && |r.rows| == |f.rows|
    ensures forall i, k | 0 <= i < |f.rows| && k in f.columns ::
      Get(r, i, k) == if k in cols then ToNumeric(Get(f, i, k)) else Get(f, i, k)
    decreases |cols|
  {
    if |cols| == 0 then f
    else
      var c := cols[0];
      var g := if c in f.columns then WithColumn(f, c, seq(|f.rows|, i requires 0 <= i < |f.rows| => ToNumeric(Get(f, i, c)))) else f;
      var r := Coerce(g, cols[1..]);
      assert forall k | k in cols :: k == c || k in cols[1..];
      assert forall v :: ToNumeric(ToNumeric(v)) == ToNumeric(v) by {
        forall v ensures ToNumeric(ToNumeric(v)) == ToNumeric(v) {
          ToNumericIdempotent(v, 0);
        }
      }
      r
  }

  /** The master table as the script joins it: index dropped, ids coerced. */
  function ScriptMaster(m: Frame): (r: Frame)
    requires WellFormed(m)
    ensures WellFormed(r) && |r.rows| == |m.rows|
    ensures forall k :: k in r.columns <==> k in m.columns && k != IndexColumn
    ensures forall i, k | 0 <= i < |m.rows| && k in r.columns ::
      Get(r, i, k) == if k in MasterIdColumns then ToNumeric(Get(m, i, k)) else Get(m, i, k)
  {
    Coerce(DropIndex(m), MasterIdColumns)
  }

  /** The description table as the script joins it: index dropped, ids
      coerced, so no description id is text. */
  function ScriptDescriptions(x: Frame): (r: Frame)
    requires WellFormed(x)
    ensures WellFormed(r) && |r.rows| == |x.rows|
    ensures forall i | 0 <= i < |r.rows| :: !PdidCell(r, i).Text?
    ensures forall k :: k in r.columns <==> k in x.columns && k != IndexColumn
    ensures forall i, k | 0 <= i < |x.rows| && k in r.columns ::
      Get(r, i, k) == if k in DescriptionIdColumns then ToNumeric(Get(x, i, k)) else Get(x, i, k)
  {
    var r := Coerce(DropIndex(x), DescriptionIdColumns);
    assert DescriptionIdColumn in DescriptionIdColumns;
    r
  }

  /** The script's join: master `program_url` against description
      `source`. Neither key is coerced, so the join pairs rows whose URL
      text is equal in the files as read: a master row meets as many
      description rows as carry its URL. */
  function ScriptMerge(m: Frame, x: Frame): (r: Result<Frame, Error>)
    requires WellFormed(m) && WellFormed(x)
    ensures "program_url" !in m.columns ==> r == Failure(KeyError("program_url"))
    ensures "program_url" in m.columns && "source" !in x.columns ==> r == Failure(KeyError("source"))
    ensures r.Success? ==> |r.value.rows| == JoinCount(ColumnCells(m, "program_url"), ColumnCells(x, "source"))
  {
    var mc, xc := ScriptMaster(m), ScriptDescriptions(x);
    assert "program_url" in m.columns ==> ColumnCells(mc, "program_url") == ColumnCells(m, "program_url");
    assert "source" in x.columns ==> ColumnCells(xc, "source") == ColumnCells(x, "source");
    Merge(mc, xc, "program_url", "source")
  }

  /** The script up to its load: coercion, the inner merge of
      `program_url` with `source`, the 815-row check (exit status 1), and
      the shaping with `program_name_x`. Because the description ids are
      coerced, shaping can only fail on a missing column. */
  function ScriptPayload(d: Frame, m: Frame, x: Frame): (r: Result<Payload, Error>)
    requires WellFormed(d) && WellFormed(m) && WellFormed(x)
    ensures r == Failure(SystemExit(1)) <==>
      ScriptMerge(m, x).Success? && |ScriptMerge(m, x).value.rows| != ExpectedRows
    ensures r.Failure? ==> r.error.KeyError? || r.error == MergeError || r.error == DuplicateColumns || r.error == SystemExit(1)
    ensures r.Success? ==> |r.value.descriptions| == ExpectedRows
    ensures r.Success? ==> forall sr | sr in r.value.sections :: sr.name !in ScriptMetaColumns
  {
    var mc, xc := ScriptMaster(m), ScriptDescriptions(x);
    var merged :- ScriptMerge(m, x);
    if |merged.rows| != ExpectedRows then Failure(SystemExit(1))
    else
      IntegerIdsShape(d, mc, xc, merged, "program_name_x", ScriptMetaColumns);
      Shape(d, mc, xc, merged, "program_name_x", ScriptMetaColumns)
  }

  /** `main`: FileNotFoundError when an input file is missing, then the
      payload, then the load. */
  function Script(filesExist: bool, d: Frame, m: Frame, x: Frame, db: Store, faults: set<Stage>): (r: Outcome)
    requires WellFormed(d) && WellFormed(m) && WellFormed(x)
    ensures !filesExist ==> r == Stopped(db, FileNotFound)
    ensures r.result.Failure? ==> r.store == db
    ensures r.result.Failure? && !r.result.error.DatabaseError? ==> r.events == []
    ensures r.result.Success? ==>
      var p := ScriptPayload(d, m, x);
      filesExist && p.Success? && Loadable(p.value) && r.store == Replaced(p.value)
  {
    if !filesExist then Stopped(db, FileNotFound)
    else
      match ScriptPayload(d, m, x)
      case Failure(e) => Stopped(db, e)
      case Success(p) => Load(db, p, faults)
  }

  /** The script exits with status 1, before connecting, exactly when the
      URL join succeeds with other than 815 rows. */
  lemma ScriptStopsUnless815(d: Frame, m: Frame, x: Frame, db: Store, faults: set<Stage>)
    requires WellFormed(d) && WellFormed(m) && WellFormed(x)
    ensures Script(true, d, m, x, db, faults) == Stopped(db, SystemExit(1)) <==>
      ScriptMerge(m, x).Success? && |ScriptMerge(m, x).value.rows| != ExpectedRows
  {
    var p := ScriptPayload(d, m, x);
    if p.Success? {
      assert Script(true, d, m, x, db, faults).result.Failure? ==>
        Script(true, d, m, x, db, faults).result.error.DatabaseError?;
    }
  }

  /** A successful script run loads one description row per row of the
      URL join, and that is 815 rows before keys are merged. */
  lemma ScriptLoadsAtMost815Descriptions(d: Frame, m: Frame, x: Frame, db: Store, faults: set<Stage>)
    requires WellFormed(d) && WellFormed(m) && WellFormed(x)
    ensures Script(true, d, m, x, db, faults).result.Success? ==>
      |Script(true, d, m, x, db, faults).store.descriptions| <= ExpectedRows
  {
    if Script(true, d, m, x, db, faults).result.Success? {
      var p := ScriptPayload(d, m, x).value;
      FreshSize(p.descriptions);
    }
  }
}

=== FILE: shaper.dfy ===
/** The record shaper: turns the reconciled tables into the row sets the
    loader writes — the school and discipline dimensions, the program
    streams stamped with the match iteration, the description headers
    taken from the merged table, and the description sections flattened
    from the wide description table into one row per non-blank cell. */
module Shaper {
  import opened Wrappers
  import opened Errors
  import opened Strings
  import opened Frames
  import opened Order
  import opened JoinValidator

  /** The match iteration every program stream belongs to. */
  const MatchIterationId: int := 1503
  const IterationColumn: string := "match_iteration_id"
  const DescriptionIdColumn: string := "program_description_id"

  const SchoolColumns: seq<string> := ["school_id", "school_name"]
  const DisciplineColumns: seq<string> := ["discipline_id", "discipline"]
  const StreamColumns: seq<string> := [
    "program_stream_id", "discipline_id", "school_id", "discipline_name", "school_name",
    "program_stream_name", "program_site", "program_stream", "program_name", "program_url"]

  /** The columns of the description table that are not sections. */
  const MetaColumns: set<string> := {
    "document_id", "source", "n_program_description_sections", "program_name",
    "match_iteration_name", "match_iteration_id", "program_description_id", HelperColumn}

  // ---------------------------------------------------------------- dimensions

  /** Row `i` of `f` restricted to the columns `cols`, in that order. */
  function Project(f: Frame, i: nat, cols: seq<string>): (row: Row)
    requires WellFormed(f) && i < |f.rows| && forall c | c in cols :: c in f.columns
    ensures |row| == |cols|
  {
    seq(|cols|, j requires 0 <= j < |cols| => Get(f, i, cols[j]))
  }

  /** Every row of `f` restricted to the columns `cols`. */
  function Projections(f: Frame, cols: seq<string>): (rows: seq<Row>)
    requires WellFormed(f) && forall c | c in cols :: c in f.columns
    ensures |rows| == |f.rows| && forall i | 0 <= i < |f.rows| :: rows[i] == Project(f, i, cols)
  {
    seq(|f.rows|, i requires 0 <= i < |f.rows| => Project(f, i, cols))
  }

  /** `f[cols].dropna().drop_duplicates()`: every projected row without a
      missing cell, each once, in the order of its first occurrence. */
  function Dimension(f: Frame, cols: seq<string>): (r: Result<Frame, Error>)
    requires WellFormed(f) && Distinct(cols)
    ensures r.Success? <==> forall c | c in cols :: c in f.columns
    ensures r.Failure? ==> r.error.KeyError? && r.error.column in cols && r.error.column !in f.columns
    ensures r.Success? ==> WellFormed(r.value) && r.value.columns == cols && Distinct(r.value.rows)
    ensures r.Success? ==> forall row | row in r.value.rows :: Missing !in row
    ensures r.Success? ==> forall row :: row in r.value.rows <==>
      Missing !in row && exists i :: 0 <= i < |f.rows| && row == Project(f, i, cols)
    ensures r.Success? ==> var p := Projections(f, cols);
      r.value.rows == Pick(p, Positions(FirstCompleteMask(p, {})))
  {
    var s :- Select(f, cols);
    assert forall i | 0 <= i < |f.rows| :: s.rows[i] == Project(f, i, cols);
    assert s.rows == Projections(f, cols);
    FirstOfComplete(s.rows, {});
    Success(DropDuplicates(DropNa(s)))
  }

  // ---------------------------------------------------------------- program streams

  /** The stream columns are distinct, and the match iteration is not one
      of them. */
  lemma StreamColumnsDistinct()
    ensures Distinct(StreamColumns) && IterationColumn !in StreamColumns
  {
    var lengths := [17, 13, 9, 15, 11, 19, 12, 14, 12, 11];
    assert forall j | 0 <= j < |StreamColumns| :: |StreamColumns[j]| == lengths[j];
    assert |IterationColumn| == 18;
  }

  /** The master table's stream columns with the match iteration appended. */
  function ProgramStreams(m: Frame): (r: Result<Frame, Error>)
    requires WellFormed(m)
    ensures r.Success? <==> forall c | c in StreamColumns :: c in m.columns
    ensures r.Failure? ==> r.error.KeyError? && r.error.column in StreamColumns
    ensures r.Success? ==> WellFormed(r.value) && |r.value.rows| == |m.rows|
    ensures r.Success? ==> r.value.columns == StreamColumns + [IterationColumn]
    ensures r.Success? ==> forall i | 0 <= i < |m.rows| :: Get(r.value, i, IterationColumn) == Int(MatchIterationId)
    ensures r.Success? ==> forall i, c | 0 <= i < |m.rows| && c in StreamColumns ::
      c in r.value.columns && Get(r.value, i, c) == Get(m, i, c)
  {
    StreamColumnsDistinct();
    var s :- Select(m, StreamColumns);
    var r := WithColumn(s, IterationColumn, Constant(s, Int(MatchIterationId)));
    assert forall i, c | 0 <= i < |m.rows| && c in StreamColumns :: Get(r, i, c) == Get(s, i, c);
    Success(r)
  }

  // ---------------------------------------------------------------- program descriptions

  /** The three names `program_name` can have in the merged table. */
  predicate IsProgramNameColumn(c: string) {
    c == "program_name_x" || c == "program_name_m" || c == "program_name"
  }

  /** The merged table's program-name column, by preference the
      description side's `program_name_x`, then the master side's
      `program_name_m`, then an unsuffixed `program_name`. */
  function ProgramNameColumn(cols: seq<string>): (c: string)
    ensures IsProgramNameColumn(c)
    ensures c == "program_name_x" <==> "program_name_x" in cols
    ensures c == "program_name_m" <==> "program_name_x" !in cols && "program_name_m" in cols
  {
    if "program_name_x" in cols then "program_name_x"
    else if "program_name_m" in cols then "program_name_m"
    else "program_name"
  }

  /** When both tables have a `program_name`, the description header takes
      the description table's: the chosen column exists in the merged
      table and every merged row holds there the name of its description
      row. */
  lemma ProgramNameFromDescription(m: Frame, x: Frame, l: Row, r: Row)
    requires WellFormed(m) && WellFormed(x)
    requires "program_name" in m.columns && "program_name" in x.columns
    requires Distinct(MergedColumns(m.columns, x.columns))
    requires |l| == |m.columns| && |r| == |x.columns|
    ensures var cols := MergedColumns(m.columns, x.columns);
      var c := ProgramNameColumn(cols);
      && c == "program_name_x" && c in cols
      && (l + r)[IndexOf(cols, c)] == r[IndexOf(x.columns, "program_name")]
  {
    assert "program_name" + "_x" == "program_name_x";
    MergedRightCell(m, x, "program_name", l, r);
  }

  /** The description header columns of the merged table, with the chosen
      program-name column. */
  function DescriptionSourceColumns(nameColumn: string): seq<string> {
    ["program_description_id", "program_stream_id", "source", "document_id",
     "match_iteration_id", "match_iteration_name", nameColumn, "n_program_description_sections"]
  }

  /** The description header columns as the loader names them. */
  const DescriptionColumns: seq<string> := [
    "program_description_id", "program_stream_id", "source_url", "document_id",
    "match_iteration_id", "match_iteration_name", "program_name", "n_program_description_sections"]

  /** `merged[...]` renamed: one header per merged row, `source` renamed to
      `source_url` and the program-name column to `program_name`. */
  function ProgramDescriptions(merged: Frame, nameColumn: string): (r: Result<Frame, Error>)
    requires WellFormed(merged) && IsProgramNameColumn(nameColumn)
    ensures r.Success? <==> forall c | c in DescriptionSourceColumns(nameColumn) :: c in merged.columns
    ensures r.Failure? ==> r.error.KeyError? && r.error.column in DescriptionSourceColumns(nameColumn)
    ensures r.Success? ==> WellFormed(r.value) && r.value.columns == DescriptionColumns
    ensures r.Success? ==> |r.value.rows| == |merged.rows|
    ensures r.Success? ==> forall i, j | 0 <= i < |merged.rows| && 0 <= j < |DescriptionColumns| ::
      Get(r.value, i, DescriptionColumns[j]) == Get(merged, i, DescriptionSourceColumns(nameColumn)[j])
  {
    var cols := DescriptionSourceColumns(nameColumn);
    DescriptionColumnsDistinct(nameColumn);
    var s :- Select(merged, cols);
    var r := Rename(s, map["source" := "source_url", nameColumn := "program_name"]);
    RenamedDescriptionColumns(s, nameColumn);
    assert forall i, j | 0 <= i < |merged.rows| && 0 <= j < |DescriptionColumns| ::
      Get(r, i, DescriptionColumns[j]) == Get(merged, i, cols[j]) by {
      forall i, j | 0 <= i < |merged.rows| && 0 <= j < |DescriptionColumns|
        ensures Get(r, i, DescriptionColumns[j]) == Get(merged, i, cols[j]) {
        GetAt(r, i, j);
      }
    }
    Success(r)
  }

  /** Both column lists name eight different columns (their names even
      differ in length). */
  lemma DescriptionColumnsDistinct(nameColumn: string)
    requires IsProgramNameColumn(nameColumn)
    ensures Distinct(DescriptionColumns) && Distinct(DescriptionSourceColumns(nameColumn))
  {
    var a, b := DescriptionColumns, DescriptionSourceColumns(nameColumn);
    assert |a[0]| == 22 && |a[1]| == 17 && |a[2]| == 10 && |a[3]| == 11;
    assert |a[4]| == 18 && |a[5]| == 20 && |a[6]| == 12 && |a[7]| == 30;
    assert |b[2]| == 6 && (|b[6]| == 12 || |b[6]| == 14);
  }

  lemma RenamedDescriptionColumns(s: Frame, nameColumn: string)
    requires IsProgramNameColumn(nameColumn) && s.columns == DescriptionSourceColumns(nameColumn)
    ensures Rename(s, map["source" := "source_url", nameColumn := "program_name"]).columns == DescriptionColumns
  {
    var renames := map["source" := "source_url", nameColumn := "program_name"];
    var r := Rename(s, renames);
    forall j | 0 <= j < 8 ensures r.columns[j] == DescriptionColumns[j] {
      if j == 2 {
        assert s.columns[j] == "source" && s.columns[j] in renames;
      } else if j == 6 {
        assert s.columns[j] in renames;
      } else {
        assert s.columns[j] == DescriptionColumns[j] && s.columns[j] !in renames;
      }
    }
  }

  // ---------------------------------------------------------------- sections

  /** One normalized section: description id, section (column) name, text. */
  datatype SectionRow = SectionRow(pdid: int, name: string, text: string)

  /** Which columns are not in `meta`. */
  function NotMeta(cols: seq<string>, meta: set<string>): (keep: seq<bool>)
    ensures |keep| == |cols| && forall j | 0 <= j < |cols| :: keep[j] == (cols[j] !in meta)
  {
    seq(|cols|, j requires 0 <= j < |cols| => cols[j] !in meta)
  }

  /** The section columns: every column not in `meta`, in table order. */
  function SectionColumns(cols: seq<string>, meta: set<string>): (r: seq<string>)
    ensures forall c :: c in r <==> c in cols && c !in meta
    ensures r == Pick(cols, Positions(NotMeta(cols, meta)))
  {
    if |cols| == 0 then []
    else
      var rest := SectionColumns(cols[1..], meta);
      assert NotMeta(cols, meta)[1..] == NotMeta(cols[1..], meta);
      PickCons(cols, NotMeta(cols, meta));
      (if cols[0] in meta then [] else [cols[0]]) + rest
  }

  /** `row.get("program_description_id")`: NaN when the table has no such
      column. */
  function PdidCell(f: Frame, i: nat): Cell
    requires WellFormed(f) && i < |f.rows|
  {
    if DescriptionIdColumn in f.columns then Get(f, i, DescriptionIdColumn) else Missing
  }

  /** `int(v)` of a present cell: an integer as it is, text when it is an
      integer literal once stripped, otherwise ValueError. */
  function IntOf(c: Cell): (r: Result<int, Error>)
    requires c != Missing
    ensures c.Int? ==> r == Success(c.i)
    ensures c.Text? && r.Failure? ==> r.error == NotAnInteger(c.s)
    ensures c.Text? ==> (r.Success? <==> ParseInt(Strip(c.s)).Some?)
    ensures c.Text? && r.Success? ==> ParseInt(Strip(c.s)) == Some(r.value)
  {
    match c
    case Int(i) => Success(i)
    case Text(s) =>
      match ParseInt(Strip(s))
      case Some(v) => Success(v)
      case None => Failure(NotAnInteger(s))
  }

  /** The section cell `v` of column `c` under a present description id:
      kept, stripped, when it is present and not blank. */
  predicate Emits(pdid: Cell, c: string, v: Cell, sr: SectionRow)
    requires pdid != Missing
  {
    && v != Missing
    && |Strip(AsText(v))| > 0
    && IntOf(pdid) == Success(sr.pdid)
    && sr.name == c && sr.text == Strip(AsText(v))
  }

  /** The row one cell contributes: none for a missing or blank cell, and
      the id's `int` is only taken for a cell that is kept. */
  function CellSections(pdid: Cell, c: string, v: Cell): (r: Result<seq<SectionRow>, Error>)
    requires pdid != Missing
    ensures r.Failure? ==> v != Missing && |Strip(AsText(v))| > 0 && IntOf(pdid).Failure?
    ensures r.Failure? ==> r.error == IntOf(pdid).error
    ensures r.Success? ==> forall sr :: sr in r.value <==> Emits(pdid, c, v, sr)
    ensures r.Success? ==> |r.value| <= 1
  {
    if v == Missing then Success([])
    else
      var text := Strip(AsText(v));
      if |text| == 0 then Success([])
      else
        var p :- IntOf(pdid);
        Success([SectionRow(p, c, text)])
  }

  /** Some cell of row `i` among `cols` would be kept. */
  predicate HasText(f: Frame, i: nat, cols: seq<string>)
    requires WellFormed(f) && i < |f.rows| && forall c | c in cols :: c in f.columns
  {
    exists c | c in cols :: Get(f, i, c) != Missing && |Strip(AsText(Get(f, i, c)))| > 0
  }

  /** The sections of row `i`, column by column. */
  function RowSections(f: Frame, i: nat, cols: seq<string>): (r: Result<seq<SectionRow>, Error>)
    requires WellFormed(f) && i < |f.rows| && forall c | c in cols :: c in f.columns
    requires PdidCell(f, i) != Missing
    ensures r.Failure? <==> HasText(f, i, cols) && IntOf(PdidCell(f, i)).Failure?
    ensures r.Failure? ==> r.error == IntOf(PdidCell(f, i)).error
    ensures r.Success? ==> forall sr :: sr in r.value <==>
      exists c | c in cols :: Emits(PdidCell(f, i), c, Get(f, i, c), sr)
    decreases |cols|
  {
    if |cols| == 0 then Success([])
    else
      var a :- CellSections(PdidCell(f, i), cols[0], Get(f, i, cols[0]));
      var b :- RowSections(f, i, cols[1..]);
      assert forall c :: c in cols <==> c == cols[0] || c in cols[1..];
      Success(a + b)
  }

  /** A cell `strip` leaves non-empty: the sections keep it. */
  predicate Kept(v: Cell) {
    v != Missing && |Strip(AsText(v))| > 0
  }

  /** Which of the cells of row `i` under `cols` are kept. */
  function KeptRow(f: Frame, i: nat, cols: seq<string>): (keep: seq<bool>)
    requires WellFormed(f) && i < |f.rows| && forall c | c in cols :: c in f.columns
    ensures |keep| == |cols| && forall j | 0 <= j < |cols| :: keep[j] == Kept(Get(f, i, cols[j]))
  {
    seq(|cols|, j requires 0 <= j < |cols| => Kept(Get(f, i, cols[j])))
  }

  /** The section row `sr` is the one the cell of row `i`, column `cols[j]`
      emits. */
  predicate SectionAt(f: Frame, cols: seq<string>, i: nat, j: nat, sr: SectionRow)
    requires WellFormed(f) && forall c | c in cols :: c in f.columns
  {
    && i < |f.rows| && j < |cols|
    && PdidCell(f, i) != Missing
    && Emits(PdidCell(f, i), cols[j], Get(f, i, cols[j]), sr)
  }

  /** The section row the cell of row `i`, column `c` gives when it is
      kept and the id converts. */
  function Candidate(f: Frame, i: nat, c: string): SectionRow
    requires WellFormed(f) && i < |f.rows| && c in f.columns && PdidCell(f, i) != Missing
  {
    var p := match IntOf(PdidCell(f, i)) case Success(v) => v case Failure(_) => 0;
    SectionRow(p, c, Strip(AsText(Get(f, i, c))))
  }

  function Candidates(f: Frame, i: nat, cols: seq<string>): (r: seq<SectionRow>)
    requires WellFormed(f) && i < |f.rows| && forall c | c in cols :: c in f.columns
    requires PdidCell(f, i) != Missing
    ensures |r| == |cols| && forall j | 0 <= j < |cols| :: r[j] == Candidate(f, i, cols[j])
  {
    seq(|cols|, j requires 0 <= j < |cols| => Candidate(f, i, cols[j]))
  }

  /** A row's section rows are the rows of its kept cells, in column
      order. */
  lemma {:induction false} RowSectionsPick(f: Frame, i: nat, cols: seq<string>)
    requires WellFormed(f) && i < |f.rows| && forall c | c in cols :: c in f.columns
    requires PdidCell(f, i) != Missing && RowSections(f, i, cols).Success?
    ensures RowSections(f, i, cols).value == Pick(Candidates(f, i, cols), Positions(KeptRow(f, i, cols)))
    decreases |cols|
  {
    if |cols| > 0 {
      assert forall c | c in cols[1..] :: c in cols;
      RowSectionsPick(f, i, cols[1..]);
      RowSectionsCons(f, i, cols);
      RowPickStep(f, i, cols, RowSections(f, i, cols).value, RowSections(f, i, cols[1..]).value);
    }
  }

  /** The first column's row, if its cell is kept, then the rest. */
  lemma RowSectionsCons(f: Frame, i: nat, cols: seq<string>)
    requires WellFormed(f) && i < |f.rows| && forall c | c in cols :: c in f.columns
    requires |cols| > 0 && PdidCell(f, i) != Missing && RowSections(f, i, cols).Success?
    ensures RowSections(f, i, cols[1..]).Success?
    ensures RowSections(f, i, cols).value ==
      (if Kept(Get(f, i, cols[0])) then [Candidate(f, i, cols[0])] else []) + RowSections(f, i, cols[1..]).value
  {
  }

  lemma RowPickStep(f: Frame, i: nat, cols: seq<string>, r: seq<SectionRow>, rt: seq<SectionRow>)
    requires WellFormed(f) && i < |f.rows| && forall c | c in cols :: c in f.columns
    requires |cols| > 0 && PdidCell(f, i) != Missing
    requires rt == Pick(Candidates(f, i, cols[1..]), Positions(KeptRow(f, i, cols[1..])))
    requires r == (if Kept(Get(f, i, cols[0])) then [Candidate(f, i, cols[0])] else []) + rt
    ensures r == Pick(Candidates(f, i, cols), Positions(KeptRow(f, i, cols)))
  {
    var cands, keep := Candidates(f, i, cols), KeptRow(f, i, cols);
    assert cands[1..] == Candidates(f, i, cols[1..]);
    assert keep[1..] == KeptRow(f, i, cols[1..]);
    PickCons(cands, keep);
  }

  /** A row's section rows come in column order: the k-th comes from the
      k-th kept cell. */
  lemma RowSectionsInOrder(f: Frame, i: nat, cols: seq<string>)
    requires WellFormed(f) && i < |f.rows| && forall c | c in cols :: c in f.columns
    requires PdidCell(f, i) != Missing && RowSections(f, i, cols).Success?
    ensures var p := Positions(KeptRow(f, i, cols)); var r := RowSections(f, i, cols).value;
      |r| == |p| && forall k | 0 <= k < |p| :: SectionAt(f, cols, i, p[k], r[k])
  {
    var p, r := Positions(KeptRow(f, i, cols)), RowSections(f, i, cols).value;
    RowSectionsPick(f, i, cols);
    forall k | 0 <= k < |p| ensures SectionAt(f, cols, i, p[k], r[k]) {
      assert KeptRow(f, i, cols)[p[k]];
      CandidateEmits(f, i, cols, p[k]);
    }
  }

  /** The candidate of a kept cell is what the cell emits. */
  lemma CandidateEmits(f: Frame, i: nat, cols: seq<string>, j: nat)
    requires WellFormed(f) && i < |f.rows| && forall c | c in cols :: c in f.columns
    requires PdidCell(f, i) != Missing && RowSections(f, i, cols).Success?
    requires j < |cols| && Kept(Get(f, i, cols[j]))
    ensures SectionAt(f, cols, i, j, Candidate(f, i, cols[j]))
  {
    assert HasText(f, i, cols) by {
      assert cols[j] in cols;
    }
  }

  /** Row `i` yields a section row `sr` from a column among `cols`. */
  predicate RowEmits(f: Frame, i: nat, cols: seq<string>, sr: SectionRow)
    requires WellFormed(f) && i < |f.rows| && forall c | c in cols :: c in f.columns
  {
    PdidCell(f, i) != Missing && exists c | c in cols :: Emits(PdidCell(f, i), c, Get(f, i, c), sr)
  }

  /** Row `i` has a present description id that is not an integer and a
      cell to keep, so `int(pdid)` raises on it. */
  predicate RowRaises(f: Frame, i: nat, cols: seq<string>)
    requires WellFormed(f) && i < |f.rows| && forall c | c in cols :: c in f.columns
  {
    PdidCell(f, i) != Missing && HasText(f, i, cols) && IntOf(PdidCell(f, i)).Failure?
  }

  /** The sections of rows `i..`, row by row; rows without a description
      id are skipped. */
  function SectionsFrom(f: Frame, i: nat, cols: seq<string>): (r: Result<seq<SectionRow>, Error>)
    requires WellFormed(f) && i <= |f.rows| && forall c | c in cols :: c in f.columns
    ensures r.Failure? <==> RaisedFrom(f, i, cols)
    ensures r.Failure? ==> r.error.NotAnInteger?
    decreases |f.rows| - i
  {
    if i == |f.rows| then Success([])
    else if PdidCell(f, i) == Missing then
      RaisedFromStep(f, i, cols);
      SectionsFrom(f, i + 1, cols)
    else
      var a := RowSections(f, i, cols);
      RaisedFromStep(f, i, cols);
      if a.Failure? then Failure(a.error)
      else
        var b :- SectionsFrom(f, i + 1, cols);
        Success(a.value + b)
  }

  /** Some row from `i` on raises. */
  predicate RaisedFrom(f: Frame, i: nat, cols: seq<string>)
    requires WellFormed(f) && forall c | c in cols :: c in f.columns
  {
    exists k | i <= k < |f.rows| :: RowRaises(f, k, cols)
  }

  lemma RaisedFromStep(f: Frame, i: nat, cols: seq<string>)
    requires WellFormed(f) && i < |f.rows| && forall c | c in cols :: c in f.columns
    ensures RaisedFrom(f, i, cols) <==> RowRaises(f, i, cols) || RaisedFrom(f, i + 1, cols)
  {
    if RaisedFrom(f, i, cols) && !RowRaises(f, i, cols) {
      var k :| i <= k < |f.rows| && RowRaises(f, k, cols);
      assert k != i;
    }
  }

  /** Some row from `i` on emits `sr`. */
  predicate EmittedFrom(f: Frame, i: nat, cols: seq<string>, sr: SectionRow)
    requires WellFormed(f) && forall c | c in cols :: c in f.columns
  {
    exists k | i <= k < |f.rows| :: RowEmits(f, k, cols, sr)
  }

  lemma EmittedFromStep(f: Frame, i: nat, cols: seq<string>, sr: SectionRow)
    requires WellFormed(f) && i < |f.rows| && forall c | c in cols :: c in f.columns
    ensures EmittedFrom(f, i, cols, sr) <==> RowEmits(f, i, cols, sr) || EmittedFrom(f, i + 1, cols, sr)
  {
    if EmittedFrom(f, i, cols, sr) && !RowEmits(f, i, cols, sr) {
      var k :| i <= k < |f.rows| && RowEmits(f, k, cols, sr);
      assert k != i;
    }
  }

  /** The rows `i..` yield exactly the section rows their cells emit. */
  lemma {:induction false} SectionsFromMembers(f: Frame, i: nat, cols: seq<string>)
    requires WellFormed(f) && i <= |f.rows| && forall c | c in cols :: c in f.columns
    requires SectionsFrom(f, i, cols).Success?
    ensures forall sr :: sr in SectionsFrom(f, i, cols).value <==> EmittedFrom(f, i, cols, sr)
    decreases |f.rows| - i
  {
    if i < |f.rows| {
      SectionsFromHead(f, i, cols);
      SectionsFromMembers(f, i + 1, cols);
      forall sr ensures sr in SectionsFrom(f, i, cols).value <==> EmittedFrom(f, i, cols, sr) {
        SectionsFromMember(f, i, cols, sr);
      }
    }
  }

  /** One step of `SectionsFromMembers`, for one section row. */
  lemma SectionsFromMember(f: Frame, i: nat, cols: seq<string>, sr: SectionRow)
    requires WellFormed(f) && i < |f.rows| && forall c | c in cols :: c in f.columns
    requires SectionsFrom(f, i, cols).Success? && SectionsFrom(f, i + 1, cols).Success?
    requires sr in SectionsFrom(f, i + 1, cols).value <==> EmittedFrom(f, i + 1, cols, sr)
    ensures sr in SectionsFrom(f, i, cols).value <==> EmittedFrom(f, i, cols, sr)
  {
    SectionsFromHead(f, i, cols);
    EmittedFromStep(f, i, cols, sr);
    if PdidCell(f, i) == Missing {
      assert !RowEmits(f, i, cols, sr);
    } else {
      assert sr in RowSections(f, i, cols).value <==> RowEmits(f, i, cols, sr);
    }
  }

  /** The sections of rows `i..` are those of row `i` followed by the rest. */
  lemma SectionsFromHead(f: Frame, i: nat, cols: seq<string>)
    requires WellFormed(f) && i < |f.rows| && forall c | c in cols :: c in f.columns
    requires SectionsFrom(f, i, cols).Success?
    ensures SectionsFrom(f, i + 1, cols).Success?
    ensures PdidCell(f, i) == Missing ==> SectionsFrom(f, i, cols) == SectionsFrom(f, i + 1, cols)
    ensures PdidCell(f, i) != Missing ==> RowSections(f, i, cols).Success?
    ensures PdidCell(f, i) != Missing ==>
      SectionsFrom(f, i, cols).value == RowSections(f, i, cols).value + SectionsFrom(f, i + 1, cols).value
  {
  }

  /** The flattened section table: for every row with a description id
      and every non-meta column, one row per present, non-blank cell, with
      the stripped text, in row-then-column order; ValueError when a kept
      cell's description id is not an integer. */
  function Sections(x: Frame, meta: set<string>): (r: Result<seq<SectionRow>, Error>)
    requires WellFormed(x)
    ensures r.Failure? ==> r.error.NotAnInteger?
    ensures r.Success? ==> SectionsShaped(r.value, x, meta)
  {
    var cols := SectionColumns(x.columns, meta);
    var r := SectionsFrom(x, 0, cols);
    assert r.Success? ==> forall sr | sr in r.value :: sr.name in cols && |sr.text| > 0 && IsStripped(sr.text) by {
      if r.Success? {
        SectionsFromMembers(x, 0, cols);
        forall sr | sr in r.value ensures sr.name in cols && |sr.text| > 0 && IsStripped(sr.text) {
          var k :| 0 <= k < |x.rows| && RowEmits(x, k, cols, sr);
        }
      }
    }
    r
  }

  /** Which cells the flattening keeps: row `i`, column `j` holds when the
      row has a description id and its cell under `cols[j]` is kept. */
  function KeptGrid(f: Frame, cols: seq<string>): (m: seq<seq<bool>>)
    requires WellFormed(f) && forall c | c in cols :: c in f.columns
    ensures |m| == |f.rows|
    ensures forall i | 0 <= i < |f.rows| :: |m[i]| == |cols|
    ensures forall i, j | 0 <= i < |f.rows| && 0 <= j < |cols| ::
      m[i][j] == (PdidCell(f, i) != Missing && Kept(Get(f, i, cols[j])))
  {
    seq(|f.rows|, i requires 0 <= i < |f.rows| =>
      seq(|cols|, j requires 0 <= j < |cols| => PdidCell(f, i) != Missing && Kept(Get(f, i, cols[j]))))
  }

  /** The section rows `r` come from the cells `g` lists, the k-th from the
      cell of row `i + g[k].0` under `cols[g[k].1]`. */
  predicate ListedFrom(f: Frame, cols: seq<string>, i: nat, g: seq<(nat, nat)>, r: seq<SectionRow>)
    requires WellFormed(f) && forall c | c in cols :: c in f.columns
  {
    |r| == |g| && forall k | 0 <= k < |g| :: SectionAt(f, cols, i + g[k].0, g[k].1, r[k])
  }

  /** The rows `i..` flatten in row-then-column order: the k-th section
      row comes from the k-th kept cell of those rows in row-major order. */
  lemma {:induction false} SectionsFromInOrder(f: Frame, i: nat, cols: seq<string>)
    requires WellFormed(f) && i <= |f.rows| && forall c | c in cols :: c in f.columns
    requires SectionsFrom(f, i, cols).Success?
    ensures ListedFrom(f, cols, i, Grid(KeptGrid(f, cols)[i..]), SectionsFrom(f, i, cols).value)
    decreases |f.rows| - i
  {
    if i < |f.rows| {
      SectionsFromInOrder(f, i + 1, cols);
      var m := KeptGrid(f, cols)[i..];
      assert m[0] == KeptGrid(f, cols)[i] && m[1..] == KeptGrid(f, cols)[i + 1..];
      GridCons(m);
      var first := HeadInOrder(f, i, cols);
      SectionsStep(f, cols, i, Positions(m[0]), Grid(m[1..]), first, SectionsFrom(f, i + 1, cols).value);
    }
  }

  /** One step of `SectionsFromInOrder`: row `i`'s section rows, then the
      later rows' one row down. */
  lemma SectionsStep(f: Frame, cols: seq<string>, i: nat, p: seq<nat>, gt: seq<(nat, nat)>,
                     first: seq<SectionRow>, rest: seq<SectionRow>)
    requires WellFormed(f) && forall c | c in cols :: c in f.columns
    requires |first| == |p| && forall k | 0 <= k < |p| :: SectionAt(f, cols, i, p[k], first[k])
    requires ListedFrom(f, cols, i + 1, gt, rest)
    ensures ListedFrom(f, cols, i, Tag(p) + Lift(gt), first + rest)
  {
    var at := (a: nat, b: nat, sr: SectionRow) => SectionAt(f, cols, i + a, b, sr);
    StepHeadAt(f, cols, i, at, p, first);
    StepTailAt(f, cols, i, at, gt, rest);
    ListedStep(at, p, gt, first, rest);
    StepListed(f, cols, i, at, Tag(p) + Lift(gt), first + rest);
  }

  /** `at` is `SectionAt` for the rows from `i` on, by offset. */
  ghost predicate SectionAtFrom(f: Frame, cols: seq<string>, i: nat, at: (nat, nat, SectionRow) -> bool)
    requires WellFormed(f) && forall c | c in cols :: c in f.columns
  {
    forall a: nat, b: nat, sr: SectionRow :: at(a, b, sr) == SectionAt(f, cols, i + a, b, sr)
  }

  lemma StepHeadAt(f: Frame, cols: seq<string>, i: nat, at: (nat, nat, SectionRow) -> bool,
                   p: seq<nat>, first: seq<SectionRow>)
    requires WellFormed(f) && forall c | c in cols :: c in f.columns
    requires SectionAtFrom(f, cols, i, at)
    requires |first| == |p| && forall k | 0 <= k < |p| :: SectionAt(f, cols, i, p[k], first[k])
    ensures forall k | 0 <= k < |p| :: at(0, p[k], first[k])
  {
    forall k | 0 <= k < |p| ensures at(0, p[k], first[k]) {
      assert SectionAt(f, cols, i + 0, p[k], first[k]);
    }
  }

  lemma StepTailAt(f: Frame, cols: seq<string>, i: nat, at: (nat, nat, SectionRow) -> bool,
                   gt: seq<(nat, nat)>, rest: seq<SectionRow>)
    requires WellFormed(f) && forall c | c in cols :: c in f.columns
    requires SectionAtFrom(f, cols, i, at)
    requires ListedFrom(f, cols, i + 1, gt, rest)
    ensures |rest| == |gt| && forall k | 0 <= k < |gt| :: at(gt[k].0 + 1, gt[k].1, rest[k])
  {
    forall k | 0 <= k < |gt| ensures at(gt[k].0 + 1, gt[k].1, rest[k]) {
      assert SectionAt(f, cols, i + 1 + gt[k].0, gt[k].1, rest[k]);
      assert i + (gt[k].0 + 1) == i + 1 + gt[k].0;
    }
  }

  lemma StepListed(f: Frame, cols: seq<string>, i: nat, at: (nat, nat, SectionRow) -> bool,
                   g: seq<(nat, nat)>, r: seq<SectionRow>)
    requires WellFormed(f) && forall c | c in cols :: c in f.columns
    requires SectionAtFrom(f, cols, i, at)
    requires |r| == |g| && forall k | 0 <= k < |g| :: at(g[k].0, g[k].1, r[k])
    ensures ListedFrom(f, cols, i, g, r)
  {
    forall k | 0 <= k < |g| ensures SectionAt(f, cols, i + g[k].0, g[k].1, r[k]) {
      assert at(g[k].0, g[k].1, r[k]);
    }
  }

  /** Row `i`'s section rows, in column order, head the flattening of the
      rows `i..`. */
  lemma HeadInOrder(f: Frame, i: nat, cols: seq<string>) returns (first: seq<SectionRow>)
    requires WellFormed(f) && i < |f.rows| && forall c | c in cols :: c in f.columns
    requires SectionsFrom(f, i, cols).Success?
    ensures SectionsFrom(f, i + 1, cols).Success?
    ensures SectionsFrom(f, i, cols).value == first + SectionsFrom(f, i + 1, cols).value
    ensures var p := Positions(KeptGrid(f, cols)[i]);
      |first| == |p| && forall k | 0 <= k < |p| :: SectionAt(f, cols, i, p[k], first[k])
  {
    SectionsFromHead(f, i, cols);
    var p := Positions(KeptGrid(f, cols)[i]);
    if PdidCell(f, i) == Missing {
      PositionsNone(KeptGrid(f, cols)[i]);
      first := [];
      assert SectionsFrom(f, i, cols).value == first + SectionsFrom(f, i + 1, cols).value;
    } else {
      assert KeptGrid(f, cols)[i] == KeptRow(f, i, cols);
      RowSectionsInOrder(f, i, cols);
      first := RowSections(f, i, cols).value;
    }
  }

  /** The flattened table lists, in row-major order, one section row per
      kept cell of a row with a description id: the k-th comes from the
      k-th such cell. */
  lemma SectionsInOrder(x: Frame, meta: set<string>)
    requires WellFormed(x) && Sections(x, meta).Success?
    ensures var cols := SectionColumns(x.columns, meta);
      var g := Grid(KeptGrid(x, cols)); var r := Sections(x, meta).value;
      |r| == |g| && forall k | 0 <= k < |g| :: SectionAt(x, cols, g[k].0, g[k].1, r[k])
  {
    var cols := SectionColumns(x.columns, meta);
    SectionsFromInOrder(x, 0, cols);
    assert KeptGrid(x, cols)[0..] == KeptGrid(x, cols);
  }

  /** The cell of column `c` in row `i` of `x` emits `sr`: a non-meta
      column, a present description id, a present non-blank cell. */
  predicate FromCell(x: Frame, meta: set<string>, i: nat, c: string, sr: SectionRow)
    requires WellFormed(x)
  {
    && i < |x.rows| && c in x.columns && c !in meta
    && PdidCell(x, i) != Missing
    && Emits(PdidCell(x, i), c, Get(x, i, c), sr)
  }

  /** Every section row comes from a cell of the table. */
  lemma SectionsSound(x: Frame, meta: set<string>, sr: SectionRow)
    requires WellFormed(x) && Sections(x, meta).Success?
    requires sr in Sections(x, meta).value
    ensures exists i, c :: FromCell(x, meta, i, c, sr)
  {
    var cols := SectionColumns(x.columns, meta);
    SectionsFromMembers(x, 0, cols);
    assert EmittedFrom(x, 0, cols, sr);
    EmittedFromCell(x, meta, cols, sr);
  }

  lemma EmittedFromCell(x: Frame, meta: set<string>, cols: seq<string>, sr: SectionRow)
    requires WellFormed(x) && forall c | c in cols :: c in x.columns && c !in meta
    requires EmittedFrom(x, 0, cols, sr)
    ensures exists i, c :: FromCell(x, meta, i, c, sr)
  {
    var k :| 0 <= k < |x.rows| && RowEmits(x, k, cols, sr);
    var c :| c in cols && Emits(PdidCell(x, k), c, Get(x, k, c), sr);
    assert FromCell(x, meta, k, c, sr);
  }

  /** Every present, non-blank cell of a non-meta column under a present
      integer id gives a section row. */
  lemma SectionsComplete(x: Frame, meta: set<string>, i: nat, c: string, sr: SectionRow)
    requires WellFormed(x) && Sections(x, meta).Success?
    requires FromCell(x, meta, i, c, sr)
    ensures sr in Sections(x, meta).value
  {
    var cols := SectionColumns(x.columns, meta);
    SectionsFromMembers(x, 0, cols);
    assert RowEmits(x, i, cols, sr);
    assert EmittedFrom(x, 0, cols, sr);
  }

  /** Integer description ids never make flattening fail. */
  lemma IntegerIdsFlatten(x: Frame, meta: set<string>)
    requires WellFormed(x)
    requires forall i | 0 <= i < |x.rows| :: !PdidCell(x, i).Text?
    ensures Sections(x, meta).Success?
  {
    var cols := SectionColumns(x.columns, meta);
    forall k | 0 <= k < |x.rows| ensures !RowRaises(x, k, cols) {
    }
  }

  // ---------------------------------------------------------------- payload

  /** Everything the loader writes, as positional tuples. */
  datatype Payload = Payload(
    disciplines: seq<Row>,
    schools: seq<Row>,
    streams: seq<Row>,
    descriptions: seq<Row>,
    sections: seq<SectionRow>)

  /** Rows of a dimension table: distinct, complete, `n` values each. */
  predicate DimensionShaped(rows: seq<Row>, n: nat) {
    Distinct(rows) && forall row | row in rows :: |row| == n && Missing !in row
  }

  /** Rows of the program-stream insert: eleven values, the last the match
      iteration. */
  predicate StreamsShaped(rows: seq<Row>) {
    forall k | 0 <= k < |rows| :: |rows[k]| == 11 && rows[k][10] == Int(MatchIterationId)
  }

  /** Rows of the description insert: eight values. */
  predicate DescriptionsShaped(rows: seq<Row>) {
    forall k | 0 <= k < |rows| :: |rows[k]| == 8
  }

  /** Section rows named after a non-meta column of `x`, with stripped,
      non-empty text. */
  predicate SectionsShaped(sections: seq<SectionRow>, x: Frame, meta: set<string>) {
    forall sr | sr in sections :: sr.name in x.columns && sr.name !in meta && |sr.text| > 0 && IsStripped(sr.text)
  }

  /** The tuples of a dimension. */
  function DimensionRows(f: Frame, cols: seq<string>): (r: Result<seq<Row>, Error>)
    requires WellFormed(f) && Distinct(cols)
    ensures r.Failure? ==> r.error.KeyError?
    ensures r.Success? ==> DimensionShaped(r.value, |cols|)
  {
    var dim :- Dimension(f, cols);
    Success(Tuples(dim))
  }

  /** The tuples of the program streams, one per master row. */
  function StreamRows(m: Frame): (r: Result<seq<Row>, Error>)
    requires WellFormed(m)
    ensures r.Failure? ==> r.error.KeyError?
    ensures r.Success? ==> |r.value| == |m.rows| && StreamsShaped(r.value)
  {
    var streams :- ProgramStreams(m);
    var rows := Tuples(streams);
    assert forall k | 0 <= k < |rows| :: rows[k][10] == Int(MatchIterationId) by {
      assert (StreamColumns + [IterationColumn])[10] == IterationColumn;
    }
    Success(rows)
  }

  /** The tuples of the description headers, one per merged row. */
  function DescriptionRows(merged: Frame, nameColumn: string): (r: Result<seq<Row>, Error>)
    requires WellFormed(merged) && IsProgramNameColumn(nameColumn)
    ensures r.Failure? ==> r.error.KeyError?
    ensures r.Success? ==> |r.value| == |merged.rows| && DescriptionsShaped(r.value)
  {
    var descriptions :- ProgramDescriptions(merged, nameColumn);
    Success(Tuples(descriptions))
  }

  /** The shaping shared by the three pipeline variants; they differ only
      in the program-name column and the meta columns. Only the flattening
      of sections can raise something other than a KeyError. */
  function Shape(d: Frame, m: Frame, x: Frame, merged: Frame, nameColumn: string, meta: set<string>)
    : (r: Result<Payload, Error>)
    requires WellFormed(d) && WellFormed(m) && WellFormed(x) && WellFormed(merged)
    requires IsProgramNameColumn(nameColumn)
    ensures r.Failure? ==> r.error.KeyError? || r.error.NotAnInteger?
    ensures r.Failure? && Sections(x, meta).Success? ==> r.error.KeyError?
    ensures r.Success? ==> |r.value.streams| == |m.rows| && |r.value.descriptions| == |merged.rows|
    ensures r.Success? ==> DimensionShaped(r.value.schools, 2) && DimensionShaped(r.value.disciplines, 2)
    ensures r.Success? ==> StreamsShaped(r.value.streams) && DescriptionsShaped(r.value.descriptions)
    ensures r.Success? ==> SectionsShaped(r.value.sections, x, meta)
  {
    var dims :- Dimensions(d, m);
    var facts :- Facts(m, merged, nameColumn);
    var sections :- Sections(x, meta);
    Success(Payload(dims.1, dims.0, facts.0, facts.1, sections))
  }

  lemma DimensionColumnsDistinct()
    ensures Distinct(SchoolColumns) && Distinct(DisciplineColumns)
  {
    assert |SchoolColumns[0]| != |SchoolColumns[1]|;
    assert |DisciplineColumns[0]| != |DisciplineColumns[1]|;
  }

  /** The school rows of the master and the discipline rows. */
  function Dimensions(d: Frame, m: Frame): (r: Result<(seq<Row>, seq<Row>), Error>)
    requires WellFormed(d) && WellFormed(m)
    ensures r.Failure? ==> r.error.KeyError?
    ensures r.Success? ==> DimensionShaped(r.value.0, 2) && DimensionShaped(r.value.1, 2)
  {
    DimensionColumnsDistinct();
    var schools :- DimensionRows(m, SchoolColumns);
    var disciplines :- DimensionRows(d, DisciplineColumns);
    Success((schools, disciplines))
  }

  /** The program-stream rows of the master and the description rows of
      the merged frame. */
  function Facts(m: Frame, merged: Frame, nameColumn: string): (r: Result<(seq<Row>, seq<Row>), Error>)
    requires WellFormed(m) && WellFormed(merged) && IsProgramNameColumn(nameColumn)
    ensures r.Failure? ==> r.error.KeyError?
    ensures r.Success? ==> |r.value.0| == |m.rows| && |r.value.1| == |merged.rows|
    ensures r.Success? ==> StreamsShaped(r.value.0) && DescriptionsShaped(r.value.1)
  {
    var streams :- StreamRows(m);
    var descriptions :- DescriptionRows(merged, nameColumn);
    Success((streams, descriptions))
  }

  /** With no textual description id, shaping can only fail on a missing
      column. */
  lemma IntegerIdsShape(d: Frame, m: Frame, x: Frame, merged: Frame, nameColumn: string, meta: set<string>)
    requires WellFormed(d) && WellFormed(m) && WellFormed(x) && WellFormed(merged)
    requires IsProgramNameColumn(nameColumn)
    requires forall i | 0 <= i < |x.rows| :: !PdidCell(x, i).Text?
    ensures Shape(d, m, x, merged, nameColumn, meta).Failure? ==>
      Shape(d, m, x, merged, nameColumn, meta).error.KeyError?
  {
    IntegerIdsFlatten(x, meta);
  }

  /** `prepared_payload`: shaping with the preferred program-name column
      and the helper column among the meta columns. */
  function PreparedPayload(d: Frame, m: Frame, x: Frame, merged: Frame): (r: Result<Payload, Error>)
    requires WellFormed(d) && WellFormed(m) && WellFormed(x) && WellFormed(merged)
    ensures r.Success? ==> forall sr | sr in r.value.sections :: sr.name != HelperColumn && sr.name !in MetaColumns
    ensures r.Success? ==> |r.value.descriptions| == |merged.rows|
  {
    Shape(d, m, x, merged, ProgramNameColumn(merged.columns), MetaColumns)
  }
}

=== FILE: strings.dfy ===
/** Character classes, trimming, identifier cleaning and decimal
    conversion, as Python's `str` methods and pandas' `.str` accessor
    apply them to identifier text. */
module Strings {
  import opened Wrappers

  /** U+00A0 NO-BREAK SPACE. */
  const Nbsp: char := '\U{A0}'
  /** U+FEFF ZERO WIDTH NO-BREAK SPACE, the byte-order mark. */
  const Bom: char := '\U{FEFF}'

  /** Python's `str.isspace()` (also the class of the regex `\s`): the
      ASCII controls 0x09-0x0D and 0x1C-0x1F, space, NEL, NBSP and the
      Unicode space separators. The BOM is not whitespace. */
  predicate IsSpace(c: char) {
    || c == ' '
    || ('\t' <= c <= '\r')
    || ('\U{1C}' <= c <= '\U{1F}')
    || c == '\U{85}'
    || c == Nbsp
    || c == '\U{1680}'
    || ('\U{2000}' <= c <= '\U{200A}')
    || c == '\U{2028}'
    || c == '\U{2029}'
    || c == '\U{202F}'
    || c == '\U{205F}'
    || c == '\U{3000}'
  }

  /** The regex class `\d`, restricted to ASCII digits. */
  predicate IsDigit(c: char) {
    '0' <= c <= '9'
  }

  /** The regex class `\w`, restricted to ASCII letters, digits and `_`. */
  predicate IsWordChar(c: char) {
    IsDigit(c) || ('a' <= c <= 'z') || ('A' <= c <= 'Z') || c == '_'
  }

  predicate AllSpace(s: string) {
    forall i | 0 <= i < |s| :: IsSpace(s[i])
  }

  predicate AllDigits(s: string) {
    forall i | 0 <= i < |s| :: IsDigit(s[i])
  }

  /** Neither end of `s` is whitespace. */
  predicate IsStripped(s: string) {
    |s| == 0 || (!IsSpace(s[0]) && !IsSpace(s[|s| - 1]))
  }

  // ---------------------------------------------------------------- trimming

  /** The number of whitespace characters that open `s`. */
  function LeadingSpace(s: string): (k: nat)
    ensures k <= |s| && (k == |s| || !IsSpace(s[k]))
    ensures forall i | 0 <= i < k :: IsSpace(s[i])
    decreases |s|
  {
    if |s| > 0 && IsSpace(s[0]) then
      assert forall i | 1 <= i < |s| :: s[1..][i - 1] == s[i];
      1 + LeadingSpace(s[1..])
    else 0
  }

  /** The number of whitespace characters that close `s`. */
  function TrailingSpace(s: string): (k: nat)
    ensures k <= |s| && (k == |s| || !IsSpace(s[|s| - k - 1]))
    ensures forall i | |s| - k <= i < |s| :: IsSpace(s[i])
    decreases |s|
  {
    if |s| > 0 && IsSpace(s[|s| - 1]) then
      assert forall i | 0 <= i < |s| - 1 :: s[..|s| - 1][i] == s[i];
      1 + TrailingSpace(s[..|s| - 1])
    else 0
  }

  /** Only one count has whitespace before it and none right after it. */
  lemma LeadingSpaceIs(s: string, k: nat)
    requires k <= |s| && (k == |s| || !IsSpace(s[k]))
    requires forall i | 0 <= i < k :: IsSpace(s[i])
    ensures LeadingSpace(s) == k
  {
  }

  lemma TrailingSpaceIs(s: string, k: nat)
    requires k <= |s| && (k == |s| || !IsSpace(s[|s| - k - 1]))
    requires forall i | |s| - k <= i < |s| :: IsSpace(s[i])
    ensures TrailingSpace(s) == k
  {
  }

  /** `s.lstrip()` */
  function TrimStart(s: string): string {
    s[LeadingSpace(s)..]
  }

  /** `s.rstrip()` */
  function TrimEnd(s: string): string {
    s[..|s| - TrailingSpace(s)]
  }

  /** `s.strip()`: the whitespace at both ends is removed. */
  function Strip(s: string): (r: string)
    ensures IsStripped(r) && |r| <= |s|
  {
    var j := |s| - TrailingSpace(s);
    var i := LeadingSpace(s[..j]);
    s[i..j]
  }

  /** What strip removes is whitespace at the two ends: the result is the
      slice `s[i..j]` with only whitespace outside it. */
  lemma StripIsSlice(s: string) returns (i: nat, j: nat)
    ensures i <= j <= |s| && Strip(s) == s[i..j]
    ensures AllSpace(s[..i]) && AllSpace(s[j..])
  {
    j := |s| - TrailingSpace(s);
    i := LeadingSpace(s[..j]);
    assert forall k | 0 <= k < i :: s[..i][k] == s[..j][k];
    assert forall k | 0 <= k < |s| - j :: s[j..][k] == s[j + k];
  }

  /** rstrip removes exactly a whitespace tail from text that does not
      itself end in whitespace. */
  lemma TrimEndPadded(a: string, b: string)
    requires |a| == 0 || !IsSpace(a[|a| - 1])
    requires AllSpace(b)
    ensures TrimEnd(a + b) == a
  {
    var s := a + b;
    assert forall i | |s| - |b| <= i < |s| :: s[i] == b[i - |a|];
    if |b| < |s| {
      assert s[|s| - |b| - 1] == a[|a| - 1];
    }
    TrailingSpaceIs(s, |b|);
    assert s[..|a|] == a;
  }

  /** Strip removes exactly the whitespace padding around a stripped core:
      `(a + b + c).strip() == b` whenever `a` and `c` are whitespace and `b`
      has no whitespace at either end. */
  lemma StripPadded(a: string, b: string, c: string)
    requires AllSpace(a) && AllSpace(c) && IsStripped(b)
    ensures Strip(a + b + c) == b
  {
    var s := a + b + c;
    assert forall i | 0 <= i < |a| :: s[i] == a[i];
    assert forall i | |a| <= i < |a| + |b| :: s[i] == b[i - |a|];
    assert forall i | |a| + |b| <= i < |s| :: s[i] == c[i - |a| - |b|];
    if |b| == 0 {
      TrailingSpaceIs(s, |s|);
    } else {
      TrailingSpaceIs(s, |c|);
      var t := s[..|a| + |b|];
      assert forall i | 0 <= i < |t| :: t[i] == s[i];
      LeadingSpaceIs(t, |a|);
      assert s[|a|..|a| + |b|] == b;
    }
  }

  /** Stripping twice is stripping once. */
  lemma StripIdempotent(s: string)
    ensures Strip(Strip(s)) == Strip(s)
  {
    var t := Strip(s);
    StripPadded([], t, []);
    assert [] + t + [] == t;
  }

  // ---------------------------------------------------------------- cleaning

  /** `.str.replace(NBSP, " ")`: every no-break space becomes a space. */
  function ReplaceNbsp(s: string): (r: string)
    ensures |r| == |s| && Nbsp !in r
    ensures forall i | 0 <= i < |s| :: s[i] != Nbsp ==> r[i] == s[i]
    ensures forall i | 0 <= i < |s| :: s[i] == Nbsp ==> r[i] == ' '
  {
    if |s| == 0 then []
    else [if s[0] == Nbsp then ' ' else s[0]] + ReplaceNbsp(s[1..])
  }

  /** `.str.replace(BOM, "")`: every byte-order mark is dropped. */
  function RemoveBom(s: string): (r: string)
    ensures |r| <= |s|
    ensures forall i | 0 <= i < |r| :: r[i] != Bom && r[i] in s
    ensures Bom !in r
  {
    if |s| == 0 then []
    else
      var rest := RemoveBom(s[1..]);
      assert forall i | 0 <= i < |rest| :: rest[i] in s by {
        assert forall c | c in s[1..] :: c in s;
      }
      (if s[0] == Bom then [] else [s[0]]) + rest
  }

  /** Removing byte-order marks keeps every other character. */
  lemma {:induction false} RemoveBomKeeps(s: string)
    ensures forall c | c in s && c != Bom :: c in RemoveBom(s)
  {
    if |s| > 0 {
      RemoveBomKeeps(s[1..]);
      assert forall c | c in s :: c == s[0] || c in s[1..];
    }
  }

  lemma {:induction false} ReplaceNbspAppend(a: string, b: string)
    ensures ReplaceNbsp(a + b) == ReplaceNbsp(a) + ReplaceNbsp(b)
  {
    var l, r := ReplaceNbsp(a + b), ReplaceNbsp(a) + ReplaceNbsp(b);
    assert |l| == |r|;
    forall i | 0 <= i < |l| ensures l[i] == r[i] {
      if i < |a| {
        assert (a + b)[i] == a[i];
      } else {
        assert (a + b)[i] == b[i - |a|];
      }
    }
  }

  lemma {:induction false} RemoveBomAppend(a: string, b: string)
    ensures RemoveBom(a + b) == RemoveBom(a) + RemoveBom(b)
    decreases |a|
  {
    if |a| == 0 {
      assert a + b == b;
    } else {
      assert (a + b)[0] == a[0];
      assert (a + b)[1..] == a[1..] + b;
      RemoveBomAppend(a[1..], b);
    }
  }

  /** `_clean_text_series` on one value that is already text: NBSP becomes
      a space, every BOM is dropped, then the ends are stripped. */
  function Clean(s: string): (r: string)
    ensures IsStripped(r) && Nbsp !in r && Bom !in r
    ensures forall c :: c in r ==> c in s || c == ' '
    ensures forall i | 0 <= i < |s| && !IsPadding(s[i]) :: s[i] in r
    ensures |r| == 0 <==> forall i | 0 <= i < |s| :: IsPadding(s[i])
  {
    var t := RemoveBom(ReplaceNbsp(s));
    StripKeeps(t);
    CleanKeepsText(s);
    Strip(t)
  }

  /** Cleaning keeps every character that is neither whitespace nor a
      BOM, and leaves nothing of text made only of those. */
  lemma CleanKeepsText(s: string)
    ensures var r := Strip(RemoveBom(ReplaceNbsp(s)));
      (forall i | 0 <= i < |s| && !IsPadding(s[i]) :: s[i] in r) &&
      ((forall i | 0 <= i < |s| :: IsPadding(s[i])) ==> |r| == 0)
  {
    var t := ReplaceNbsp(s);
    var u := RemoveBom(t);
    var r := Strip(u);
    RemoveBomKeeps(t);
    forall i | 0 <= i < |s| && !IsPadding(s[i]) ensures s[i] in r {
      assert t[i] == s[i];
      StripKeepsText(u, s[i]);
    }
    if forall i | 0 <= i < |s| :: IsPadding(s[i]) {
      CleanPaddingIsSpace(s);
      StripPadded(u, [], []);
      assert u + [] + [] == u;
    }
  }

  /** Stripping keeps every character that is not whitespace. */
  lemma StripKeepsText(u: string, c: char)
    requires c in u && !IsSpace(c)
    ensures c in Strip(u)
  {
    var a, b := StripIsSlice(u);
    var p :| 0 <= p < |u| && u[p] == c;
    assert a <= p < b;
    assert Strip(u)[p - a] == c;
  }

  /** Cleaning removes exactly the padding of whitespace, NBSP and BOM
      around text that is already clean: `Clean(a + core + b) == core`. */
  lemma CleanPadded(a: string, core: string, b: string)
    requires forall i | 0 <= i < |a| :: IsPadding(a[i])
    requires forall i | 0 <= i < |b| :: IsPadding(b[i])
    requires IsStripped(core) && Nbsp !in core && Bom !in core
    ensures Clean(a + core + b) == core
  {
    ReplaceNbspAppend(a + core, b);
    ReplaceNbspAppend(a, core);
    assert ReplaceNbsp(core) == core;
    var a', b' := ReplaceNbsp(a), ReplaceNbsp(b);
    RemoveBomAppend(a' + core, b');
    RemoveBomAppend(a', core);
    RemoveBomNoop(core);
    CleanPaddingIsSpace(a);
    CleanPaddingIsSpace(b);
    StripPadded(RemoveBom(a'), core, RemoveBom(b'));
  }

  /** Cleaning leaves a clean tail followed only by padding as it is,
      whatever comes before it: `Clean(s + tail + b)` ends in `tail`. */
  lemma CleanKeepsTail(s: string, tail: string, b: string) returns (q: string)
    requires |tail| > 0 && IsStripped(tail) && Nbsp !in tail && Bom !in tail
    requires forall i | 0 <= i < |b| :: IsPadding(b[i])
    ensures Clean(s + tail + b) == q + tail
  {
    var p, c := CleanSplit(s, tail, b);
    q := StripKeepsTail(p, tail, c);
  }

  /** Cleaning text made of `s`, a clean `tail` and padding `b` strips `p +
      tail + c`, where `c` is whitespace. */
  lemma CleanSplit(s: string, tail: string, b: string) returns (p: string, c: string)
    requires Nbsp !in tail && Bom !in tail
    requires forall i | 0 <= i < |b| :: IsPadding(b[i])
    ensures AllSpace(c) && Clean(s + tail + b) == Strip(p + tail + c)
  {
    ReplaceNbspAppend(s + tail, b);
    ReplaceNbspAppend(s, tail);
    assert ReplaceNbsp(tail) == tail;
    var s', b' := ReplaceNbsp(s), ReplaceNbsp(b);
    RemoveBomAppend(s' + tail, b');
    RemoveBomAppend(s', tail);
    RemoveBomNoop(tail);
    CleanPaddingIsSpace(b);
    p, c := RemoveBom(s'), RemoveBom(b');
  }

  /** Stripping `p + tail + c`, with `c` whitespace and `tail` not starting
      or ending with whitespace, only cuts into `p`. */
  lemma StripKeepsTail(p: string, tail: string, c: string) returns (q: string)
    requires |tail| > 0 && IsStripped(tail) && AllSpace(c)
    ensures Strip(p + tail + c) == q + tail
  {
    var x := p + tail;
    var u := x + c;
    assert x[|x| - 1] == tail[|tail| - 1];
    TrimEndPadded(x, c);
    var k := LeadingSpace(x);
    assert k <= |p| by {
      assert x[|p|] == tail[0];
    }
    q := p[k..];
    assert u[..|x|] == x;
    assert x[k..] == q + tail;
  }

  /** Stripping only removes characters. */
  lemma StripKeeps(t: string)
    ensures forall c :: c in Strip(t) ==> c in t
  {
    var r := Strip(t);
    var i, j := StripIsSlice(t);
    assert forall k | 0 <= k < |r| :: r[k] == t[i + k];
  }

  /** Characters that cleaning turns into nothing or into whitespace. */
  predicate IsPadding(c: char) {
    IsSpace(c) || c == Bom
  }

  lemma {:induction false} CleanPaddingIsSpace(p: string)
    requires forall i | 0 <= i < |p| :: IsPadding(p[i])
    ensures AllSpace(RemoveBom(ReplaceNbsp(p)))
  {
    var t := ReplaceNbsp(p);
    assert forall i | 0 <= i < |t| :: IsPadding(t[i]);
    var u := RemoveBom(t);
    forall i | 0 <= i < |u| ensures IsSpace(u[i]) {
      assert u[i] in u;
      assert u[i] in t && u[i] != Bom;
    }
  }

  /** Text that is already clean is left as it is. */
  lemma CleanOfClean(s: string)
    requires IsStripped(s) && Nbsp !in s && Bom !in s
    ensures Clean(s) == s
  {
    assert ReplaceNbsp(s) == s;
    RemoveBomNoop(s);
    StripPadded([], s, []);
    assert [] + s + [] == s;
  }

  lemma {:induction false} RemoveBomNoop(s: string)
    requires Bom !in s
    ensures RemoveBom(s) == s
    decreases |s|
  {
    if |s| > 0 {
      assert s[1..] + [] == s[1..];
      assert forall c :: c in s[1..] ==> c in s;
      RemoveBomNoop(s[1..]);
      assert [s[0]] + s[1..] == s;
    }
  }

  // ---------------------------------------------------------------- decimal

  function DigitValue(c: char): nat
    requires IsDigit(c)
  {
    (c as int - '0' as int) as nat
  }

  function DigitChar(d: nat): (c: char)
    requires d < 10
    ensures IsDigit(c) && DigitValue(c) == d
  {
    ('0' as int + d) as char
  }

  /** The value of a string of ASCII digits, most significant first
      (`pd.to_numeric` on a captured digit group). */
  function DigitsValue(s: string): nat
    requires AllDigits(s)
    decreases |s|
  {
    if |s| == 0 then 0
    else DigitsValue(s[..|s| - 1]) * 10 + DigitValue(s[|s| - 1])
  }

  /** `str(n)` for a natural number. */
  function ShowNat(n: nat): (r: string)
    ensures |r| > 0 && AllDigits(r)
    decreases n
  {
    if n < 10 then [DigitChar(n)] else ShowNat(n / 10) + [DigitChar(n % 10)]
  }

  /** `str(i)` for an integer. */
  function ShowInt(i: int): (r: string)
    ensures |r| > 0
  {
    if i < 0 then "-" + ShowNat(-i) else ShowNat(i)
  }

  /** Reading back the digits `str` printed gives the number. */
  lemma {:induction false} ShowNatRoundTrip(n: nat)
    ensures DigitsValue(ShowNat(n)) == n
    decreases n
  {
    if n >= 10 {
      var s := ShowNat(n);
      assert s[..|s| - 1] == ShowNat(n / 10);
      ShowNatRoundTrip(n / 10);
    }
  }

  /** An optional sign followed by one or more ASCII digits. */
  predicate IsIntLiteral(s: string) {
    || (|s| > 0 && AllDigits(s))
    || (|s| > 1 && (s[0] == '-' || s[0] == '+') && AllDigits(s[1..]))
  }

  /** Python's `int(s)` for a string already stripped: an optional sign
      followed by one or more ASCII digits, read in base ten. */
  function ParseInt(s: string): (r: Option<int>)
    ensures r.Some? <==> IsIntLiteral(s)
    ensures r.Some? && s[0] != '-' ==> r.value >= 0
    ensures r.Some? && s[0] == '-' ==> r.value <= 0
    ensures r.Some? && AllDigits(s) ==> r.value == DigitsValue(s)
    ensures r.Some? && !AllDigits(s) ==>
      r.value == if s[0] == '-' then -(DigitsValue(s[1..]) as int) else DigitsValue(s[1..])
  {
    if |s| > 0 && (s[0] == '-' || s[0] == '+') then
      var digits := s[1..];
      if |digits| > 0 && AllDigits(digits) then
        var v: int := DigitsValue(digits);
        Some(if s[0] == '-' then -v else v)
      else None
    else if |s| > 0 && AllDigits(s) then Some(DigitsValue(s))
    else None
  }

  /** A sign before the digits: `+` reads as the bare digits, `-` as their
      negation. */
  lemma ParseSigned(d: string)
    requires |d| > 0 && AllDigits(d)
    ensures ParseInt("+" + d) == ParseInt(d) == Some(DigitsValue(d))
    ensures ParseInt("-" + d) == Some(-(DigitsValue(d) as int))
  {
    assert ("+" + d)[1..] == d && ("-" + d)[1..] == d;
  }

  /** `int(str(i)) == i`. */
  lemma ParseShowInt(i: int)
    ensures ParseInt(ShowInt(i)) == Some(i)
  {
    if i < 0 {
      ShowNatRoundTrip(-i);
      assert ShowInt(i)[1..] == ShowNat(-i);
    } else {
      ShowNatRoundTrip(i);
    }
  }

  /** A digit string without a leading zero is exactly what `str` prints
      for the number it denotes: with `ParseShowInt`, `int` and `str` are
      inverse on such strings. */
  lemma {:induction false} ShowDigitsValue(s: string)
    requires |s| > 0 && AllDigits(s) && (s[0] != '0' || |s| == 1)
    ensures ShowNat(DigitsValue(s)) == s
    decreases |s|
  {
    var t := s[..|s| - 1];
    if |t| > 0 {
      DigitsValueAtLeastFirst(t);
      assert t[0] == s[0];
      ShowDigitsValue(t);
      var n := DigitsValue(s);
      assert n / 10 == DigitsValue(t) && n % 10 == DigitValue(s[|s| - 1]);
      assert s == t + [s[|s| - 1]];
    }
  }

  lemma {:induction false} DigitsValueAtLeastFirst(s: string)
    requires |s| > 0 && AllDigits(s)
    ensures DigitsValue(s) >= DigitValue(s[0])
    decreases |s|
  {
    if |s| > 1 {
      var t := s[..|s| - 1];
      assert t[0] == s[0];
      DigitsValueAtLeastFirst(t);
    }
  }

  /** Leading zeros do not change the value `int` reads. */
  lemma {:induction false} ParseLeadingZero(s: string)
    requires |s| > 0 && AllDigits(s)
    ensures ParseInt("0" + s) == ParseInt(s)
    decreases |s|
  {
    var z := "0" + s;
    assert AllDigits(z);
    if |s| > 1 {
      var t := s[..|s| - 1];
      assert z[..|z| - 1] == "0" + t;
      ParseLeadingZero(t);
    } else {
      assert z[..|z| - 1] == "0" && z[|z| - 1] == s[0];
      assert DigitsValue("0") == 0;
      assert s[..0] == "";
    }
  }
}

=== FILE: wrappers.dfy ===
/** Option and Result, the failure-compatible carriers every stage of the
    pipeline returns instead of raising. */
module Wrappers {

  datatype Option<+T> = None | Some(value: T) {

    predicate IsFailure() {
      None?
    }

    function PropagateFailure<U>(): Option<U>
      requires None?
    {
      None
    }

    function Extract(): T
      requires Some?
    {
      value
    }
  }

  datatype Result<+T, +E> = Success(value: T) | Failure(error: E) {

    predicate IsFailure() {
      Failure?
    }

    function PropagateFailure<U>(): Result<U, E>
      requires Failure?
    {
      Failure(error)
    }

    function Extract(): T
      requires Success?
    {
      value
    }
  }
}

/** The error kinds the pipeline raises, one constructor per distinct
    exception of the program. */
module Errors {

  /** The statements of the loader's transaction, in the order they run. */
  datatype Stage =
    | Truncate
    | UpsertDisciplines
    | UpsertSchools
    | UpsertStreams
    | UpsertDescriptions
    | AppendSections
    | Commit

  datatype Error =
    /** A column selected by name is not in the frame (pandas KeyError). */
    | KeyError(column: string)
    /** The merge suffixes would give one side two columns of the same
        name (pandas MergeError). */
    | MergeError
    /** Not an exception of the program: the merged columns of the two
        sides would share a name, which pandas allows but a frame of this
        model cannot hold. */
    | DuplicateColumns
    /** No id-extraction strategy reached its threshold (ValueError). */
    | ExtractionFailed
    /** The accepted strategy still left `bad` of `total` rows without an id. */
    | ExtractionIncomplete(strategy: string, bad: nat, total: nat)
    /** The number of distinct extracted ids is not the master row count. */
    | NotUniqueOrComplete(unique: nat, expected: nat)
    /** The inner merge did not return one row per master row. */
    | JoinFailed(expected: nat, got: nat)
    /** `int(...)` of a description id that is not an integer literal. */
    | NotAnInteger(text: string)
    /** A statement of the load transaction raised; the transaction was rolled back. */
    | DatabaseError(stage: Stage)
    /** One of the three input files does not exist. */
    | FileNotFound
    /** The stand-alone script stopped with this exit status. */
    | SystemExit(status: int)
}
